=== FILE: README.md ===
# Bangumi crawler and analysis, modelled in Dafny

A model of the crawler and the analysis scripts of the Bangumi coursework repository.

The crawler side has four parts:

- The rank scanner walks the ranking pages of one subject kind and saves the subject codes it finds.
- The detail crawlers fetch the catalogue API record of every code. Each record is flattened into a table row: cover columns, a tag table, infobox columns and four rating columns. The table is saved after every batch (anime) or once at the end (music).
- The fetching layer retries every request up to three times, re-raises a 404, and logs URLs that keep failing.
- `main` reuses a checkpoint file of codes when one exists and scans otherwise.

The analysis side covers three scripts:

- Tag statistics: per-tag frequencies, and the per-year table of the most chosen tags.
- Music statistics: composer frequencies, label counts and their pie slices, records per year.
- Anime statistics: the (studio, year) table of the studios with the largest totals, records per year.

Everything that talks to the outside world is a parameter:

- what each HTTP attempt answers, and the random pause after it;
- the order in which pool workers finish;
- what `json.loads` makes of a body;
- the links the HTML selector finds in a page;
- whether the checkpoint file exists, and the rows a CSV reader yields.

Python exceptions are values of `Outcome.Result` (`Ok` or `Raise`). The error paths of the modelled code are part of the model. The few places where the model raises a different exception than Python would are listed under "Left out".

Layout, one module per file:

- Foundations:
  - `outcome` (Option, Result, Python exceptions);
  - `order` (string order, sorted listing of a set);
  - `sums` (sums over sets and sequences);
  - `text` (`split`, `join`, `replace`, lines of a text);
  - `numerals` (`str` and `int` on integers, with the decimal digits and whitespace of every script);
  - `json` (module `JsonValue`: JSON values, dictionary keys and Python iteration over them);
  - `permutation` (completion orders);
  - `seqs` (a fact about concatenation);
  - `counting` (`Counter` and `value_counts`);
  - `selection` (`nlargest`);
  - `dates` (the rows with a date, and their years).
- Crawler: `base_crawler`, `flatten`, `anime_crawler`, `music_crawler`, `rank_crawler`, `crawler_main`.
- Analysis: `tag_analysis`, `music_analysis`, `anime_analysis`.

## Model

| member | source | states |
|---|---|---|
| BaseCrawler.Handle | crawler/base_crawler.py:56-73 | From attempt `i` on: the handler gives up exactly when every remaining attempt fails, and then it has made three attempts. Otherwise it stops at the first attempt that does not fail, and that attempt's answer decides the ending. One pause of 2 + jitter follows every failed attempt. Only giving up logs the URL. |
| BaseCrawler.RequestsHandler | crawler/base_crawler.py:44-73 | It makes between one and three attempts. It returns a body exactly when some attempt answers before any attempt other than a failure; then every earlier attempt failed and the body is that attempt's answer. A 404 is raised at once after failures only. It gives up, logging the URL once, exactly when all three attempts fail. With jitter in [0, 2], every pause lies in [2, 4] seconds. |
| BaseCrawler.SaveFailedUrl | crawler/base_crawler.py:76-84 | The log only grows: the old log is a prefix, followed by the URL and one newline. |
| BaseCrawler.SaveFailedUrlAddsLine | crawler/base_crawler.py:76-84 | Read as lines, a log of complete lines gains exactly the URL as its last line. |
| BaseCrawler.CollectResults | crawler/base_crawler.py:38-40 | Collecting in completion order raises HTTPError 404 exactly when some worker raised a 404. Otherwise there is one result per worker, in completion order. |
| BaseCrawler.Logged | crawler/base_crawler.py:70-72 | A URL is in the collected log exactly when some worker's trace logged it. |
| BaseCrawler.AppendLogged | crawler/base_crawler.py:83-84 | Appending the workers' logged URLs only ever extends the log file. |
| BaseCrawler.AppendLoggedLines | crawler/base_crawler.py:83-84 | Read as lines, the log gains exactly the appended URLs, in order. |
| BaseCrawler.Completed | crawler/base_crawler.py:31-40 | Completion order k holds the trace of the worker for URL order[k], so there is one trace per URL. |
| BaseCrawler.CompletedHas | crawler/base_crawler.py:31-40 | Some worker's trace has a property exactly when some finished trace has it, whatever the completion order. |
| BaseCrawler.FetchData | crawler/base_crawler.py:21-41 | fetch_data raises HTTPError 404 exactly when some URL's handler raised a 404. Otherwise the results are the per-URL results in completion order. The failed-URL log is only extended. |
| BaseCrawler.FetchDataPermutes | crawler/base_crawler.py:21-41 | Without a 404, the results are a rearrangement of the per-URL results: none is lost or repeated. |
| BaseCrawler.LoggedAreGaveUp | crawler/base_crawler.py:38-40 | The logged URLs are exactly the URLs of the workers that gave up. |
| BaseCrawler.FetchDataLogsFailures | crawler/base_crawler.py:21-41 | The old log lines stay in front, whether or not the call raised. The new lines are exactly the URLs whose three attempts all failed: one line per worker that gave up, so a URL submitted twice that fails twice is logged twice. |
| JsonValue.Elements | crawler/anime_crawler.py:80-84 | A `for` loop over a list visits its items. Over a dict it succeeds and visits every key once, as a string. Over a string it succeeds and visits its one-character strings in order. Over a number, boolean or None it raises TypeError. |
| JsonValue.KeyOf | crawler/anime_crawler.py:80-84 | A value can key a dictionary exactly when it is not a list or dict. A string is keyed by itself and None by one key. A number is keyed by its value, so 1, 1.0 and True are one key. |
| Numerals.DecimalValue | crawler/anime_crawler.py:92 | A character is a decimal digit exactly when it lies within ten code points above the zero of a run of digits of Unicode 15.0. Its value is its distance from that zero. |
| Numerals.ParseIntToString | crawler/anime_crawler.py:92 | `int()` reads back exactly the integer `str` wrote, for every integer of at most 4300 digits. Beyond that Python 3.12's `str` itself raises ValueError. |
| Numerals.TooManyDigitsRaises | crawler/anime_crawler.py:92 | `int()` raises ValueError for a well-formed numeral of more than 4300 digits (the default `sys.int_max_str_digits`); underscores do not count as digits. |
| Numerals.IntToStringInjective | crawler.py:77-79 | Different integers are written differently. |
| Numerals.ParseOneDigit | crawler/anime_crawler.py:92 | `int()` reads one decimal digit of any script as its value. |
| Numerals.SeparatorFirstRaises | crawler/anime_crawler.py:92 | `int()` raises ValueError for a string that starts with an information separator (U+001C to U+001F). Below code point 127 `int()` strips only tab, line feed, vertical tab, form feed, carriage return and space, although `str.isspace` also accepts the separators. |
| Flatten.Covers | crawler/anime_crawler.py:74-76 | A column is a cover column exactly when it is some image size followed by "_cover". Its value is that size's URL. |
| Flatten.CoverOfSize | crawler/anime_crawler.py:74-76 | Every image size gets its own cover column, holding that size's URL. |
| Flatten.PairTable | crawler/anime_crawler.py:80-84 | The comprehension succeeds exactly when every element is a dict with both fields and a name that can be a key, that is, not a list or dict. Otherwise it raises the error of the first element that is not. |
| Flatten.PairTableKeys | crawler/anime_crawler.py:80-84 | A key is in the table exactly when some element's name is that key. |
| Flatten.PairTableLastWins | crawler/anime_crawler.py:80-84 | The table maps a key to the value of the last element whose name is that key. |
| Flatten.WeightedScoreSum | crawler/anime_crawler.py:92 | The weighted score sum raises ValueError for a score `int()` cannot read; `int()` accepts at most 4300 digits of any script and the whitespace it strips around them (ASCII tab to carriage return and space, and the Unicode whitespace above code point 126). It raises TypeError for a count that is not an integer. Otherwise it equals the order-independent sum of score times count. |
| Flatten.TrueDivide | crawler/anime_crawler.py:91-93 | Division by a non-number raises TypeError and division by zero raises ZeroDivisionError. Otherwise the quotient times the divisor gives back the numerator. |
| Flatten.RatingScore | crawler/anime_crawler.py:90-93 | A `count` that is not a dict raises AttributeError. Then a score `int()` cannot read raises ValueError, a count that is not an integer raises TypeError, a `total` that is not a number raises TypeError, and a zero total raises ZeroDivisionError. It succeeds exactly when none of these happens, apart from the OverflowError of a quotient beyond the float range, which is not modelled. The score is the order-independent weighted sum divided by the total. |
| Flatten.LongScoreRaises | crawler/anime_crawler.py:92 | A rating table with a score key of more than 4300 digits raises ValueError, as `int()` does on such a key. |
| Flatten.SeparatorScoreRaises | crawler/anime_crawler.py:92 | A rating table with a score key that starts with an information separator (U+001C to U+001F) raises ValueError, as `int()` does on such a key. |
| Flatten.ReadRating | crawler/anime_crawler.py:88-93 | `rank`, `total` and `count` are read in that order, and the first read that fails raises its error. Then the score's error is raised. It succeeds exactly when the rating object is readable, and then returns the three fields and the score. |
| Flatten.UnpackImages | crawler/anime_crawler.py:74-78 | A missing `images` raises KeyError, and `images` that is not a dict raises AttributeError. It succeeds exactly otherwise. Then `images` is replaced by the cover columns, which win over same-named fields, and every other field is kept. |
| Flatten.UnpackTags | crawler/anime_crawler.py:80-82 | A missing `tags` raises KeyError, and a bad tag list raises its comprehension's error. It succeeds exactly otherwise. Then only `tags` changes, and it becomes the name-to-count table. |
| Flatten.UnpackInfobox | crawler/anime_crawler.py:84-86 | A missing `infobox` raises KeyError, and a bad entry list raises its comprehension's error. It succeeds exactly otherwise. Then `infobox` is replaced by its entries, which win over same-named columns. |
| Flatten.UnpackRating | crawler/anime_crawler.py:88-98 | A missing `rating` raises KeyError; otherwise the rating step's first error is raised. It succeeds exactly when the rating object is readable. Then `rating` is dropped, rank, votes, ratings and rating_score hold its fields and score, and every other column is kept. |
| Flatten.Rated | crawler/anime_crawler.py:94-98 | The final row drops `rating` and holds rank, votes, ratings and rating_score from the rating. Every other column is unchanged. |
| Flatten.FlattenRecord | crawler/anime_crawler.py:68-98 | A non-dict record raises TypeError. Then each step's error comes in source order: images, tags, infobox, a `rating` found neither in the infobox nor in the record, and the rating step's own error. A record flattens exactly when none of these happens. Its row holds the four rating columns and `tags`, and no `rating`. |
| Flatten.TagStage | crawler/anime_crawler.py:74-82 | The image and tag steps raise their errors in source order and succeed exactly when both succeed. Then `tags` is the tag table, and `infobox` and `rating` are still the record's own fields. |
| Flatten.InfoboxStage | crawler/anime_crawler.py:74-86 | After the first two steps, a missing `infobox` raises KeyError and a bad entry list raises its error. It succeeds exactly when all three steps do. Then `rating` is the infobox's entry if it has one, and the record's own field otherwise. |
| Flatten.Stages | crawler/anime_crawler.py:74-98 | A record that flattens passes through the four steps in source order. The tag step sees the original tags, and the infobox step sees the original infobox. |
| Flatten.FlattenColumns | crawler/anime_crawler.py:74-98 | The columns of a flattened record are exactly the rating columns, the infobox names, `tags`, the cover columns and the other original fields. `images`, `infobox` and `rating` are dropped. |
| Flatten.ColumnPrecedence | crawler/anime_crawler.py:74-98 | Later steps overwrite earlier ones. An infobox entry beats the tag table, the tag table beats cover columns, and cover columns beat original fields. |
| Flatten.RatingColumnsFromSource | crawler/anime_crawler.py:84-98 | The rating columns come from the rating object the infobox merge left: an infobox entry named `rating` replaces the record's own. The score is the order-independent weighted sum divided by a non-zero vote total. |
| Flatten.FlattenMusicRecord | crawler/music_crawler.py:45-69 | The music variant raises KeyError for a missing `nsfw`, then for a missing `locked`. A list record raises TypeError and any other non-dict raises AttributeError. Otherwise it is the anime flattening without those two fields. |
| AnimeCrawler.SubjectUrl | crawler/anime_crawler.py:19 | A code's URL is the subject endpoint followed by exactly the code. |
| AnimeCrawler.SubjectUrlInjective | crawler/anime_crawler.py:19 | Different codes are requested at different URLs. |
| AnimeCrawler.BatchUrls | crawler/anime_crawler.py:49-52 | A batch gets one URL per code, in order. |
| AnimeCrawler.Chunks | crawler/anime_crawler.py:48-51 | Every batch is non-empty and at most `n` long, and all but the last hold exactly `n` codes. |
| AnimeCrawler.ChunksConcat | crawler/anime_crawler.py:48-51 | Laid end to end, the batches give back the codes, so every code is in exactly one batch, in order. |
| AnimeCrawler.ChunkSlices | crawler/anime_crawler.py:48-51 | Batch `k` is the slice of the codes that starts at k·n and holds at most `n` codes. |
| AnimeCrawler.BatchIsSlice | crawler/anime_crawler.py:47-51 | Batch `k` of the crawl is `codes[50k : 50k + 50]`. |
| AnimeCrawler.ChunkCount | crawler/anime_crawler.py:48 | There are ceil(len(codes) / n) batches. |
| AnimeCrawler.Record | crawler/anime_crawler.py:67-68 | A `None` body raises TypeError and an unparseable body raises a JSON decode error. A parsed body gives its flattened record. |
| AnimeCrawler.MapAll | crawler/anime_crawler.py:67-100 | The loop succeeds exactly when every element succeeds, and then gives one result per element in order. Otherwise it raises an error that some element raised. |
| AnimeCrawler.ProcessBodies | crawler/anime_crawler.py:59-100 | process_anime_info gives one row per body, in arrival order, when every body flattens. Otherwise it raises a bad body's exception. |
| AnimeCrawler.Crawl | crawler/anime_crawler.py:48-57 | There is at most one save per batch. The crawl ends normally exactly when every batch saved, and then returns the last save. An exception comes from the first unsaved batch. Each save extends the previous one by its batch's rows. |
| AnimeCrawler.SavesStep | crawler/anime_crawler.py:48-56 | One successful batch followed by the saves of the remaining batches keeps every save one batch ahead of the previous one. |
| AnimeCrawler.BatchRows | crawler/anime_crawler.py:53-54 | An exception from fetch_data propagates; otherwise the batch's rows are the processed bodies. |
| AnimeCrawler.GetAnimeInfo | crawler/anime_crawler.py:33-57 | There is at most one save per batch, and the crawl ends normally exactly when every batch saved, returning the last save. Save `k` is save `k-1` plus the rows of batch `k`, and that batch succeeded. An exception is the one the first unsaved batch raised. |
| AnimeCrawler.CrawlSaveSizes | crawler/anime_crawler.py:54-56 | When every batch gives one row per code, save `k` has one row per code of batches 0..k. |
| AnimeCrawler.BatchRowsLength | crawler/anime_crawler.py:53-54 | With one fetch result per URL, a batch that succeeds gives one row per code. |
| AnimeCrawler.SavesCoverBatches | crawler/anime_crawler.py:48-56 | With one fetch result per URL, save `k` holds one row per code of the first k+1 batches. |
| AnimeCrawler.OneRowPerCode | crawler/anime_crawler.py:33-57 | A crawl that ends normally, with one fetch result per URL, returns exactly one row per code. |
| AnimeCrawler.FetcherOneResultPerUrl | crawler/base_crawler.py:21-41 | `fetch_data`, as the crawler calls it, returns one result per URL whenever it does not raise. |
| AnimeCrawler.FetchedRowPerCode | crawler/anime_crawler.py:33-57 | With the real `fetch_data`, a crawl that ends normally returns exactly one row per code. |
| AnimeCrawler.CrawlRowsCount | crawler/anime_crawler.py:48-57 | When every batch gives one row per code, a crawl that ends normally adds one row per code. |
| MusicCrawler.MusicRecord | crawler/music_crawler.py:45-69 | An unparseable body raises a JSON decode error; a parsed body gives its music flattening. |
| MusicCrawler.UrlLoop | crawler/music_crawler.py:41-73 | The loop requests a prefix of the URLs, and a row comes from each fetched body in order. A normal end before the last URL comes right after a falsy fetch. An exception comes from the last URL requested. |
| MusicCrawler.LoopStep | crawler/music_crawler.py:41-73 | A good first URL in front of a loop that ended properly gives a loop that ended properly. |
| MusicCrawler.GetMusicInfo | crawler/music_crawler.py:32-75 | get_music_info saves the table exactly once, after the loop, even when the loop stopped early. The save holds the returned rows. An exception means no save. |
| MusicCrawler.MusicRowsArePrefix | crawler/music_crawler.py:41-75 | A finished crawl returns the records of a prefix of the codes, one per code, in order. The code after that prefix fetched nothing. |
| MusicCrawler.StopsAtFirstEmpty | crawler/music_crawler.py:44-73 | Nothing after the first code whose fetch gives nothing is requested or recorded. |
| RankCrawler.NewCrawler | crawler/rank_crawler.py:7-11 | Construction succeeds exactly for the five ranked kinds, and any other kind fails the assert. The crawler's URL is the kind's ranking URL. |
| RankCrawler.RankUrlInjective | crawler/rank_crawler.py:11 | Different kinds have different ranking URLs. |
| RankCrawler.PageUrlInjective | crawler/rank_crawler.py:24 | Different pages of one ranking have different URLs. |
| RankCrawler.Ids | crawler/rank_crawler.py:31 | No extracted code contains a '/'. |
| RankCrawler.IdsOfLink | crawler/rank_crawler.py:31 | Every link of a page contributes its last path segment. |
| RankCrawler.PageUrls | crawler/rank_crawler.py:23-24 | There is one URL per page from `page` to `max_page`, in ascending order, and none when the range is empty. |
| RankCrawler.Requested | crawler/rank_crawler.py:23-33 | The scan requests a prefix of the page URLs, and every requested page but the last was truthy. An early stop comes right after a falsy page. |
| RankCrawler.CollectedHasPage | crawler/rank_crawler.py:26-31 | Every fetched page's codes are collected. |
| RankCrawler.CollectedFromPage | crawler/rank_crawler.py:26-31 | Every collected code comes from some fetched page. |
| RankCrawler.CollectedHaveNoSlash | crawler/rank_crawler.py:31 | No collected code contains a '/'. |
| RankCrawler.ScanPages | crawler/rank_crawler.py:21-33 | Pages are requested in ascending order from `page` until the last page or the first falsy fetch. The codes are those of the fetched pages. |
| RankCrawler.CodesTable | crawler/rank_crawler.py:14-19 | The saved table is the header row followed by one row per code, in order. |
| RankCrawler.SetTableRows | crawler/rank_crawler.py:18-19 | Every row after the header holds one element of the set. |
| RankCrawler.SetTableDistinct | crawler/rank_crawler.py:18-19 | No code is written twice. |
| RankCrawler.SetTableCovers | crawler/rank_crawler.py:18-19 | Every code of the set is written. |
| RankCrawler.GetSubjectCodes | crawler/rank_crawler.py:21-35 | The codes are saved whether or not the scan stopped early: the header, then each found code exactly once, and nothing else. |
| RankCrawler.NoPagesNoRequests | crawler/rank_crawler.py:23-34 | With `max_page` below 1, nothing is requested and only the header is saved. |
| RankCrawler.PagesBeforeWereFetched | crawler/rank_crawler.py:23-33 | Page `p` is requested only after every earlier page was fetched truthily. |
| CrawlerMain.PathJoin | crawler.py:77-79 | Joining with an absolute name gives that name. Otherwise the name follows the directory after exactly one '/'. |
| CrawlerMain.PathJoinInjective | crawler.py:77-79 | Under one directory, different relative names give different paths. |
| CrawlerMain.SplitAtLastUnderscore | crawler.py:78 | A name with an underscore-free last field determines that field and everything before it. |
| CrawlerMain.CheckpointNameInjective | crawler.py:78 | Different (kind, start, end) triples name different checkpoint files. |
| CrawlerMain.CheckpointPathInjective | crawler.py:77-79 | Different triples give different checkpoint paths in the same directory. |
| CrawlerMain.FirstFields | crawler.py:88 | Reading the first fields raises IndexError exactly when some row is empty. Otherwise it gives one first field per row. |
| CrawlerMain.LoadCodes | crawler.py:84-88 | An empty file raises StopIteration; otherwise the header is skipped before reading. |
| CrawlerMain.LoadSavedCodes | crawler.py:84-88 | Loading a header-plus-one-code-per-row table gives the codes back, in order. |
| CrawlerMain.LoadScannedCodes | crawler.py:84-88 | Loading what the rank scan saved gives back exactly the codes it found, each once. |
| CrawlerMain.Bearer | crawler.py:92 | The header is "Bearer " followed by the token, or "Bearer None" without one. |
| CrawlerMain.DetailFor | crawler.py:95-100 | Only "music" starts the music crawler and only "anime" starts the anime crawler, and each gets the codes. |
| CrawlerMain.Main | crawler.py:70-100 | main scans exactly when the checkpoint is missing, and fails exactly when getting the codes fails. It sends exactly the two headers, then dispatches on the kind. |
| CrawlerMain.ResumeFromCheckpoint | crawler.py:77-100 | A second run over a checkpoint in the saved format skips the scan and dispatches the same codes with the same headers. |
| Text.Split | analysis/music_analysis.py:22 | `split` gives at least one piece, and no piece contains the separator. |
| Text.JoinSplit | analysis/music_analysis.py:22 | Joining the pieces with the separator gives back the string. |
| Text.SplitJoin | analysis/music_analysis.py:22 | Splitting a join of separator-free pieces gives back the pieces. |
| Text.SplitCount | analysis/music_analysis.py:22 | A string with `k` separators splits into k+1 pieces. |
| Text.LastSegment | crawler/rank_crawler.py:31 | The last segment is a '/'-free suffix of the link that starts right after a '/' or at the start. |
| Text.ReplaceChar | analysis/anime_analysis.py:24 | Replacing one character changes exactly its occurrences and keeps the length. |
| Text.ReplaceCharCount | analysis/anime_analysis.py:24 | After replacing `a` by `b`, no `a` is left and every former `a` is a `b`. |
| Text.ReplaceCount | analysis/anime_analysis.py:25 | Replacing a pattern by `c` adds one `c` per non-overlapping match. |
| Text.AppendLine | crawler/base_crawler.py:83-84 | Appending a line and a newline to a text of complete lines adds exactly that line. |
| Counting.Tally | analysis/tag_analysis.py:37-42 | A key is counted exactly when it occurs, and its count is its number of occurrences. |
| Counting.TallyTotal | analysis/tag_analysis.py:37-42 | The counts add up to the number of elements. |
| Counting.SortedCounts | analysis/music_analysis.py:32 | There is one entry per distinct value, in strictly ascending order, and each carries its count. |
| Counting.SortedCountsTotal | analysis/music_analysis.py:32 | The per-value counts add up to the number of values. |
| Selection.SortDescending | analysis/anime_analysis.py:83 | The sort is a rearrangement of the entries, largest value first. Distinct labels stay distinct. |
| Selection.Largest | analysis/anime_analysis.py:83 | `nlargest(n)` keeps the smaller of `n` and the number of candidates (none when `n` ≤ 0), largest first, drawn from the candidates without repetition. When `n` covers every candidate, all are kept. Distinct labels stay distinct. |
| Selection.LargestTakesAll | analysis/anime_analysis.py:83 | A selection shorter than asked for holds every candidate. |
| Selection.LargestDominates | analysis/anime_analysis.py:83 | No candidate left out is larger than a selected one. |
| Selection.Above | analysis/tag_analysis.py:97-98 | Each entry above the bound is kept as often as it occurs, and no other entry is kept. Distinct labels stay distinct. |
| Selection.AboveConcat | analysis/tag_analysis.py:97-98 | Filtering a concatenation filters each part in turn, so the kept entries keep their order. |
| Dates.Dated | analysis/music_analysis.py:17 | Each row with a date is kept as often as it occurs, and no row without one is kept. There are no more kept rows than rows. |
| Dates.DatedConcat | analysis/music_analysis.py:17 | Dropping undated rows of a concatenation drops them from each part in turn, so the kept rows keep their order. |
| Dates.Years | analysis/music_analysis.py:18-20 | There is one year per dated row, and it is that row's year. |
| Dates.YearCounts | analysis/music_analysis.py:32 | There is one entry per year of the dated rows, in strictly ascending order, with that year's number of rows. |
| Dates.YearCountsTotal | analysis/anime_analysis.py:18-37 | The year counts add up to the number of dated rows. |
| TagAnalysis.ChosenTagsCount | analysis/tag_analysis.py:37-42 | The generator yields a tag once per record that chose it often enough. |
| TagAnalysis.HoldersPositive | analysis/tag_analysis.py:37-42 | A tag has a holder exactly when some record chose it at least `min_count` times. |
| TagAnalysis.TagFrequency | analysis/tag_analysis.py:19-43 | Over the dated records, a tag is present exactly when some record chose it often enough. Its value is the number of such records. |
| TagAnalysis.FrequencyAntitone | analysis/tag_analysis.py:27-43 | Raising `min_count` never raises a tag's frequency. |
| TagAnalysis.FrequencyTotalBound | analysis/tag_analysis.py:27-43 | The frequencies add up to at most the number of (dated record, tag) entries. |
| TagAnalysis.CellIsYearSum | analysis/tag_analysis.py:95-96 | A (tag, year) cell is the sum of the tag's counts over the records of that year, a record without the tag counting 0. |
| TagAnalysis.TotalIsSumOfCells | analysis/tag_analysis.py:95-98 | A tag's total is the sum of its per-year cells. |
| TagAnalysis.AllTags | analysis/tag_analysis.py:95 | The candidate columns are exactly the tags of the dated records. |
| TagAnalysis.Totals | analysis/tag_analysis.py:95-98 | Every candidate tag appears with its total, once, and nothing else appears. |
| TagAnalysis.TopTags | analysis/tag_analysis.py:97-99 | The selection holds `top_n` distinct tags, or every tag whose total is above `min_count` when there are fewer; none when `top_n` ≤ 0. Each selected tag has a total above `min_count`, and the largest comes first. |
| TagAnalysis.TopTagsDominate | analysis/tag_analysis.py:97-99 | No tag above `min_count` that was left out has a larger total than a selected one. |
| TagAnalysis.TagYearTable | analysis/tag_analysis.py:84-101 | There is one row per selected tag, in selection order. Each row holds the tag's cell for every year of the data, in ascending year order. |
| MusicAnalysis.SplitComposers | analysis/music_analysis.py:22 | A field gives at least one composer, and no composer contains '、' or a vertical bar. |
| MusicAnalysis.SplitComposersCount | analysis/music_analysis.py:22 | There is one piece per '、' and per vertical bar, plus one. Joining them with a vertical bar gives the replaced field. |
| MusicAnalysis.ComposerFrequency | analysis/music_analysis.py:89 | A composer is present exactly when the dated rows name them. Their count is their number of mentions. |
| MusicAnalysis.CompanyCounts | analysis/music_analysis.py:56 | A label is present exactly when some dated row has it, and its count is positive. |
| MusicAnalysis.Large | analysis/music_analysis.py:67-71 | A label keeps its own slice exactly when it has at least 1% of the total. |
| MusicAnalysis.PieSlices | analysis/music_analysis.py:67-72 | The kept labels hold their own counts, and "其他" holds the sum over all the other labels. |
| MusicAnalysis.PieSlicesTotal | analysis/music_analysis.py:67-72 | The slices add up to the total, unless a label named "其他" kept its own slice. |
| AnimeAnalysis.SplitStudios | analysis/anime_analysis.py:22-27 | A field gives at least one studio, and no studio contains '、' or a vertical bar. |
| AnimeAnalysis.SplitStudiosCount | analysis/anime_analysis.py:22-27 | There is one piece per '、', per "&amp;" and per vertical bar, plus one. Joining them with a vertical bar gives the replaced field. |
| AnimeAnalysis.CellIsMentions | analysis/anime_analysis.py:72-81 | A (studio, year) cell counts the mentions of the studio in that year's dated rows. |
| AnimeAnalysis.StudioTotalCountsPairs | analysis/anime_analysis.py:72-83 | A studio's column total is the number of exploded pairs that name it. |
| AnimeAnalysis.TotalIsSumOfCells | analysis/anime_analysis.py:77-83 | A studio's total is the sum of its cells over the years of the table. |
| AnimeAnalysis.AllStudios | analysis/anime_analysis.py:72-81 | The columns of the table are exactly the studios some exploded pair names. |
| AnimeAnalysis.Totals | analysis/anime_analysis.py:83 | Every studio appears with its total, once, and nothing else appears. |
| AnimeAnalysis.TopStudios | analysis/anime_analysis.py:82-84 | The selection holds rows·columns distinct studios, or every studio when there are fewer; none for an empty layout. Each comes with its total, largest first. |
| AnimeAnalysis.TopStudiosDominate | analysis/anime_analysis.py:82-84 | No studio left out has a larger total than a selected one. |
| AnimeAnalysis.FacetTable | analysis/anime_analysis.py:72-85 | There is one column per selected studio, in selection order. Each column holds the studio's cell for every year of the table, in ascending year order. |
| AnimeAnalysis.ColumnTotal | analysis/anime_analysis.py:77-85 | A column over all years of the table adds up to the studio's total. |
| AnimeAnalysis.FacetColumnsSumToTotals | analysis/anime_analysis.py:72-85 | Every plotted column adds up to the total its studio was selected by. |

## Left out

- HTTP, threads, `time.sleep` and `random` are parameters. What each attempt answers, the jitter value, the completion order and `json.loads` are supplied from outside, and the pause is recorded as a number rather than slept.
- The headers dictionary, the request timeout and the pool size of eight workers are not modelled. The pool size changes only the completion order, which is a parameter.
- HTML parsing is a parameter: BeautifulSoup and the `.subjectCover` selector appear as `hrefsOf`.
- Files are modelled as values. The failed-URL log is a string. A saved CSV table is a sequence of rows of fields, without CSV quoting or pandas column layout. `DataFrame.to_csv` of a row list is modelled as the list of saved rows.
- The analysis scripts read the CSV through pandas. The model starts from rows whose `date` is already parsed to a year (missing for NaN), with the label, composer or studio fields present or missing.
- Plotting, pie rendering, word clouds, matplotlib and seaborn are left out. So are `analysis.py`, `main.py`, `get_hparams`, `get_config` and `parse_args` (argument parsing, YAML configuration, directory creation).
- `count_company_anime` is left out: it calls `value_counts` on a column of lists, which pandas rejects because lists are unhashable.
- The stale wiring in `main` is left out. It passes four arguments to `RankCrawler` and two to `MusicCrawler`, which fit neither constructor. `main` also looks for `{type}_subject_codes_{start}_{end}.csv` under the data path, while the scanner writes `./data/{type}_subject_codes.csv`. `CrawlerMain.Main` therefore takes the scan's codes and the checkpoint's existence and rows as parameters.
- RankCrawler.GetSubjectCodes writes the code set in ascending order; Python writes it in its own hash order. The contract fixes only that each code is written once.
- JsonValue.Elements iterates a dict's keys in ascending order rather than insertion order. So Flatten.WeightedScoreSum reports ValueError whenever some score is not a number, even where Python would first meet an earlier entry whose count raises TypeError.
- Flatten.WeightedScoreSum: counts that are floats or strings (string repetition) are not modelled; a count must be an integer or a boolean.
- Flatten.PairTable: when names such as 1, 1.0 and True collide, Python keeps the first name as the dictionary's key object and the last value. The model keeps one key per number and does not record which spelling labels the column.
- Numerals.ParseInt: the digit and whitespace tables are those of Unicode 15.0 (Python 3.12). Other Python versions use other tables.
- Flatten.TrueDivide: floats are modelled as exact reals, so neither rounding nor the OverflowError of an out-of-range quotient (or of an integer numerator too large to convert for a float divisor) is modelled.
- Flatten.RatingScore: for the same reason it succeeds where Python raises OverflowError, for example on a weighted sum of 10**400 over a total of 1.
- Numerals.IntToString: it writes every integer, whereas Python 3.12's `str()` and f-strings raise ValueError for more than 4300 digits. The integers the crawlers format are page numbers and checkpoint bounds.
- MusicAnalysis.Large: the 1% threshold is compared exactly (`100 * count >= total`), not in floating point.
- Selection.Largest: ties are broken stably in candidate order, whereas `nlargest` keeps the first occurrence. TagAnalysis.TopTags and AnimeAnalysis.TopStudios therefore state the selection up to ties, through the dominance lemmas.
- TagAnalysis.Totals lists the candidate tags in ascending order, not in the first-appearance column order `json_normalize` produces. Only the tie order of the selection depends on it. (AnimeAnalysis.Totals needs no such line: `groupby` sorts the studios, and `unstack` keeps that ascending order.)
- TagAnalysis.TagYearTable assumes each record keeps its own year. The source assigns the year column to a freshly indexed frame, which pandas aligns by index label, not by position.
- CrawlerMain.Bearer: a missing token is formatted as "None", as Python formats it.
- The console messages are left out: the success, retry and give-up lines of `requests_handler` (crawler/base_crawler.py:60, 68, 71) and the progress line after each batch (crawler/anime_crawler.py:55).
- MusicAnalysis.ComposerFrequency and MusicAnalysis.CompanyCounts are maps: the descending order `value_counts` gives its result is not modelled. Only the plotting code reads that order.
- AnimeCrawler.Fetcher: every batch's `fetch_data` starts from the same failed-URL log. The log is not threaded from one batch to the next; BaseCrawler.FetchDataLogsFailures states its growth for one call.

=== FILE: anime_analysis.dfy ===
/**
  The anime statistics of analysis/anime_analysis.py: the studios split out of the 动画制作
  field, the (studio, year) table of `facet_company_anime` with the studios of the largest
  totals. The number of records per year is `Dates.YearCounts`.

  A row is the year of its `date` (missing when the date is) and its studio field (missing when
  the CSV cell is empty).
 */
module AnimeAnalysis {
  import opened Outcome
  import Text
  import Sums
  import Order
  import Counting
  import Selection

  datatype Row = Row(year: Option<string>, studio: Option<string>)

  const Enumeration: char := '、'
  const Bar: char := '|'
  /** The HTML-escaped ampersand the infobox leaves in joint productions. */
  const Amp := "&amp;"

  /** The field after both replacements: every "、" and every "&amp;" became "|". */
  function Unified(s: string): string
  {
    Text.Replace(Text.ReplaceChar(s, Enumeration, Bar), Amp, [Bar])
  }

  /** `str.replace("、", "|").str.replace("&amp;", "|").str.split("|")`: the studios of one field. */
  function SplitStudios(s: string): (pieces: seq<string>)
    ensures |pieces| >= 1
    ensures forall i :: 0 <= i < |pieces| ==> Enumeration !in pieces[i] && Bar !in pieces[i]
  {
    var replaced := Text.ReplaceChar(s, Enumeration, Bar);
    Text.ReplaceCharCount(s, Enumeration, Bar);
    assert Enumeration !in replaced by {
      assert multiset(replaced)[Enumeration] == 0;
    }
    Text.ReplaceAvoids(replaced, Amp, [Bar], Enumeration);
    Text.SplitAvoids(Unified(s), Bar, Enumeration);
    Text.Split(Unified(s), Bar)
  }

  /**
    One piece per "、", per "&amp;" and per "|" of the field, plus one; joining the pieces with
    "|" gives the field with both replacements done.
   */
  lemma SplitStudiosCount(s: string)
    ensures |SplitStudios(s)| == 1 + Text.CountOf(s, Enumeration) + Text.Occurrences(s, Amp) + Text.CountOf(s, Bar)
    ensures Text.Join(SplitStudios(s), Bar) == Unified(s)
  {
    var replaced := Text.ReplaceChar(s, Enumeration, Bar);
    Text.ReplaceCharCount(s, Enumeration, Bar);
    Text.ReplaceCharKeepsOccurrences(s, Enumeration, Bar, Amp);
    Text.ReplaceCount(replaced, Amp, Bar);
    Text.SplitCount(Unified(s), Bar);
    Text.JoinSplit(Unified(s), Bar);
  }

  /** The studios of one row, each paired with the row's year. */
  function WithYear(pieces: seq<string>, y: string): (ps: seq<(string, string)>)
    ensures |ps| == |pieces|
  {
    if pieces == [] then [] else [(pieces[0], y)] + WithYear(pieces[1..], y)
  }

  lemma {:induction false} WithYearCount(pieces: seq<string>, y: string, c: string, z: string)
    ensures multiset(WithYear(pieces, y))[(c, z)] == if y == z then multiset(pieces)[c] else 0
  {
    if pieces != [] {
      WithYearCount(pieces[1..], y, c, z);
      assert pieces == [pieces[0]] + pieces[1..];
      assert multiset(pieces) == multiset{pieces[0]} + multiset(pieces[1..]);
    }
  }

  /**
    `explode("anime_product").dropna(subset=["anime_product"])` over the dated rows: one
    (studio, year) pair per piece of each present field, row by row.
   */
  function Exploded(rows: seq<Row>): seq<(string, string)>
  {
    if rows == [] then []
    else
      (match (rows[0].year, rows[0].studio) case (Some(y), Some(s)) => WithYear(SplitStudios(s), y) case _ => [])
      + Exploded(rows[1..])
  }

  /** The (studio, year) cell of `groupby(["anime_product", "year"]).size()`; an absent pair counts 0. */
  function Cell(rows: seq<Row>, c: string, y: string): nat
  {
    multiset(Exploded(rows))[(c, y)]
  }

  /** How often the dated rows of year `y` name studio `c`, a field that names it twice counting twice. */
  function Mentions(rows: seq<Row>, c: string, y: string): nat
  {
    if rows == [] then 0
    else
      (if rows[0].year == Some(y) && rows[0].studio.Some? then multiset(SplitStudios(rows[0].studio.value))[c] else 0)
      + Mentions(rows[1..], c, y)
  }

  /** A cell counts the mentions of its studio in the rows of its year. */
  lemma {:induction false} CellIsMentions(rows: seq<Row>, c: string, y: string)
    ensures Cell(rows, c, y) == Mentions(rows, c, y)
  {
    if rows != [] {
      CellIsMentions(rows[1..], c, y);
      var head := match (rows[0].year, rows[0].studio) case (Some(z), Some(s)) => WithYear(SplitStudios(s), z) case _ => [];
      assert Exploded(rows) == head + Exploded(rows[1..]);
      assert multiset(Exploded(rows)) == multiset(head) + multiset(Exploded(rows[1..]));
      if rows[0].year.Some? && rows[0].studio.Some? {
        WithYearCount(SplitStudios(rows[0].studio.value), rows[0].year.value, c, y);
      }
    }
  }

  /** A row of the studio's column: the year with 1 for a pair of that studio and 0 otherwise. */
  function Ones(ps: seq<(string, string)>, c: string): (os: seq<(string, int)>)
    ensures |os| == |ps|
    ensures forall i :: 0 <= i < |ps| ==> os[i] == (ps[i].1, if ps[i].0 == c then 1 else 0)
  {
    if ps == [] then [] else [(ps[0].1, if ps[0].0 == c then 1 else 0)] + Ones(ps[1..], c)
  }

  lemma {:induction false} OnesWhere(ps: seq<(string, string)>, c: string, y: string)
    ensures Sums.SumWhere(Ones(ps, c), y) == multiset(ps)[(c, y)]
  {
    if ps != [] {
      var p, t := ps[0], ps[1..];
      OnesWhere(t, c, y);
      var os := Ones(ps, c);
      assert os[1..] == Ones(t, c);
      assert Sums.SumWhere(os, y) == (if p.1 == y && p.0 == c then 1 else 0) + Sums.SumWhere(Ones(t, c), y);
      assert ps == [p] + t;
      assert multiset(ps) == multiset{p} + multiset(t);
    }
  }

  /** The studios of the pairs, in order. */
  function Studios(ps: seq<(string, string)>): (cs: seq<string>)
    ensures |cs| == |ps|
    ensures forall i :: 0 <= i < |ps| ==> cs[i] == ps[i].0
  {
    if ps == [] then [] else [ps[0].0] + Studios(ps[1..])
  }

  lemma {:induction false} OnesAll(ps: seq<(string, string)>, c: string)
    ensures Sums.SumAll(Ones(ps, c)) == multiset(Studios(ps))[c]
  {
    if ps != [] {
      var p, t := ps[0], ps[1..];
      OnesAll(t, c);
      assert Ones(ps, c)[1..] == Ones(t, c);
      assert Studios(ps) == [p.0] + Studios(t);
      assert multiset(Studios(ps)) == multiset{p.0} + multiset(Studios(t));
    }
  }

  /** `company_year_counts.sum()`: the column total of studio `c`, over every year of the table. */
  function StudioTotal(rows: seq<Row>, c: string): int
  {
    Sums.SumAll(Ones(Exploded(rows), c))
  }

  /** The total of a studio is the number of exploded pairs that name it. */
  lemma StudioTotalCountsPairs(rows: seq<Row>, c: string)
    ensures StudioTotal(rows, c) == multiset(Studios(Exploded(rows)))[c]
  {
    OnesAll(Exploded(rows), c);
  }

  /** The cells of studio `c`, as a function of the year. */
  function CellFn(rows: seq<Row>, c: string): string -> int
  {
    y => Cell(rows, c, y)
  }

  /** The years of the table: the years of the exploded pairs (`unstack` fills the rest with 0). */
  function TableYears(rows: seq<Row>): set<string>
  {
    var ps := Exploded(rows);
    set i | 0 <= i < |ps| :: ps[i].1
  }

  /** A studio's total is the sum of its cells over the years of the table. */
  lemma TotalIsSumOfCells(rows: seq<Row>, c: string)
    ensures StudioTotal(rows, c) == Sums.SetSum(TableYears(rows), CellFn(rows, c))
  {
    var ps := Exploded(rows);
    var os := Ones(ps, c);
    assert Sums.KeysOf(os) == TableYears(rows) by {
      forall y | y in TableYears(rows)
        ensures y in Sums.KeysOf(os)
      {
        var i :| 0 <= i < |ps| && ps[i].1 == y;
        assert os[i].0 == y;
      }
    }
    forall y
      ensures Sums.SumWhere(os, y) == Cell(rows, c, y)
    {
      OnesWhere(ps, c, y);
    }
    Sums.GroupTotals(os);
    Sums.SetSumCongruent(TableYears(rows), y => Sums.SumWhere(os, y), CellFn(rows, c));
  }

  /** The columns of the table: every studio some pair names. */
  function AllStudios(rows: seq<Row>): (cs: set<string>)
    ensures forall c :: c in cs <==> c in Studios(Exploded(rows))
  {
    var names := Studios(Exploded(rows));
    set i | 0 <= i < |names| :: names[i]
  }

  /** The studios `cs` with their totals, in the order of `cs`. */
  function TotalsOf(rows: seq<Row>, cs: seq<string>): (ts: seq<(string, int)>)
    ensures |ts| == |cs|
    ensures forall i :: 0 <= i < |cs| ==> ts[i] == (cs[i], StudioTotal(rows, cs[i]))
  {
    if cs == [] then [] else [(cs[0], StudioTotal(rows, cs[0]))] + TotalsOf(rows, cs[1..])
  }

  /** Distinct studios give distinct labels. */
  lemma TotalsOfDistinct(rows: seq<Row>, cs: seq<string>)
    requires Order.Ascending(cs)
    ensures Selection.DistinctKeys(TotalsOf(rows, cs))
  {
    var ts := TotalsOf(rows, cs);
    forall i, j | 0 <= i < j < |ts|
      ensures ts[i].0 != ts[j].0
    {
      assert ts[i].0 == cs[i] && ts[j].0 == cs[j];
    }
  }

  /** The column totals, in the ascending studio order of the unstacked table. */
  function Totals(rows: seq<Row>): (ts: seq<(string, int)>)
    ensures forall e :: e in ts ==> e.0 in AllStudios(rows) && e.1 == StudioTotal(rows, e.0)
    ensures forall c :: c in AllStudios(rows) ==> (c, StudioTotal(rows, c)) in ts
    ensures Selection.DistinctKeys(ts)
  {
    var cs := Order.SortedKeys(AllStudios(rows));
    var ts := TotalsOf(rows, cs);
    TotalsOfDistinct(rows, cs);
    forall c | c in AllStudios(rows)
      ensures (c, StudioTotal(rows, c)) in ts
    {
      var i :| 0 <= i < |cs| && cs[i] == c;
      assert ts[i] == (c, StudioTotal(rows, c));
    }
    ts
  }

  /**
    `top_company`: at most `layout[0] * layout[1]` studios, those with the largest totals,
    largest first; none when the product is not positive.
   */
  function TopStudios(rows: seq<Row>, layout: (int, int)): (sel: seq<(string, int)>)
    ensures layout.0 * layout.1 <= 0 ==> sel == []
    ensures layout.0 * layout.1 > 0 ==> |sel| <= layout.0 * layout.1
    ensures |sel| <= |AllStudios(rows)|
    ensures forall e :: e in sel ==> e.0 in AllStudios(rows) && e.1 == StudioTotal(rows, e.0)
    ensures Selection.Descending(sel)
    ensures forall i, j :: 0 <= i < j < |sel| ==> sel[i].0 != sel[j].0
    ensures layout.0 * layout.1 > 0 ==>
      |sel| == layout.0 * layout.1 || forall c :: c in AllStudios(rows) ==> (c, StudioTotal(rows, c)) in sel
  {
    var ts := Totals(rows);
    var sel := Selection.Largest(ts, layout.0 * layout.1);
    Selection.LargestFromCandidates(ts, layout.0 * layout.1);
    Selection.LargestTakesAll(ts, layout.0 * layout.1);
    sel
  }

  /** A studio of the table that was left out has no larger total than any selected one. */
  lemma TopStudiosDominate(rows: seq<Row>, layout: (int, int), c: string)
    requires c in AllStudios(rows)
    requires forall e :: e in TopStudios(rows, layout) ==> e.0 != c
    ensures forall e :: e in TopStudios(rows, layout) ==> e.1 >= StudioTotal(rows, c)
  {
    Selection.NotSelectedIsSmaller(Totals(rows), layout.0 * layout.1, (c, StudioTotal(rows, c)));
  }

  /** One column of the plotted table: the years in order, each with the studio's cell. */
  function Column(rows: seq<Row>, c: string, years: seq<string>): (col: seq<(string, int)>)
    ensures |col| == |years|
    ensures forall j :: 0 <= j < |years| ==> col[j] == (years[j], Cell(rows, c, years[j]))
  {
    if years == [] then [] else [(years[0], Cell(rows, c, years[0]))] + Column(rows, c, years[1..])
  }

  lemma {:induction false} ColumnSum(rows: seq<Row>, c: string, years: seq<string>)
    ensures Sums.SumAll(Column(rows, c, years)) == Sums.SeqSum(years, CellFn(rows, c))
  {
    if years != [] {
      ColumnSum(rows, c, years[1..]);
      assert Column(rows, c, years)[1..] == Column(rows, c, years[1..]);
    }
  }

  /**
    `company_year_counts[top_company]`: the columns of the selected studios, in selection
    order, each over the years of the table in ascending order.
   */
  function FacetTable(rows: seq<Row>, layout: (int, int)): (table: seq<(string, seq<(string, int)>)>)
    ensures |table| == |TopStudios(rows, layout)|
    ensures forall i :: 0 <= i < |table| ==> table[i].0 == TopStudios(rows, layout)[i].0
    ensures forall i :: 0 <= i < |table| ==> table[i].1 == Column(rows, table[i].0, Order.SortedKeys(TableYears(rows)))
  {
    Columns(rows, TopStudios(rows, layout), Order.SortedKeys(TableYears(rows)))
  }

  /** One column per selected studio, in selection order, with its cells in `years`. */
  function Columns(rows: seq<Row>, sel: seq<(string, int)>, years: seq<string>): (table: seq<(string, seq<(string, int)>)>)
    ensures |table| == |sel|
    ensures forall i :: 0 <= i < |table| ==> table[i] == (sel[i].0, Column(rows, sel[i].0, years))
  {
    if sel == [] then [] else [(sel[0].0, Column(rows, sel[0].0, years))] + Columns(rows, sel[1..], years)
  }

  /** A column over all the years of the table adds up to the studio's total. */
  lemma ColumnTotal(rows: seq<Row>, c: string)
    ensures Sums.SumAll(Column(rows, c, Order.SortedKeys(TableYears(rows)))) == StudioTotal(rows, c)
  {
    var years := Order.SortedKeys(TableYears(rows));
    ColumnSum(rows, c, years);
    Sums.SeqSumIsSetSum(years, CellFn(rows, c));
    assert (set y | y in years) == TableYears(rows);
    TotalIsSumOfCells(rows, c);
  }

  /** Every plotted column adds up to the total its studio was selected by. */
  lemma FacetColumnsSumToTotals(rows: seq<Row>, layout: (int, int))
    ensures var table := FacetTable(rows, layout);
      forall i :: 0 <= i < |table| ==> Sums.SumAll(table[i].1) == TopStudios(rows, layout)[i].1
  {
    var table := FacetTable(rows, layout);
    var sel := TopStudios(rows, layout);
    forall i | 0 <= i < |table|
      ensures Sums.SumAll(table[i].1) == sel[i].1
    {
      assert sel[i] in sel;
      ColumnTotal(rows, sel[i].0);
    }
  }
}

=== FILE: anime_crawler.dfy ===
/**
  The anime detail crawler (crawler/anime_crawler.py): the subject codes are cut into batches of
  50, each batch is fetched, every fetched body is parsed and flattened into a row, and the whole
  table gathered so far is saved after every batch.

  Fetching and JSON parsing are parameters: `fetch(urls)` is what `fetch_data(urls)` returns or
  raises, and `parse(text)` is the document `json.loads(text)` reads, or `None` when it raises.
 */
module AnimeCrawler {
  import opened Outcome
  import opened JsonValue
  import Flatten
  import BaseCrawler
  import Permutation

  /** The subject endpoint of the catalogue API; the code is appended to it. */
  const SubjectApi: string := "https://api.bgm.tv/v0/subjects/"

  /** The number of codes fetched together. */
  const BatchSize: nat := 50

  /** `self.api.format(code)` */
  function SubjectUrl(code: string): (url: string)
    ensures |url| == |SubjectApi| + |code| && url[..|SubjectApi|] == SubjectApi && url[|SubjectApi|..] == code
  {
    SubjectApi + code
  }

  lemma SubjectUrlInjective(a: string, b: string)
    requires SubjectUrl(a) == SubjectUrl(b)
    ensures a == b
  {
    assert a == SubjectUrl(a)[|SubjectApi|..];
  }

  /** The URLs of one batch: one per code, in order. */
  function BatchUrls(batch: seq<string>): (urls: seq<string>)
    ensures |urls| == |batch| && forall k :: 0 <= k < |batch| ==> urls[k] == SubjectUrl(batch[k])
  {
    seq(|batch|, k requires 0 <= k < |batch| => SubjectUrl(batch[k]))
  }

  /** The batches laid end to end. */
  function Concat<T>(xss: seq<seq<T>>): seq<T>
  {
    if xss == [] then [] else xss[0] + Concat(xss[1..])
  }

  function Min(a: int, b: int): int
  {
    if a <= b then a else b
  }

  /** `[codes[i : i + n] for i in range(0, len(codes), n)]` */
  function Chunks(codes: seq<string>, n: nat): (batches: seq<seq<string>>)
    requires n > 0
    ensures forall k :: 0 <= k < |batches| ==> 0 < |batches[k]| <= n
    ensures forall k :: 0 <= k < |batches| - 1 ==> |batches[k]| == n
    decreases |codes|
  {
    if codes == [] then []
    else if |codes| <= n then [codes]
    else
      var rest := Chunks(codes[n..], n);
      var batches := [codes[..n]] + rest;
      assert forall k :: 0 < k < |batches| ==> batches[k] == rest[k - 1];
      batches
  }

  /** Laid end to end, the batches give back the codes: every code lands in exactly one batch, in order. */
  lemma {:induction false} ChunksConcat(codes: seq<string>, n: nat)
    requires n > 0
    ensures Concat(Chunks(codes, n)) == codes
    decreases |codes|
  {
    if codes != [] {
      if |codes| <= n {
        assert Concat([codes]) == codes + Concat([]);
      } else {
        ChunksConcat(codes[n..], n);
        assert Chunks(codes, n)[1..] == Chunks(codes[n..], n);
        assert codes == codes[..n] + codes[n..];
      }
    }
  }

  /** Where batch `k` starts: `k * n`, counted up one batch at a time. */
  function Offset(k: nat, n: nat): nat
  {
    if k == 0 then 0 else Offset(k - 1, n) + n
  }

  lemma {:induction false} OffsetIsProduct(k: nat, n: nat)
    ensures Offset(k, n) == k * n
  {
    if k > 0 {
      OffsetIsProduct(k - 1, n);
      MulSucc(k - 1, n);
    }
  }

  /** A long list starts with a full batch, followed by the batches of the rest. */
  lemma ChunksTail(codes: seq<string>, n: nat)
    requires n > 0 && |codes| > n
    ensures Chunks(codes, n) == [codes[..n]] + Chunks(codes[n..], n)
  {
  }

  /** A slice of the list without its first `n` elements is a slice of the list, shifted by `n`. */
  lemma SliceShift(codes: seq<string>, n: nat, lo: nat, hi: nat)
    requires n <= |codes| && lo <= hi <= |codes| - n
    ensures codes[n..][lo..hi] == codes[lo + n .. hi + n]
  {
    forall i | 0 <= i < hi - lo
      ensures codes[n..][lo..hi][i] == codes[lo + n .. hi + n][i]
    {
      assert codes[n..][lo + i] == codes[n + lo + i];
    }
  }

  /** The inductive step of `ChunkSlices`: batch `k` of the list is batch `k - 1` of its tail. */
  lemma ChunkSliceStep(codes: seq<string>, n: nat, k: nat, lo: nat, hi: nat)
    requires n > 0 && |codes| > n && 0 < k < |Chunks(codes, n)|
    requires lo == Offset(k - 1, n) && hi == Min(lo + n, |codes| - n) && lo < |codes| - n
    requires Chunks(codes[n..], n)[k - 1] == codes[n..][lo..hi]
    ensures Chunks(codes, n)[k] == codes[Offset(k, n) .. Min(Offset(k, n) + n, |codes|)]
  {
    ChunksTail(codes, n);
    SliceShift(codes, n, lo, hi);
  }

  /** Batch `k` is the slice `codes[k * n : k * n + n]`. */
  lemma {:induction false} ChunkSlices(codes: seq<string>, n: nat, k: nat)
    requires n > 0 && k < |Chunks(codes, n)|
    ensures Offset(k, n) < |codes|
    ensures Chunks(codes, n)[k] == codes[Offset(k, n) .. Min(Offset(k, n) + n, |codes|)]
    decreases |codes|
  {
    if k > 0 {
      assert |codes| > n;
      assert |Chunks(codes, n)| == 1 + |Chunks(codes[n..], n)|;
      ChunkSlices(codes[n..], n, k - 1);
      var lo := Offset(k - 1, n);
      ChunkSliceStep(codes, n, k, lo, Min(lo + n, |codes| - n));
    }
  }

  /** Batch `k` of the crawl holds the codes at positions `50 * k` up to `50 * k + 49`. */
  lemma BatchIsSlice(codes: seq<string>, k: nat)
    requires k < |Chunks(codes, BatchSize)|
    ensures k * BatchSize < |codes|
    ensures Chunks(codes, BatchSize)[k] == codes[k * BatchSize .. Min(k * BatchSize + BatchSize, |codes|)]
  {
    ChunkSlices(codes, BatchSize, k);
    OffsetIsProduct(k, BatchSize);
  }

  lemma MulSucc(j: nat, n: nat)
    ensures (j + 1) * n == j * n + n
  {
  }

  lemma DivSucc(x: nat, n: nat)
    requires n > 0
    ensures (x + n) / n == x / n + 1
  {
    var q, r := x / n, x % n;
    assert x == q * n + r;
    assert x + n == (q + 1) * n + r by {
      MulSucc(q, n);
    }
    DivUnique(x + n, n, q + 1, r);
  }

  lemma DivUnique(x: nat, n: nat, q: nat, r: nat)
    requires n > 0 && r < n && x == q * n + r
    ensures x / n == q
  {
    var q', r' := x / n, x % n;
    assert q' * n + r' == q * n + r;
    if q' < q {
      MulMono(q' + 1, q, n);
      MulSucc(q', n);
    } else if q < q' {
      MulMono(q + 1, q', n);
      MulSucc(q, n);
    }
  }

  lemma MulMono(a: nat, b: nat, n: nat)
    requires a <= b
    ensures a * n <= b * n
  {
  }

  /** There are `ceil(len(codes) / n)` batches. */
  lemma {:induction false} ChunkCount(codes: seq<string>, n: nat)
    requires n > 0
    ensures |Chunks(codes, n)| == (|codes| + n - 1) / n
    decreases |codes|
  {
    if |codes| > n {
      ChunkCount(codes[n..], n);
      DivSucc(|codes[n..]| + n - 1, n);
    }
  }

  /**
    One row from one fetched body: `json.loads(body)` and the flattening. A missing body (the
    fetcher gave up) is not skipped: `json.loads(None)` raises.
   */
  function Record(body: Option<string>, parse: string -> Option<Json>): (r: Result<Flatten.Row>)
    ensures body.None? ==> r == Raise(TypeError)
    ensures body.Some? && parse(body.value).None? ==> r == Raise(JsonDecodeError)
    ensures body.Some? && parse(body.value).Some? ==> r == Flatten.FlattenRecord(parse(body.value).value)
  {
    match body
    case None => Raise(TypeError)
    case Some(text) =>
      match parse(text)
      case None => Raise(JsonDecodeError)
      case Some(doc) => Flatten.FlattenRecord(doc)
  }

  /** `f` applied to each element in turn; the first element `f` raises on ends the loop. */
  function MapAll<T, R>(xs: seq<T>, f: T -> Result<R>): (r: Result<seq<R>>)
    ensures r.Ok? <==> forall k :: 0 <= k < |xs| ==> f(xs[k]).Ok?
    ensures r.Ok? ==> |r.value| == |xs| && forall k :: 0 <= k < |xs| ==> Ok(r.value[k]) == f(xs[k])
    ensures r.Raise? ==> exists k :: 0 <= k < |xs| && f(xs[k]) == Raise(r.error)
                                     && forall j :: 0 <= j < k ==> f(xs[j]).Ok?
  {
    if xs == [] then Ok([])
    else
      var y :- f(xs[0]);
      assert forall k :: 0 < k < |xs| ==> xs[1..][k - 1] == xs[k];
      var rest :- MapAll(xs[1..], f);
      Ok([y] + rest)
  }

  /** The rows of one batch's bodies, in the order the bodies arrived; the first bad body raises. */
  function ProcessBodies(bodies: seq<Option<string>>, parse: string -> Option<Json>): (r: Result<seq<Flatten.Row>>)
    ensures r.Ok? <==> forall k :: 0 <= k < |bodies| ==> Record(bodies[k], parse).Ok?
    ensures r.Ok? ==> |r.value| == |bodies| && forall k :: 0 <= k < |bodies| ==> Ok(r.value[k]) == Record(bodies[k], parse)
    ensures r.Raise? ==> exists k :: 0 <= k < |bodies| && Record(bodies[k], parse) == Raise(r.error)
                                     && forall j :: 0 <= j < k ==> Record(bodies[j], parse).Ok?
  {
    MapAll(bodies, body => Record(body, parse))
  }

  /** What `get_anime_info` leaves behind: every version of the saved table, and its result. */
  datatype Run<R> = Run(saves: seq<seq<R>>, outcome: Result<seq<R>>)

  /**
    The accumulate-then-save loop over the batches from `batches` on, starting from the table
    `rows`: each batch's rows are appended and the whole table is saved; the first batch that
    raises ends the loop without a save.
   */
  function Crawl<R>(batches: seq<seq<string>>, batchRows: seq<string> -> Result<seq<R>>, rows: seq<R>): (r: Run<R>)
    ensures |r.saves| <= |batches|
    ensures r.outcome.Ok? <==> |r.saves| == |batches|
    ensures r.outcome.Ok? ==> r.outcome.value == if r.saves == [] then rows else r.saves[|r.saves| - 1]
    ensures r.outcome.Raise? ==> batchRows(batches[|r.saves|]) == Raise(r.outcome.error)
    ensures forall k :: 0 <= k < |r.saves| ==> Follows(r.saves, batches, batchRows, rows, k)
    decreases |batches|
  {
    if batches == [] then Run([], Ok(rows))
    else
      match batchRows(batches[0])
      case Raise(e) => Run([], Raise(e))
      case Ok(added) =>
        var next := rows + added;
        var rest := Crawl(batches[1..], batchRows, next);
        SavesStep(batches[0], batches[1..], batchRows, rows, added, rest.saves);
        assert batches == [batches[0]] + batches[1..];
        Run([next] + rest.saves, rest.outcome)
  }

  /**
    Save `k` of a run started from the table `rows`: batch `k` gave rows, and they were appended to
    the table of the save before it.
   */
  ghost predicate Follows<R>(saves: seq<seq<R>>, batches: seq<seq<string>>, batchRows: seq<string> -> Result<seq<R>>,
                             rows: seq<R>, k: nat)
  {
    && k < |saves| && k < |batches|
    && batchRows(batches[k]).Ok?
    && saves[k] == (if k == 0 then rows else saves[k - 1]) + batchRows(batches[k]).value
  }

  /** Saving after the first batch and then the saves of the remaining batches keeps each save one batch ahead. */
  lemma SavesStep<R>(b: seq<string>, tail: seq<seq<string>>, batchRows: seq<string> -> Result<seq<R>>,
                     rows: seq<R>, added: seq<R>, saves: seq<seq<R>>)
    requires batchRows(b) == Ok(added)
    requires |saves| <= |tail|
    requires forall k :: 0 <= k < |saves| ==> Follows(saves, tail, batchRows, rows + added, k)
    ensures forall k :: 0 <= k < 1 + |saves| ==> Follows([rows + added] + saves, [b] + tail, batchRows, rows, k)
  {
    var all, bs := [rows + added] + saves, [b] + tail;
    forall k | 0 <= k < |all|
      ensures Follows(all, bs, batchRows, rows, k)
    {
      if k > 0 {
        assert Follows(saves, tail, batchRows, rows + added, k - 1);
        assert all[k] == saves[k - 1] && bs[k] == tail[k - 1];
        assert all[k - 1] == if k == 1 then rows + added else saves[k - 2];
      } else {
        assert all[0] == rows + added && bs[0] == b;
      }
    }
  }

  /** One batch: `fetch_data` on its URLs, then `process_anime_info` on the bodies. */
  function BatchRows(batch: seq<string>, fetch: seq<string> -> Result<seq<Option<string>>>,
                     parse: string -> Option<Json>): (r: Result<seq<Flatten.Row>>)
    ensures fetch(BatchUrls(batch)).Raise? ==> r == Raise(fetch(BatchUrls(batch)).error)
    ensures fetch(BatchUrls(batch)).Ok? ==> r == ProcessBodies(fetch(BatchUrls(batch)).value, parse)
  {
    var bodies :- fetch(BatchUrls(batch));
    ProcessBodies(bodies, parse)
  }

  /**
    `get_anime_info(subject_codes)`: fetch and flatten batch after batch, saving the whole table
    after each one. Save number `k` is save number `k - 1` with the rows of batch `k` appended.
   */
  function GetAnimeInfo(codes: seq<string>, fetch: seq<string> -> Result<seq<Option<string>>>,
                        parse: string -> Option<Json>): (r: Run<Flatten.Row>)
    ensures var batches := Chunks(codes, BatchSize);
      && |r.saves| <= |batches|
      && (r.outcome.Ok? <==> |r.saves| == |batches|)
      && (r.outcome.Ok? ==> r.outcome.value == if r.saves == [] then [] else r.saves[|r.saves| - 1])
      && (r.outcome.Raise? ==> BatchRows(batches[|r.saves|], fetch, parse) == Raise(r.outcome.error))
      && forall k :: 0 <= k < |r.saves| ==>
           BatchRows(batches[k], fetch, parse).Ok?
           && r.saves[k] == (if k == 0 then [] else r.saves[k - 1]) + BatchRows(batches[k], fetch, parse).value
  {
    var batches := Chunks(codes, BatchSize);
    var batchRows := batch => BatchRows(batch, fetch, parse);
    var r := Crawl(batches, batchRows, []);
    forall k | 0 <= k < |r.saves|
      ensures BatchRows(batches[k], fetch, parse).Ok?
      ensures r.saves[k] == (if k == 0 then [] else r.saves[k - 1]) + BatchRows(batches[k], fetch, parse).value
    {
      assert Follows(r.saves, batches, batchRows, [], k);
    }
    r
  }

  /** The fetcher returns one result per URL, as `fetch_data` does when it does not raise. */
  ghost predicate OneResultPerUrl(fetch: seq<string> -> Result<seq<Option<string>>>)
  {
    forall urls :: fetch(urls).Ok? ==> |fetch(urls).value| == |urls|
  }

  /**
    The order the workers of a batch finish in; `finish(urls)` stands for the scheduler. Only a
    permutation of the URLs' positions can be a finishing order, so anything else is read as
    the order of the URLs.
   */
  function FinishOrder(finish: seq<string> -> seq<nat>, urls: seq<string>): (order: seq<nat>)
    ensures Permutation.IsOrder(order, |urls|)
    ensures Permutation.IsOrder(finish(urls), |urls|) ==> order == finish(urls)
  {
    if Permutation.IsOrder(finish(urls), |urls|) then finish(urls) else Permutation.Range(|urls|)
  }

  /**
    `fetch_data` as the crawler calls it: `net(url, j)` is what attempt `j` at `url` ends in,
    `draws(url, j)` the jitter drawn after it, and `log` the failed-URL log before the call.
   */
  function Fetcher(net: (string, nat) -> BaseCrawler.Attempt, draws: (string, nat) -> real,
                   finish: seq<string> -> seq<nat>, log: string): seq<string> -> Result<seq<Option<string>>>
  {
    urls =>
      BaseCrawler.FetchData(urls,
                            (i: nat, j: nat) => if i < |urls| then net(urls[i], j) else BaseCrawler.Failed,
                            (i: nat, j: nat) => if i < |urls| then draws(urls[i], j) else 0.0,
                            FinishOrder(finish, urls), log).results
  }

  /** `fetch_data` returns one result per URL whenever it does not raise. */
  lemma FetcherOneResultPerUrl(net: (string, nat) -> BaseCrawler.Attempt, draws: (string, nat) -> real,
                               finish: seq<string> -> seq<nat>, log: string)
    ensures OneResultPerUrl(Fetcher(net, draws, finish, log))
  {
    forall urls | Fetcher(net, draws, finish, log)(urls).Ok?
      ensures |Fetcher(net, draws, finish, log)(urls).value| == |urls|
    {
    }
  }

  /** With the real fetcher, a crawl that ends normally has exactly one row per code. */
  lemma FetchedRowPerCode(codes: seq<string>, net: (string, nat) -> BaseCrawler.Attempt, draws: (string, nat) -> real,
                          finish: seq<string> -> seq<nat>, log: string, parse: string -> Option<Json>)
    requires GetAnimeInfo(codes, Fetcher(net, draws, finish, log), parse).outcome.Ok?
    ensures |GetAnimeInfo(codes, Fetcher(net, draws, finish, log), parse).outcome.value| == |codes|
  {
    FetcherOneResultPerUrl(net, draws, finish, log);
    OneRowPerCode(codes, Fetcher(net, draws, finish, log), parse);
  }

  /** One more batch adds its length to the concatenation of the batches before it. */
  lemma ConcatPrefixLength<T>(xss: seq<seq<T>>, k: nat)
    requires k < |xss|
    ensures |Concat(xss[..k + 1])| == |Concat(xss[..k])| + |xss[k]|
  {
    assert xss[..k + 1] == xss[..k] + [xss[k]];
    ConcatSnoc(xss[..k], xss[k]);
  }

  /** When every batch gives one row per code, save number `k` has a row per code of batches `0..k`. */
  lemma {:induction false} CrawlSaveSizes<R>(batches: seq<seq<string>>, batchRows: seq<string> -> Result<seq<R>>,
                                             rows: seq<R>, k: nat)
    requires forall b :: batchRows(b).Ok? ==> |batchRows(b).value| == |b|
    requires k < |Crawl(batches, batchRows, rows).saves|
    ensures |Crawl(batches, batchRows, rows).saves[k]| == |rows| + |Concat(batches[..k + 1])|
  {
    ConcatPrefixLength(batches, k);
    assert Follows(Crawl(batches, batchRows, rows).saves, batches, batchRows, rows, k);
    if k == 0 {
      assert |Concat(batches[..0])| == 0;
    } else {
      CrawlSaveSizes(batches, batchRows, rows, k - 1);
    }
  }

  /** With one result per URL, a batch that succeeds gives one row per code. */
  lemma BatchRowsLength(batch: seq<string>, fetch: seq<string> -> Result<seq<Option<string>>>, parse: string -> Option<Json>)
    requires OneResultPerUrl(fetch)
    ensures BatchRows(batch, fetch, parse).Ok? ==> |BatchRows(batch, fetch, parse).value| == |batch|
  {
    var urls := BatchUrls(batch);
    assert fetch(urls).Ok? ==> |fetch(urls).value| == |urls|;
  }

  /** With one result per URL, save number `k` holds one row per code of the first `k + 1` batches. */
  lemma SavesCoverBatches(codes: seq<string>, fetch: seq<string> -> Result<seq<Option<string>>>,
                          parse: string -> Option<Json>, k: nat)
    requires OneResultPerUrl(fetch)
    requires k < |GetAnimeInfo(codes, fetch, parse).saves|
    ensures |GetAnimeInfo(codes, fetch, parse).saves[k]| == |Concat(Chunks(codes, BatchSize)[..k + 1])|
  {
    var batchRows := batch => BatchRows(batch, fetch, parse);
    forall b | batchRows(b).Ok?
      ensures |batchRows(b).value| == |b|
    {
      BatchRowsLength(b, fetch, parse);
    }
    CrawlSaveSizes(Chunks(codes, BatchSize), batchRows, [], k);
  }

  lemma {:induction false} ConcatSnoc<T>(xss: seq<seq<T>>, xs: seq<T>)
    ensures Concat(xss + [xs]) == Concat(xss) + xs
  {
    if xss != [] {
      assert (xss + [xs])[1..] == xss[1..] + [xs];
      ConcatSnoc(xss[1..], xs);
    }
  }

  /** A crawl that ends normally with one result per URL has exactly one row per code. */
  lemma OneRowPerCode(codes: seq<string>, fetch: seq<string> -> Result<seq<Option<string>>>, parse: string -> Option<Json>)
    requires OneResultPerUrl(fetch)
    requires GetAnimeInfo(codes, fetch, parse).outcome.Ok?
    ensures |GetAnimeInfo(codes, fetch, parse).outcome.value| == |codes|
  {
    var batchRows := batch => BatchRows(batch, fetch, parse);
    forall b | batchRows(b).Ok?
      ensures |batchRows(b).value| == |b|
    {
      BatchRowsLength(b, fetch, parse);
    }
    CrawlRowsCount(Chunks(codes, BatchSize), batchRows, []);
    ChunksConcat(codes, BatchSize);
  }

  /** When every batch gives one row per code, a crawl that ends normally adds one row per code. */
  lemma CrawlRowsCount<R>(batches: seq<seq<string>>, batchRows: seq<string> -> Result<seq<R>>, rows: seq<R>)
    requires forall b :: batchRows(b).Ok? ==> |batchRows(b).value| == |b|
    requires Crawl(batches, batchRows, rows).outcome.Ok?
    ensures |Crawl(batches, batchRows, rows).outcome.value| == |rows| + |Concat(batches)|
  {
    var r := Crawl(batches, batchRows, rows);
    var n := |r.saves|;
    if n == 0 {
      assert batches == [];
    } else {
      CrawlSaveSizes(batches, batchRows, rows, n - 1);
      assert batches[..n] == batches;
    }
  }
}

=== FILE: base_crawler.dfy ===
/**
  The fetching layer every crawler shares (crawler/base_crawler.py): one URL is requested up to
  three times, with a randomised pause after each failed attempt; a 404 is not retried; a URL
  that fails three times is appended to the failed-URL log. A batch of URLs is fetched by a pool
  of workers and the results are collected in completion order.

  The network is abstract: `answer(i)` is what attempt `i` of a request ends in, and
  `jitter(i)` is the value `random.uniform(0, 2)` draws for the pause after attempt `i`.
 */
module BaseCrawler {
  import opened Outcome
  import Text
  import Permutation
  import Seqs

  /** What one `requests.request(...)` followed by `raise_for_status()` ends in. */
  datatype Attempt =
    | Answered(body: string)  // a successful response and its text
    | NotFound                // an HTTP 404 response
    | Failed                  // any other request exception: a timeout, a refused connection, another error status

  /** How a call of `requests_handler` ends. */
  datatype Ending =
    | Returned(body: string)  // `return response.text`
    | Raised404               // `raise e` for a 404
    | GaveUp                  // the `for`-`else` branch: log the URL and `return None`

  /**
    The observable behaviour of one `requests_handler` call: how it ends, how many requests it
    sent, the pauses it slept, and the URLs it appended to the failed-URL log.
   */
  datatype HandlerTrace = HandlerTrace(ending: Ending, attempts: nat, sleeps: seq<real>, logged: seq<string>)

  /** `if body:` on what a fetch returned: `None` and the empty string are false. */
  predicate Truthy(body: Option<string>)
  {
    body.Some? && body.value != ""
  }

  const MaxAttempts: nat := 3
  const BaseDelay: real := 2.0
  const MaxJitter: real := 2.0

  /** The attempts from number `i` on. */
  function Handle(url: string, answer: nat -> Attempt, jitter: nat -> real, i: nat): (t: HandlerTrace)
    requires i <= MaxAttempts
    ensures t.ending.GaveUp? <==> forall j :: i <= j < MaxAttempts ==> answer(j).Failed?
    ensures t.ending.GaveUp? ==> t.attempts == MaxAttempts && |t.sleeps| == MaxAttempts - i
    ensures !t.ending.GaveUp? ==>
      && i < t.attempts <= MaxAttempts
      && (forall j :: i <= j < t.attempts - 1 ==> answer(j).Failed?)
      && answer(t.attempts - 1) == (if t.ending.Returned? then Answered(t.ending.body) else NotFound)
      && |t.sleeps| == t.attempts - 1 - i
    ensures forall k :: 0 <= k < |t.sleeps| ==> t.sleeps[k] == BaseDelay + jitter(i + k)
    ensures t.logged == if t.ending.GaveUp? then [url] else []
    decreases MaxAttempts - i
  {
    if i == MaxAttempts then HandlerTrace(GaveUp, i, [], [url])
    else
      match answer(i)
      case Answered(body) => HandlerTrace(Returned(body), i + 1, [], [])
      case NotFound => HandlerTrace(Raised404, i + 1, [], [])
      case Failed =>
        var rest := Handle(url, answer, jitter, i + 1);
        rest.(sleeps := [BaseDelay + jitter(i)] + rest.sleeps)
  }

  /**
    `requests_handler(method, url)`: the first attempt that does not fail decides the result;
    a failed attempt is followed by a pause of `2 + random.uniform(0, 2)` seconds, even the third.
   */
  function RequestsHandler(url: string, answer: nat -> Attempt, jitter: nat -> real): (t: HandlerTrace)
    ensures 1 <= t.attempts <= MaxAttempts
    ensures t.ending.Returned? <==>
      exists k :: 0 <= k < MaxAttempts && answer(k).Answered? && forall j :: 0 <= j < k ==> answer(j).Failed?
    ensures t.ending.Returned? ==>
      && answer(t.attempts - 1) == Answered(t.ending.body)
      && (forall j :: 0 <= j < t.attempts - 1 ==> answer(j).Failed?)
      && |t.sleeps| == t.attempts - 1 && t.logged == []
    ensures t.ending.Raised404? ==>
      && answer(t.attempts - 1).NotFound?
      && (forall j :: 0 <= j < t.attempts - 1 ==> answer(j).Failed?)
      && |t.sleeps| == t.attempts - 1 && t.logged == []
    ensures t.ending.GaveUp? <==> forall j :: 0 <= j < MaxAttempts ==> answer(j).Failed?
    ensures t.ending.GaveUp? ==> t.attempts == MaxAttempts && |t.sleeps| == MaxAttempts && t.logged == [url]
    ensures (forall j: nat :: 0.0 <= jitter(j) <= MaxJitter) ==>
      forall k :: 0 <= k < |t.sleeps| ==> BaseDelay <= t.sleeps[k] <= BaseDelay + MaxJitter
  {
    var t := Handle(url, answer, jitter, 0);
    assert t.ending.Returned? ==> answer(t.attempts - 1) == Answered(t.ending.body);
    t
  }

  /** `save_failed_urls(url)`: append the URL and a newline to the log file. */
  function SaveFailedUrl(log: string, url: string): (log': string)
    ensures |log'| == |log| + |url| + 1 && log'[..|log|] == log
  {
    log + url + "\n"
  }

  /** Read as lines, the log gains exactly the URL as its last line. */
  lemma SaveFailedUrlAddsLine(log: string, url: string)
    requires Text.EndsLine(log) && '\n' !in url
    ensures Text.EndsLine(SaveFailedUrl(log, url))
    ensures Text.Lines(SaveFailedUrl(log, url)) == Text.Lines(log) + [url]
  {
    Text.AppendLine(log, url);
  }

  /** `future.result()` for a worker that did not raise. */
  function ResultOf(t: HandlerTrace): Option<string>
  {
    if t.ending.Returned? then Some(t.ending.body) else None
  }

  /**
    `[future.result() for future in as_completed(futures)]` over the workers' traces in
    completion order: the first worker that raised aborts the list.
   */
  function CollectResults(traces: seq<HandlerTrace>): (r: Result<seq<Option<string>>>)
    ensures r.Raise? <==> exists k :: 0 <= k < |traces| && traces[k].ending.Raised404?
    ensures r.Raise? ==> r.error == HttpError(404)
    ensures r.Ok? ==> |r.value| == |traces| && forall k :: 0 <= k < |traces| ==> r.value[k] == ResultOf(traces[k])
  {
    if traces == [] then Ok([])
    else if traces[0].ending.Raised404? then Raise(HttpError(404))
    else
      var rest :- CollectResults(traces[1..]);
      assert forall k :: 0 < k < |traces| ==> traces[1..][k - 1] == traces[k];
      Ok([ResultOf(traces[0])] + rest)
  }

  /** Every URL the traces logged, in order. */
  function Logged(traces: seq<HandlerTrace>): (urls: seq<string>)
    ensures forall u :: u in urls <==> exists k :: 0 <= k < |traces| && u in traces[k].logged
  {
    if traces == [] then []
    else
      assert forall k :: 0 < k < |traces| ==> traces[1..][k - 1] == traces[k];
      traces[0].logged + Logged(traces[1..])
  }

  /** The log after each worker, in completion order, appended what it logged. */
  function AppendLogged(log: string, urls: seq<string>): (log': string)
    ensures |log'| >= |log| && log'[..|log|] == log
    decreases |urls|
  {
    if urls == [] then log
    else
      var next := SaveFailedUrl(log, urls[0]);
      var r := AppendLogged(next, urls[1..]);
      assert r[..|next|] == next;
      r
  }

  /** Read as lines, the log gains exactly the appended URLs, in order. */
  lemma {:induction false} AppendLoggedLines(log: string, urls: seq<string>)
    requires Text.EndsLine(log) && forall k :: 0 <= k < |urls| ==> '\n' !in urls[k]
    ensures Text.EndsLine(AppendLogged(log, urls))
    ensures Text.Lines(AppendLogged(log, urls)) == Text.Lines(log) + urls
    decreases |urls|
  {
    if urls != [] {
      var next := SaveFailedUrl(log, urls[0]);
      SaveFailedUrlAddsLine(log, urls[0]);
      assert forall k :: 0 < k < |urls| ==> urls[1..][k - 1] == urls[k];
      AppendLoggedLines(next, urls[1..]);
      assert urls == [urls[0]] + urls[1..];
    }
  }

  /** What `fetch_data` leaves behind: its return value (or exception) and the failed-URL log. */
  datatype Fetched = Fetched(results: Result<seq<Option<string>>>, log: string)

  /** The worker for URL number `i`, with that URL's own network outcomes and random draws. */
  function Worker(urls: seq<string>, answer: (nat, nat) -> Attempt, jitter: (nat, nat) -> real, i: nat): HandlerTrace
    requires i < |urls|
  {
    RequestsHandler(urls[i], (j: nat) => answer(i, j), (j: nat) => jitter(i, j))
  }

  /** The workers' traces in the order they finish. */
  function Completed(urls: seq<string>, answer: (nat, nat) -> Attempt, jitter: (nat, nat) -> real,
                     order: seq<nat>): (traces: seq<HandlerTrace>)
    requires Permutation.IsOrder(order, |urls|)
    ensures |traces| == |urls|
    ensures forall k :: 0 <= k < |urls| ==> order[k] < |urls| && traces[k] == Worker(urls, answer, jitter, order[k])
  {
    Permutation.OrderBounds(order, |urls|);
    seq(|order|, k requires 0 <= k < |order| => Worker(urls, answer, jitter, order[k]))
  }

  /** Some worker's trace has property `p` exactly when some finished trace has it. */
  lemma CompletedHas(urls: seq<string>, answer: (nat, nat) -> Attempt, jitter: (nat, nat) -> real,
                     order: seq<nat>, p: HandlerTrace -> bool)
    requires Permutation.IsOrder(order, |urls|)
    ensures var traces := Completed(urls, answer, jitter, order);
      (exists k :: 0 <= k < |traces| && p(traces[k])) <==> (exists i :: 0 <= i < |urls| && p(Worker(urls, answer, jitter, i)))
  {
    var traces := Completed(urls, answer, jitter, order);
    Permutation.OrderBounds(order, |urls|);
    if exists i :: 0 <= i < |urls| && p(Worker(urls, answer, jitter, i)) {
      var i :| 0 <= i < |urls| && p(Worker(urls, answer, jitter, i));
      assert i in order;
      var k :| 0 <= k < |order| && order[k] == i;
      assert p(traces[k]);
    }
  }

  /**
    `fetch_data(urls)`: one worker per URL; `order` is the order in which the workers finish.
    Every worker runs to completion before the call returns or raises, so every URL that failed
    three times is logged, even when another worker's 404 makes the call raise.
   */
  function FetchData(urls: seq<string>, answer: (nat, nat) -> Attempt, jitter: (nat, nat) -> real,
                     order: seq<nat>, log: string): (f: Fetched)
    requires Permutation.IsOrder(order, |urls|)
    ensures f.results.Raise? <==> exists i :: 0 <= i < |urls| && Worker(urls, answer, jitter, i).ending.Raised404?
    ensures f.results.Raise? ==> f.results.error == HttpError(404)
    ensures f.results.Ok? ==>
      && |f.results.value| == |urls|
      && (forall k :: 0 <= k < |urls| ==> order[k] < |urls| && f.results.value[k] == ResultOf(Worker(urls, answer, jitter, order[k])))
    ensures |f.log| >= |log| && f.log[..|log|] == log
  {
    var traces := Completed(urls, answer, jitter, order);
    CompletedHas(urls, answer, jitter, order, (t: HandlerTrace) => t.ending.Raised404?);
    Fetched(CollectResults(traces), AppendLogged(log, Logged(traces)))
  }

  /** Without a 404 the results are the per-URL results in some order: one per URL, none lost or repeated. */
  lemma FetchDataPermutes(urls: seq<string>, answer: (nat, nat) -> Attempt, jitter: (nat, nat) -> real,
                          order: seq<nat>, log: string)
    requires Permutation.IsOrder(order, |urls|)
    requires FetchData(urls, answer, jitter, order, log).results.Ok?
    ensures
      var outcome := (i: nat) => if i < |urls| then ResultOf(Worker(urls, answer, jitter, i)) else None;
      multiset(FetchData(urls, answer, jitter, order, log).results.value)
        == multiset(Permutation.Apply(outcome, Permutation.Range(|urls|)))
  {
    var outcome := (i: nat) => if i < |urls| then ResultOf(Worker(urls, answer, jitter, i)) else None;
    var results := FetchData(urls, answer, jitter, order, log).results.value;
    Permutation.OrderBounds(order, |urls|);
    assert results == Permutation.Apply(outcome, order);
    Permutation.OrderedValues(outcome, order, |urls|);
  }

  /** The URLs of the first `n` workers that gave up, one per such worker, in submission order. */
  function GaveUpUrls(urls: seq<string>, answer: (nat, nat) -> Attempt, jitter: (nat, nat) -> real, n: nat): (us: seq<string>)
    requires n <= |urls|
    ensures |us| <= n
  {
    if n == 0 then []
    else
      GaveUpUrls(urls, answer, jitter, n - 1)
        + (if Worker(urls, answer, jitter, n - 1).ending.GaveUp? then [urls[n - 1]] else [])
  }

  lemma {:induction false} LoggedConcat(a: seq<HandlerTrace>, b: seq<HandlerTrace>)
    ensures Logged(a + b) == Logged(a) + Logged(b)
  {
    if a == [] {
      assert a + b == b;
    } else {
      var ab := a + b;
      assert ab[0] == a[0] && ab[1..] == a[1..] + b;
      LoggedConcat(a[1..], b);
      Seqs.ConcatAssoc(a[0].logged, Logged(a[1..]), Logged(b));
    }
  }

  lemma LoggedSnoc(ts: seq<HandlerTrace>, t: HandlerTrace)
    ensures Logged(ts + [t]) == Logged(ts) + t.logged
  {
    LoggedConcat(ts, [t]);
    assert [t][1..] == [];
  }

  /** A worker logs its URL when it gives up, and nothing otherwise. */
  lemma WorkerLogged(urls: seq<string>, answer: (nat, nat) -> Attempt, jitter: (nat, nat) -> real, i: nat)
    requires i < |urls|
    ensures Worker(urls, answer, jitter, i).logged == if Worker(urls, answer, jitter, i).ending.GaveUp? then [urls[i]] else []
  {
  }

  /** Rearranging the traces rearranges what they logged. */
  lemma {:induction false} LoggedMultiset(xs: seq<HandlerTrace>, ys: seq<HandlerTrace>)
    requires multiset(xs) == multiset(ys)
    ensures multiset(Logged(xs)) == multiset(Logged(ys))
    decreases |xs|
  {
    if xs != [] {
      var j := Permutation.MatchHead(xs, ys);
      var rest := ys[..j] + ys[j + 1..];
      LoggedMultiset(xs[1..], rest);
      assert ys == ys[..j] + ([ys[j]] + ys[j + 1..]);
      LoggedConcat(ys[..j], [ys[j]] + ys[j + 1..]);
      LoggedConcat([ys[j]], ys[j + 1..]);
      LoggedConcat(ys[..j], ys[j + 1..]);
      assert Logged([ys[j]]) == ys[j].logged;
    }
  }

  /** The workers run one after another in submission order log exactly the URLs that gave up. */
  lemma {:induction false} LoggedInSubmissionOrder(urls: seq<string>, answer: (nat, nat) -> Attempt,
                                                   jitter: (nat, nat) -> real, w: nat -> HandlerTrace, n: nat)
    requires n <= |urls|
    requires forall i :: 0 <= i < |urls| ==> w(i) == Worker(urls, answer, jitter, i)
    ensures Logged(Permutation.Apply(w, Permutation.Range(n))) == GaveUpUrls(urls, answer, jitter, n)
  {
    if n > 0 {
      LoggedInSubmissionOrder(urls, answer, jitter, w, n - 1);
      Permutation.ApplyRangeSnoc(w, n - 1);
      LoggedSnoc(Permutation.Apply(w, Permutation.Range(n - 1)), w(n - 1));
      WorkerLogged(urls, answer, jitter, n - 1);
    }
  }

  /** The finished workers logged the URLs that gave up, one line per worker, in some order. */
  lemma CompletedLogged(urls: seq<string>, answer: (nat, nat) -> Attempt, jitter: (nat, nat) -> real,
                        order: seq<nat>)
    requires Permutation.IsOrder(order, |urls|)
    ensures multiset(Logged(Completed(urls, answer, jitter, order))) == multiset(GaveUpUrls(urls, answer, jitter, |urls|))
  {
    var none := HandlerTrace(GaveUp, 0, [], []);
    var w := (i: nat) => if i < |urls| then Worker(urls, answer, jitter, i) else none;
    CompletedIsApply(urls, answer, jitter, order, w);
    Permutation.OrderedValues(w, order, |urls|);
    LoggedMultiset(Permutation.Apply(w, order), Permutation.Apply(w, Permutation.Range(|urls|)));
    LoggedInSubmissionOrder(urls, answer, jitter, w, |urls|);
  }

  lemma CompletedIsApply(urls: seq<string>, answer: (nat, nat) -> Attempt, jitter: (nat, nat) -> real,
                         order: seq<nat>, w: nat -> HandlerTrace)
    requires Permutation.IsOrder(order, |urls|)
    requires forall i :: 0 <= i < |urls| ==> w(i) == Worker(urls, answer, jitter, i)
    ensures Completed(urls, answer, jitter, order) == Permutation.Apply(w, order)
  {
    Permutation.OrderBounds(order, |urls|);
  }

  /** The URLs the finished workers logged are exactly those of the workers that gave up. */
  lemma LoggedAreGaveUp(urls: seq<string>, answer: (nat, nat) -> Attempt, jitter: (nat, nat) -> real,
                        order: seq<nat>, u: string)
    requires Permutation.IsOrder(order, |urls|)
    ensures u in Logged(Completed(urls, answer, jitter, order)) <==>
      exists i :: 0 <= i < |urls| && Worker(urls, answer, jitter, i).ending.GaveUp? && urls[i] == u
  {
    CompletedHas(urls, answer, jitter, order, (t: HandlerTrace) => u in t.logged);
    forall i | 0 <= i < |urls|
      ensures u in Worker(urls, answer, jitter, i).logged <==> Worker(urls, answer, jitter, i).ending.GaveUp? && urls[i] == u
    {
    }
  }

  /**
    Read as lines, the log gains exactly the URLs whose requests failed three times, whether or
    not the call raised.
   */
  lemma FetchDataLogsFailures(urls: seq<string>, answer: (nat, nat) -> Attempt, jitter: (nat, nat) -> real,
                              order: seq<nat>, log: string)
    requires Permutation.IsOrder(order, |urls|)
    requires Text.EndsLine(log) && forall i :: 0 <= i < |urls| ==> '\n' !in urls[i]
    ensures var log' := FetchData(urls, answer, jitter, order, log).log;
      && Text.EndsLine(log')
      && |Text.Lines(log')| >= |Text.Lines(log)|
      && Text.Lines(log')[..|Text.Lines(log)|] == Text.Lines(log)
      && (forall u :: u in Text.Lines(log')[|Text.Lines(log)|..] <==>
           exists i :: 0 <= i < |urls| && Worker(urls, answer, jitter, i).ending.GaveUp? && urls[i] == u)
      && multiset(Text.Lines(log')[|Text.Lines(log)|..]) == multiset(GaveUpUrls(urls, answer, jitter, |urls|))
      && |Text.Lines(log')| - |Text.Lines(log)| == |GaveUpUrls(urls, answer, jitter, |urls|)|
  {
    var failed := Logged(Completed(urls, answer, jitter, order));
    LogGainsLogged(urls, answer, jitter, order, log);
    var log' := FetchData(urls, answer, jitter, order, log).log;
    var lines := Text.Lines(log);
    assert Text.Lines(log')[..|lines|] == lines;
    assert Text.Lines(log')[|lines|..] == failed;
    forall u
      ensures u in failed <==> exists i :: 0 <= i < |urls| && Worker(urls, answer, jitter, i).ending.GaveUp? && urls[i] == u
    {
      LoggedAreGaveUp(urls, answer, jitter, order, u);
    }
    FailedCount(urls, answer, jitter, order);
  }

  /** Read as lines, the log gains what the finished workers logged, in completion order. */
  lemma LogGainsLogged(urls: seq<string>, answer: (nat, nat) -> Attempt, jitter: (nat, nat) -> real,
                       order: seq<nat>, log: string)
    requires Permutation.IsOrder(order, |urls|)
    requires Text.EndsLine(log) && forall i :: 0 <= i < |urls| ==> '\n' !in urls[i]
    ensures var log' := FetchData(urls, answer, jitter, order, log).log;
      Text.EndsLine(log') && Text.Lines(log') == Text.Lines(log) + Logged(Completed(urls, answer, jitter, order))
  {
    var failed := Logged(Completed(urls, answer, jitter, order));
    forall u | u in failed
      ensures '\n' !in u
    {
      LoggedAreGaveUp(urls, answer, jitter, order, u);
    }
    AppendLoggedLines(log, failed);
  }

  /** As many URLs are logged as workers gave up, each as often as its workers did. */
  lemma FailedCount(urls: seq<string>, answer: (nat, nat) -> Attempt, jitter: (nat, nat) -> real, order: seq<nat>)
    requires Permutation.IsOrder(order, |urls|)
    ensures var failed := Logged(Completed(urls, answer, jitter, order));
      && multiset(failed) == multiset(GaveUpUrls(urls, answer, jitter, |urls|))
      && |failed| == |GaveUpUrls(urls, answer, jitter, |urls|)|
  {
    var failed := Logged(Completed(urls, answer, jitter, order));
    CompletedLogged(urls, answer, jitter, order);
    assert |multiset(failed)| == |failed|;
    assert |multiset(GaveUpUrls(urls, answer, jitter, |urls|))| == |GaveUpUrls(urls, answer, jitter, |urls|)|;
  }
}

=== FILE: counting.dfy ===
/**
  Counting as the analysis scripts do it with `collections.Counter` and pandas `value_counts`:
  a tally of how often each value occurs, its total, and the per-year table that
  `value_counts(sort=False).sort_index()` gives.
 */
module Counting {
  import Sums
  import Order

  /** A count read from a tally; an absent key counts 0. */
  function Get<K>(m: map<K, nat>, k: K): nat
  {
    if k in m then m[k] else 0
  }

  /** `Get` as a function of the key, for sums over the keys. */
  function CountFn<K>(m: map<K, nat>): K -> int
  {
    k => Get(m, k)
  }

  /** The sum of all counts of a tally. */
  ghost function Total<K>(m: map<K, nat>): int
  {
    Sums.SetSum(m.Keys, CountFn(m))
  }

  /** The sum of `f` over a set of strings, in ascending order. */
  function SetTotal(s: set<string>, f: string -> int): (t: int)
    ensures t == Sums.SetSum(s, f)
  {
    var ks := Order.SortedKeys(s);
    Sums.SeqSumListing(ks, s, f);
    Sums.SeqSum(ks, f)
  }

  /** One more occurrence of `x`. */
  function Inc<K>(m: map<K, nat>, x: K): (r: map<K, nat>)
    ensures r.Keys == m.Keys + {x}
    ensures r[x] == Get(m, x) + 1
    ensures forall k :: k in m && k != x ==> r[k] == m[k]
  {
    m[x := Get(m, x) + 1]
  }

  /** One more occurrence adds one to the total. */
  lemma IncTotal<K>(m: map<K, nat>, x: K)
    ensures Total(Inc(m, x)) == Total(m) + 1
  {
    var r := Inc(m, x);
    Sums.SetSumCongruent(m.Keys - {x}, CountFn(r), CountFn(m));
    Sums.SetSumRemove(r.Keys, CountFn(r), x);
    assert r.Keys - {x} == m.Keys - {x};
    if x in m {
      Sums.SetSumRemove(m.Keys, CountFn(m), x);
    } else {
      assert m.Keys - {x} == m.Keys;
    }
  }

  /** `Counter(xs)` / `value_counts()`: the number of occurrences of each element of `xs`. */
  function Tally<K(!new)>(xs: seq<K>): (m: map<K, nat>)
    ensures forall k :: k in m <==> k in xs
    ensures forall k :: k in m ==> m[k] == multiset(xs)[k]
  {
    if xs == [] then map[]
    else
      var init := xs[..|xs| - 1];
      var x := xs[|xs| - 1];
      assert xs == init + [x];
      assert forall k :: k in xs <==> k in init || k == x;
      Inc(Tally(init), x)
  }

  /** Every element is counted once: the counts add up to the length of the sequence. */
  lemma {:induction false} TallyTotal<K(!new)>(xs: seq<K>)
    ensures Total(Tally(xs)) == |xs|
  {
    if xs != [] {
      var init := xs[..|xs| - 1];
      TallyTotal(init);
      IncTotal(Tally(init), xs[|xs| - 1]);
    }
  }

  /** The (key, count) entries of a tally for the keys `ks`, in that order. */
  function Entries<K>(ks: seq<K>, m: map<K, nat>): (es: seq<(K, int)>)
    ensures |es| == |ks|
    ensures forall i :: 0 <= i < |ks| ==> es[i] == (ks[i], Get(m, ks[i]))
  {
    if ks == [] then [] else [(ks[0], Get(m, ks[0]))] + Entries(ks[1..], m)
  }

  lemma {:induction false} EntriesSum<K>(ks: seq<K>, m: map<K, nat>)
    ensures Sums.SumAll(Entries(ks, m)) == Sums.SeqSum(ks, CountFn(m))
  {
    if ks != [] {
      EntriesSum(ks[1..], m);
      assert Entries(ks, m)[1..] == Entries(ks[1..], m);
    }
  }

  /** The entries of a tally in ascending key order. */
  function SortedEntries(m: map<string, nat>): seq<(string, int)>
  {
    Entries(Order.SortedKeys(m.Keys), m)
  }

  /** The entries of a tally in ascending key order are strictly ascending. */
  lemma SortedEntriesAscend(m: map<string, nat>)
    ensures var es := SortedEntries(m);
      forall i, j :: 0 <= i < j < |es| ==> Order.Le(es[i].0, es[j].0) && es[i].0 != es[j].0
  {
    var ks := Order.SortedKeys(m.Keys);
    var es := SortedEntries(m);
    forall i, j | 0 <= i < j < |es|
      ensures Order.Le(es[i].0, es[j].0) && es[i].0 != es[j].0
    {
      assert es[i].0 == ks[i] && es[j].0 == ks[j];
    }
  }

  /** Each entry of a tally carries its count. */
  lemma SortedEntriesCount(m: map<string, nat>)
    ensures var es := SortedEntries(m);
      forall i :: 0 <= i < |es| ==> es[i].0 in m && es[i].1 == m[es[i].0]
  {
  }

  /** Every key of a tally has an entry. */
  lemma SortedEntriesCover(m: map<string, nat>)
    ensures var es := SortedEntries(m);
      forall k :: k in m ==> exists i :: 0 <= i < |es| && es[i].0 == k
  {
    var ks := Order.SortedKeys(m.Keys);
    var es := SortedEntries(m);
    forall k | k in m
      ensures exists i :: 0 <= i < |es| && es[i].0 == k
    {
      var i :| 0 <= i < |ks| && ks[i] == k;
      assert es[i].0 == k;
    }
  }

  /**
    `value_counts(sort=False).sort_index()` over string labels: one entry per distinct value, in
    ascending order, with its number of occurrences.
   */
  function SortedCounts(xs: seq<string>): (es: seq<(string, int)>)
    ensures forall i, j :: 0 <= i < j < |es| ==> Order.Le(es[i].0, es[j].0) && es[i].0 != es[j].0
    ensures forall i :: 0 <= i < |es| ==> es[i].0 in xs && es[i].1 == multiset(xs)[es[i].0]
    ensures forall v :: v in xs ==> exists i :: 0 <= i < |es| && es[i].0 == v
  {
    var m := Tally(xs);
    SortedEntriesAscend(m);
    SortedEntriesCount(m);
    SortedEntriesCover(m);
    SortedEntries(m)
  }

  /** The counts of `SortedCounts` add up to the number of values. */
  lemma SortedCountsTotal(xs: seq<string>)
    ensures Sums.SumAll(SortedCounts(xs)) == |xs|
  {
    var m := Tally(xs);
    var ks := Order.SortedKeys(m.Keys);
    EntriesSum(ks, m);
    Sums.SeqSumListing(ks, m.Keys, CountFn(m));
    TallyTotal(xs);
  }
}

=== FILE: crawler_main.dfy ===
/**
  The command-line driver (`main` in crawler.py): it names the checkpoint file of subject codes
  after the kind and the page range, runs the rank scan only when that file does not exist and
  otherwise reads the codes back from it, builds the request headers, and hands the codes to the
  detail crawler of the kind, if there is one.

  The file system is abstract: whether the checkpoint exists and the rows a CSV reader yields
  from it are parameters, and so are the codes the rank scan returns.
 */
module CrawlerMain {
  import opened Outcome
  import Text
  import Numerals
  import Order
  import RankCrawler

  /** `os.path.join(a, b)` with POSIX separators. */
  function PathJoin(a: string, b: string): (p: string)
    ensures |b| > 0 && b[0] == '/' ==> p == b
    ensures !(|b| > 0 && b[0] == '/') ==>
      p == (if a == "" || a[|a| - 1] == '/' then a + b else a + "/" + b)
  {
    if |b| > 0 && b[0] == '/' then b
    else if a == "" || a[|a| - 1] == '/' then a + b
    else a + "/" + b
  }

  /** A relative file name: `os.path.join` keeps the directory in front of it. */
  predicate Relative(b: string)
  {
    b == "" || b[0] != '/'
  }

  /** Joining one directory with two relative names gives the same path only for the same name. */
  lemma PathJoinInjective(a: string, b1: string, b2: string)
    requires Relative(b1) && Relative(b2)
    requires PathJoin(a, b1) == PathJoin(a, b2)
    ensures b1 == b2
  {
    var n := if a == "" || a[|a| - 1] == '/' then |a| else |a| + 1;
    assert b1 == PathJoin(a, b1)[n..];
    assert b2 == PathJoin(a, b2)[n..];
  }

  const CodesInfix := "_subject_codes"
  const CsvSuffix := ".csv"

  /** The checkpoint file name `{type}_subject_codes_{start}_{end}.csv`. */
  function CheckpointName(kind: string, start: int, end: int): string
  {
    kind + CodesInfix + "_" + Numerals.IntToString(start) + "_" + Numerals.IntToString(end) + CsvSuffix
  }

  /** The checkpoint path inside the data directory. */
  function CheckpointPath(dir: string, kind: string, start: int, end: int): string
  {
    PathJoin(dir, CheckpointName(kind, start, end))
  }

  /** A written integer never contains an underscore. */
  lemma NoUnderscore(i: int)
    ensures '_' !in Numerals.IntToString(i)
  {
    var s := Numerals.IntToString(i);
    assert forall k :: 0 <= k < |s| ==> s[k] == '-' || Numerals.IsDigit(s[k]);
  }

  /** A separator-free string splits into itself. */
  lemma SplitWithoutSeparator(d: string, sep: char)
    requires sep !in d
    ensures Text.Split(d, sep) == [d]
  {
    Text.SplitJoin([d], sep);
  }

  /**
    `x + "_" + d` determines `x` and `d` when `d` has no underscore: `d` is what follows the
    last underscore.
   */
  lemma SplitAtLastUnderscore(x: string, d: string, y: string, e: string)
    requires '_' !in d && '_' !in e
    requires x + "_" + d == y + "_" + e
    ensures x == y && d == e
  {
    Text.SplitAppend(x, d, '_');
    Text.SplitAppend(y, e, '_');
    SplitWithoutSeparator(d, '_');
    SplitWithoutSeparator(e, '_');
    assert x + "_" + d == x + ['_'] + d;
    assert y + "_" + e == y + ['_'] + e;
    var parts := Text.Split(x + "_" + d, '_');
    assert d == parts[|parts| - 1] == e;
    assert x == (x + "_" + d)[..|x|];
    assert y == (y + "_" + e)[..|y|];
  }

  /** Different (kind, start, end) triples name different checkpoint files. */
  lemma CheckpointNameInjective(k1: string, s1: int, e1: int, k2: string, s2: int, e2: int)
    requires CheckpointName(k1, s1, e1) == CheckpointName(k2, s2, e2)
    ensures k1 == k2 && s1 == s2 && e1 == e2
  {
    var n1 := CheckpointName(k1, s1, e1);
    var a1 := k1 + CodesInfix + "_" + Numerals.IntToString(s1);
    var a2 := k2 + CodesInfix + "_" + Numerals.IntToString(s2);
    assert a1 + "_" + Numerals.IntToString(e1) == n1[..|n1| - |CsvSuffix|];
    assert a2 + "_" + Numerals.IntToString(e2) == n1[..|n1| - |CsvSuffix|];
    NoUnderscore(s1);
    NoUnderscore(s2);
    NoUnderscore(e1);
    NoUnderscore(e2);
    SplitAtLastUnderscore(a1, Numerals.IntToString(e1), a2, Numerals.IntToString(e2));
    SplitAtLastUnderscore(k1 + CodesInfix, Numerals.IntToString(s1), k2 + CodesInfix, Numerals.IntToString(s2));
    assert k1 == (k1 + CodesInfix)[..|k1|];
    assert k2 == (k2 + CodesInfix)[..|k2|];
    Numerals.IntToStringInjective(s1, s2);
    Numerals.IntToStringInjective(e1, e2);
  }

  /**
    In one data directory, different (kind, start, end) triples have different checkpoint
    paths, for kinds that do not start with '/' (which would make `os.path.join` drop the
    directory).
   */
  lemma CheckpointPathInjective(dir: string, k1: string, s1: int, e1: int, k2: string, s2: int, e2: int)
    requires Relative(k1) && Relative(k2)
    requires CheckpointPath(dir, k1, s1, e1) == CheckpointPath(dir, k2, s2, e2)
    ensures k1 == k2 && s1 == s2 && e1 == e2
  {
    var b1 := CheckpointName(k1, s1, e1);
    var b2 := CheckpointName(k2, s2, e2);
    assert Relative(b1) && Relative(b2) by {
      assert k1 != "" ==> b1[0] == k1[0];
      assert k2 != "" ==> b2[0] == k2[0];
    }
    PathJoinInjective(dir, b1, b2);
    CheckpointNameInjective(k1, s1, e1, k2, s2, e2);
  }

  /** `[row[0] for row in csv_reader]`: the first field of each row; an empty row has none. */
  function FirstFields(rows: seq<seq<string>>): (r: Result<seq<string>>)
    ensures r.Ok? <==> forall k :: 0 <= k < |rows| ==> rows[k] != []
    ensures r.Raise? ==> r.error == IndexError
    ensures r.Ok? ==> |r.value| == |rows| && forall k :: 0 <= k < |rows| ==> r.value[k] == rows[k][0]
  {
    if rows == [] then Ok([])
    else if rows[0] == [] then Raise(IndexError)
    else
      var rest :- FirstFields(rows[1..]);
      assert forall k :: 1 <= k < |rows| ==> rows[k] == rows[1..][k - 1];
      Ok([rows[0][0]] + rest)
  }

  /**
    Reading the checkpoint back: `next(csv_reader)` skips the header, and raises
    `StopIteration` on an empty file; then the first field of every remaining row.
   */
  function LoadCodes(rows: seq<seq<string>>): (r: Result<seq<string>>)
    ensures rows == [] ==> r == Raise(StopIteration)
    ensures rows != [] ==> r == FirstFields(rows[1..])
  {
    if rows == [] then Raise(StopIteration) else FirstFields(rows[1..])
  }

  /** Loading a table written as a header and one code per row gives the codes back, in order. */
  lemma LoadSavedCodes(codes: seq<string>)
    ensures LoadCodes(RankCrawler.CodesTable(codes)) == Ok(codes)
  {
    var rows := RankCrawler.CodesTable(codes)[1..];
    assert forall k :: 0 <= k < |rows| ==> rows[k] == [codes[k]];
    var loaded := FirstFields(rows);
    assert loaded.Ok? && |loaded.value| == |codes|;
    assert forall k :: 0 <= k < |codes| ==> loaded.value[k] == codes[k];
    assert loaded.value == codes;
  }

  /**
    Loading what the rank scan saved gives back exactly the codes it found, each once, in
    ascending order.
   */
  lemma LoadScannedCodes(c: RankCrawler.Crawler, fetchOne: string -> Option<string>, hrefsOf: string -> seq<string>)
    ensures var run := RankCrawler.GetSubjectCodes(c, fetchOne, hrefsOf);
      LoadCodes(run.saved) == Ok(Order.SortedKeys(run.codes))
  {
    var run := RankCrawler.GetSubjectCodes(c, fetchOne, hrefsOf);
    LoadSavedCodes(Order.SortedKeys(run.codes));
  }

  /** The command-line arguments `main` uses. */
  datatype Args = Args(dir: string, kind: string, start: int, end: int, userAgent: Option<string>, accessToken: Option<string>)

  /** The detail crawl `main` starts, and the codes it gives it. */
  datatype Detail = MusicInfo(codes: seq<string>) | AnimeInfo(codes: seq<string>) | NoDetail

  /** The headers and the detail crawl, once the codes are known. */
  datatype Dispatch = Dispatch(headers: map<string, Option<string>>, detail: Detail)

  /** What `main` does: the checkpoint it looks for, whether it scanned, and how it went on. */
  datatype MainRun = MainRun(checkpoint: string, scanned: bool, outcome: Result<Dispatch>)

  const UserAgentHeader := "User-Agent"
  const AuthorizationHeader := "Authorization"

  /** `f"Bearer {args.access_token}"`: an absent token is formatted as `None`. */
  function Bearer(token: Option<string>): (v: string)
    ensures token.Some? ==> v == "Bearer " + token.value
    ensures token.None? ==> v == "Bearer None"
  {
    "Bearer " + match token case Some(t) => t case None => "None"
  }

  /** The type dispatch: music and anime have detail crawlers, the other kinds stop here. */
  function DetailFor(kind: string, codes: seq<string>): (d: Detail)
    ensures d.MusicInfo? <==> kind == "music"
    ensures d.AnimeInfo? <==> kind == "anime"
    ensures !d.NoDetail? ==> d.codes == codes
  {
    if kind == "music" then MusicInfo(codes)
    else if kind == "anime" then AnimeInfo(codes)
    else NoDetail
  }

  /**
    `main()`: the rank scan (whose codes are `scanned`) runs only when the checkpoint does not
    exist; otherwise the codes are read from `checkpointRows`, and a failed read ends the run
    before any header is built.
   */
  function Main(args: Args, checkpointExists: bool, checkpointRows: seq<seq<string>>, scanned: Result<seq<string>>): (r: MainRun)
    ensures r.checkpoint == CheckpointPath(args.dir, args.kind, args.start, args.end)
    ensures r.scanned <==> !checkpointExists
    ensures var codes := if checkpointExists then LoadCodes(checkpointRows) else scanned;
      && (r.outcome.Ok? <==> codes.Ok?)
      && (r.outcome.Raise? ==> r.outcome.error == codes.error)
      && (r.outcome.Ok? ==>
            && r.outcome.value.headers.Keys == {UserAgentHeader, AuthorizationHeader}
            && r.outcome.value.headers[UserAgentHeader] == args.userAgent
            && r.outcome.value.headers[AuthorizationHeader] == Some(Bearer(args.accessToken))
            && r.outcome.value.detail == DetailFor(args.kind, codes.value))
  {
    var path := CheckpointPath(args.dir, args.kind, args.start, args.end);
    var codes := if checkpointExists then LoadCodes(checkpointRows) else scanned;
    match codes
    case Raise(err) => MainRun(path, !checkpointExists, Raise(err))
    case Ok(cs) =>
      var headers := map[UserAgentHeader := args.userAgent, AuthorizationHeader := Some(Bearer(args.accessToken))];
      MainRun(path, !checkpointExists, Ok(Dispatch(headers, DetailFor(args.kind, cs))))
  }

  /**
    A second run over the same range finds the checkpoint the rank scan's save format wrote
    and hands the detail crawler the same codes, without scanning again.
   */
  lemma ResumeFromCheckpoint(args: Args, codes: seq<string>)
    ensures var first := Main(args, false, [], Ok(codes));
      var again := Main(args, true, RankCrawler.CodesTable(codes), Raise(AssertionError));
      && again.checkpoint == first.checkpoint
      && !again.scanned
      && again.outcome == first.outcome
  {
    LoadSavedCodes(codes);
  }
}

=== FILE: dates.dfy ===
/**
  What the constructors of the analysis scripts do with the `date` column, for any kind of row:
  `dropna(subset=["date"])` keeps the rows with a date, and `year` is the year of that date.
  `value_counts(sort=False).sort_index()` on the year column then gives the rows per year.

  `year(x)` is the year of row `x`, missing when its date is.
 */
module Dates {
  import opened Outcome
  import Sums
  import Order
  import Counting
  import Seqs

  /** `dropna(subset=["date"])`: the rows with a date, in order. */
  function Dated<R(==,!new)>(rows: seq<R>, year: R -> Option<string>): (r: seq<R>)
    ensures |r| <= |rows|
    ensures forall x :: multiset(r)[x] == if year(x).Some? then multiset(rows)[x] else 0
    ensures forall i :: 0 <= i < |r| ==> year(r[i]).Some? && r[i] in rows
    ensures forall x :: x in rows && year(x).Some? ==> x in r
  {
    if rows == [] then []
    else
      var rest := Dated(rows[1..], year);
      var r := if year(rows[0]).Some? then [rows[0]] + rest else rest;
      DatedStep(rows, year, rest, r);
      r
  }

  /** One step of `Dated`: what the rest keeps, with the first row in front when it has a date. */
  lemma DatedStep<R(!new)>(rows: seq<R>, year: R -> Option<string>, rest: seq<R>, r: seq<R>)
    requires rows != [] && |rest| <= |rows| - 1
    requires forall x :: multiset(rest)[x] == if year(x).Some? then multiset(rows[1..])[x] else 0
    requires r == if year(rows[0]).Some? then [rows[0]] + rest else rest
    ensures |r| <= |rows|
    ensures forall x :: multiset(r)[x] == if year(x).Some? then multiset(rows)[x] else 0
    ensures forall i :: 0 <= i < |r| ==> year(r[i]).Some? && r[i] in rows
    ensures forall x :: x in rows && year(x).Some? ==> x in r
  {
    assert rows == [rows[0]] + rows[1..];
    forall i | 0 <= i < |r|
      ensures year(r[i]).Some? && r[i] in rows
    {
      assert multiset(r)[r[i]] > 0;
    }
  }

  /** The first row is kept in front of the rest exactly when it has a date. */
  lemma DatedCons<R(!new)>(rows: seq<R>, year: R -> Option<string>)
    requires rows != []
    ensures Dated(rows, year) == (if year(rows[0]).Some? then [rows[0]] else []) + Dated(rows[1..], year)
  {
  }

  /** Dropping undated rows of a concatenation drops them from each part, so the order is kept. */
  lemma {:induction false} DatedConcat<R(!new)>(xs: seq<R>, ys: seq<R>, year: R -> Option<string>)
    ensures Dated(xs + ys, year) == Dated(xs, year) + Dated(ys, year)
  {
    if xs == [] {
      assert xs + ys == ys;
    } else {
      var zs := xs + ys;
      assert zs[0] == xs[0] && zs[1..] == xs[1..] + ys;
      DatedCons(zs, year);
      DatedCons(xs, year);
      DatedConcat(xs[1..], ys, year);
      var head := if year(xs[0]).Some? then [xs[0]] else [];
      var a, b := Dated(xs[1..], year), Dated(ys, year);
      Seqs.ConcatAssoc(head, a, b);
    }
  }

  /** The year column of the dated rows, in order. */
  function Years<R(==,!new)>(rows: seq<R>, year: R -> Option<string>): (ys: seq<string>)
    ensures |ys| == |Dated(rows, year)|
    ensures forall i :: 0 <= i < |ys| ==> Some(ys[i]) == year(Dated(rows, year)[i])
  {
    if rows == [] then []
    else
      var rest := Years(rows[1..], year);
      DatedCons(rows, year);
      match year(rows[0])
      case Some(y) => [y] + rest
      case None => rest
  }

  /**
    `value_counts(sort=False).sort_index()` on the year column: one entry per year of the dated
    rows, in ascending order, with the number of dated rows of that year.
   */
  function YearCounts<R(==,!new)>(rows: seq<R>, year: R -> Option<string>): (es: seq<(string, int)>)
    ensures forall i, j :: 0 <= i < j < |es| ==> Order.Le(es[i].0, es[j].0) && es[i].0 != es[j].0
    ensures forall i :: 0 <= i < |es| ==> es[i].0 in Years(rows, year) && es[i].1 == multiset(Years(rows, year))[es[i].0]
    ensures forall y :: y in Years(rows, year) ==> exists i :: 0 <= i < |es| && es[i].0 == y
  {
    Counting.SortedCounts(Years(rows, year))
  }

  /** The year counts add up to the number of rows with a date. */
  lemma YearCountsTotal<R(!new)>(rows: seq<R>, year: R -> Option<string>)
    ensures Sums.SumAll(YearCounts(rows, year)) == |Dated(rows, year)|
  {
    Counting.SortedCountsTotal(Years(rows, year));
  }
}

=== FILE: flatten.dfy ===
/**
  Flattening one detail record of the catalogue API into a table row, as the loop body of
  `process_anime_info` (crawler/anime_crawler.py) and its older copy inside `get_music_info`
  (crawler/music_crawler.py) do it: the nested `images`, `tags`, `infobox` and `rating` fields
  are rewritten one after the other on the same dictionary, so a later step overwrites
  same-named columns of an earlier one.

  The dictionary starts as the parsed document, whose keys are strings. The tag and infobox
  comprehensions take their keys from the data, so the row and the tag table are keyed by any
  hashable value (`Key`).
 */
module Flatten {
  import opened Outcome
  import opened JsonValue
  import Order
  import Sums
  import Numerals

  /** What a column holds: a JSON value, or the name-to-count table the tag step builds. */
  datatype Cell = Value(json: Json) | Table(entries: map<Key, Json>)

  /** A row being flattened: column key to cell. */
  type Row = map<Key, Cell>

  /** The parsed document as a row: one column per field. */
  function Columns(fields: map<string, Json>): (row: Row)
    ensures forall k :: k in row <==> k.Name? && k.name in fields
    ensures forall s :: s in fields ==> row[Name(s)] == Value(fields[s])
  {
    map s | s in fields :: Name(s) := Value(fields[s])
  }

  const CoverSuffix: string := "_cover"

  /** The columns the rating step writes last. */
  const RatingColumns: set<Key> := {Name("rank"), Name("votes"), Name("ratings"), Name("rating_score")}

  predicate EndsWithCover(k: string)
  {
    |k| >= |CoverSuffix| && k[|k| - |CoverSuffix|..] == CoverSuffix
  }

  /** The image size a cover column is named after. */
  function CoverSize(k: string): string
    requires EndsWithCover(k)
  {
    k[..|k| - |CoverSuffix|]
  }

  lemma CoverKeyShape(size: string)
    ensures EndsWithCover(size + CoverSuffix) && CoverSize(size + CoverSuffix) == size
  {
    assert (size + CoverSuffix)[|size|..] == CoverSuffix;
  }

  /** A cover column of the given image sizes. */
  predicate IsCover(k: Key, images: map<string, Json>)
  {
    k.Name? && EndsWithCover(k.name) && CoverSize(k.name) in images
  }

  /** `{f"{size}_cover": url for size, url in images.items()}` */
  function Covers(images: map<string, Json>): (covers: Row)
    ensures forall k :: k in covers <==> IsCover(k, images)
    ensures forall k :: k in covers ==> IsCover(k, images) && covers[k] == Value(images[CoverSize(k.name)])
  {
    forall size | size in images
      ensures EndsWithCover(size + CoverSuffix) && CoverSize(size + CoverSuffix) == size
    {
      CoverKeyShape(size);
    }
    var covers := map size | size in images :: Name(size + CoverSuffix) := Value(images[size]);
    forall k | IsCover(k, images)
      ensures k in covers
    {
      CoverKeyRebuilt(k.name);
    }
    covers
  }

  lemma CoverKeyRebuilt(k: string)
    requires EndsWithCover(k)
    ensures CoverSize(k) + CoverSuffix == k
  {
    assert k == k[..|k| - |CoverSuffix|] + k[|k| - |CoverSuffix|..];
  }

  /** Each image size gets a cover column holding its URL. */
  lemma CoverOfSize(images: map<string, Json>, size: string)
    requires size in images
    ensures Name(size + CoverSuffix) in Covers(images)
    ensures Covers(images)[Name(size + CoverSuffix)] == Value(images[size])
  {
    CoverKeyShape(size);
  }

  // ---- name/value tables: `{e[kf]: e[vf] for e in elems}` ----

  /** An element the comprehension accepts: a dict with both fields and a hashable name. */
  predicate IsPair(e: Json, kf: string, vf: string)
  {
    e.Object? && kf in e.fields && vf in e.fields && KeyOf(e.fields[kf]).Some?
  }

  function PairKey(e: Json, kf: string, vf: string): Key
    requires IsPair(e, kf, vf)
  {
    KeyOf(e.fields[kf]).value
  }

  function PairValue(e: Json, kf: string, vf: string): Json
    requires IsPair(e, kf, vf)
  {
    e.fields[vf]
  }

  /**
    The exception the comprehension raises at a malformed element: subscripting a non-dict,
    a missing name, a missing value (the name is read first), or an unhashable name.
   */
  function PairError(e: Json, kf: string, vf: string): PyError
    requires !IsPair(e, kf, vf)
  {
    if !e.Object? then TypeError
    else if kf !in e.fields then KeyError(kf)
    else if vf !in e.fields then KeyError(vf)
    else TypeError
  }

  /** Every element of `elems` is accepted. */
  predicate AllPairs(elems: seq<Json>, kf: string, vf: string)
  {
    forall i :: 0 <= i < |elems| ==> IsPair(elems[i], kf, vf)
  }

  /** Element `i` is the first one the comprehension rejects. */
  predicate FirstBad(elems: seq<Json>, i: int, kf: string, vf: string)
  {
    0 <= i < |elems| && !IsPair(elems[i], kf, vf) && AllPairs(elems[..i], kf, vf)
  }

  /** Some element of `elems` is named `k`. */
  predicate Named(elems: seq<Json>, k: Key, kf: string, vf: string)
  {
    exists i :: 0 <= i < |elems| && IsPair(elems[i], kf, vf) && PairKey(elems[i], kf, vf) == k
  }

  /** No later element of `elems` has the same name as element `i`. */
  predicate LastOfName(elems: seq<Json>, i: int, kf: string, vf: string)
    requires 0 <= i < |elems| && IsPair(elems[i], kf, vf)
  {
    forall j :: i < j < |elems| && IsPair(elems[j], kf, vf) ==> PairKey(elems[j], kf, vf) != PairKey(elems[i], kf, vf)
  }

  /** How acceptance of `elems` follows from acceptance of all but its last element. */
  lemma AllPairsSnoc(elems: seq<Json>, kf: string, vf: string)
    requires |elems| > 0
    ensures var front := elems[..|elems| - 1];
      && (AllPairs(elems, kf, vf) <==> AllPairs(front, kf, vf) && IsPair(elems[|elems| - 1], kf, vf))
      && (forall i :: FirstBad(front, i, kf, vf) ==> FirstBad(elems, i, kf, vf))
      && (AllPairs(front, kf, vf) && !IsPair(elems[|elems| - 1], kf, vf) ==> FirstBad(elems, |elems| - 1, kf, vf))
  {
    var front := elems[..|elems| - 1];
    forall i | FirstBad(front, i, kf, vf)
      ensures FirstBad(elems, i, kf, vf)
    {
      assert front[..i] == elems[..i];
    }
  }

  /**
    `{e[kf]: e[vf] for e in elems}`: built left to right, so the value of a name is the value
    of the last element with that name; the first malformed element raises.
   */
  function PairTable(elems: seq<Json>, kf: string, vf: string): (r: Result<map<Key, Json>>)
    ensures r.Ok? <==> AllPairs(elems, kf, vf)
    ensures r.Raise? ==> exists i :: FirstBad(elems, i, kf, vf) && r.error == PairError(elems[i], kf, vf)
    decreases |elems|
  {
    if elems == [] then Ok(map[])
    else
      var front := elems[..|elems| - 1];
      var e := elems[|elems| - 1];
      AllPairsSnoc(elems, kf, vf);
      match PairTable(front, kf, vf)
      case Raise(err) => Raise(err)
      case Ok(table) =>
        if IsPair(e, kf, vf) then Ok(table[PairKey(e, kf, vf) := PairValue(e, kf, vf)])
        else Raise(PairError(e, kf, vf))
  }

  /** The table has exactly the names of the elements. */
  lemma {:induction false} PairTableKeys(elems: seq<Json>, kf: string, vf: string, k: Key)
    requires PairTable(elems, kf, vf).Ok?
    ensures k in PairTable(elems, kf, vf).value <==> Named(elems, k, kf, vf)
    decreases |elems|
  {
    if elems != [] {
      var front := elems[..|elems| - 1];
      var e := elems[|elems| - 1];
      AllPairsSnoc(elems, kf, vf);
      PairTableKeys(front, kf, vf, k);
      if Named(front, k, kf, vf) {
        var i :| 0 <= i < |front| && IsPair(front[i], kf, vf) && PairKey(front[i], kf, vf) == k;
        assert elems[i] == front[i];
      }
      if Named(elems, k, kf, vf) && PairKey(e, kf, vf) != k {
        var i :| 0 <= i < |elems| && IsPair(elems[i], kf, vf) && PairKey(elems[i], kf, vf) == k;
        assert front[i] == elems[i];
      }
    }
  }

  /** Each name maps to the value of the last element with that name. */
  lemma {:induction false} PairTableLastWins(elems: seq<Json>, kf: string, vf: string, i: int)
    requires PairTable(elems, kf, vf).Ok?
    requires 0 <= i < |elems| && IsPair(elems[i], kf, vf) && LastOfName(elems, i, kf, vf)
    ensures PairKey(elems[i], kf, vf) in PairTable(elems, kf, vf).value
    ensures PairTable(elems, kf, vf).value[PairKey(elems[i], kf, vf)] == PairValue(elems[i], kf, vf)
    decreases |elems|
  {
    var front := elems[..|elems| - 1];
    var e := elems[|elems| - 1];
    AllPairsSnoc(elems, kf, vf);
    if i < |elems| - 1 {
      assert front[i] == elems[i];
      assert LastOfName(front, i, kf, vf) by {
        forall j | i < j < |front| && IsPair(front[j], kf, vf)
          ensures PairKey(front[j], kf, vf) != PairKey(front[i], kf, vf)
        {
          assert front[j] == elems[j];
        }
      }
      PairTableLastWins(front, kf, vf, i);
    }
  }

  /** `{e[kf]: e[vf] for e in v}` for whatever JSON value `v` is. */
  function NameTable(v: Json, kf: string, vf: string): Result<map<Key, Json>>
  {
    var elems :- Elements(v);
    PairTable(elems, kf, vf)
  }

  /**
    The same comprehension over a column: iterating a table visits its keys, and subscripting
    a key (a string, a number or `None`) by a field name raises TypeError.
   */
  function CellNameTable(c: Cell, kf: string, vf: string): Result<map<Key, Json>>
  {
    match c
    case Value(v) => NameTable(v, kf, vf)
    case Table(m) => if m == map[] then Ok(map[]) else Raise(TypeError)
  }

  // ---- the rating score: `sum(int(score) * count for score, count in counts.items()) / total` ----

  predicate ScoresAreIntegers(counts: map<string, Json>)
  {
    forall score :: score in counts ==> Numerals.ParseInt(score).Ok?
  }

  predicate CountsAreIntegers(counts: map<string, Json>)
  {
    forall score :: score in counts ==> AsInt(counts[score]).Some?
  }

  /** `int(score) * count` for one entry; 0 for a malformed or missing one. */
  function Weighted(counts: map<string, Json>, score: string): int
  {
    if score in counts && Numerals.ParseInt(score).Ok? && AsInt(counts[score]).Some? then
      Numerals.ParseInt(score).value * AsInt(counts[score]).value
    else 0
  }

  /** The sum over all entries of `int(score) * count`, independent of any visiting order. */
  ghost function ScoreTotal(counts: map<string, Json>): int
  {
    Sums.SetSum(counts.Keys, score => Weighted(counts, score))
  }

  /** The numerator of the rating score, computed by visiting the entries in key order. */
  function WeightedScoreSum(counts: map<string, Json>): (r: Result<int>)
    ensures r.Ok? <==> ScoresAreIntegers(counts) && CountsAreIntegers(counts)
    ensures !ScoresAreIntegers(counts) ==> r == Raise(ValueError)
    ensures ScoresAreIntegers(counts) && !CountsAreIntegers(counts) ==> r == Raise(TypeError)
    ensures r.Ok? ==> r.value == ScoreTotal(counts)
  {
    if !ScoresAreIntegers(counts) then Raise(ValueError)
    else if !CountsAreIntegers(counts) then Raise(TypeError)
    else
      var scores := Order.SortedKeys(counts.Keys);
      var f := score => Weighted(counts, score);
      assert Sums.Distinct(scores);
      Sums.SeqSumListing(scores, counts.Keys, f);
      Ok(Sums.SeqSum(scores, f))
  }

  /** Python true division `num / divisor` of an `int` by a JSON number. */
  function TrueDivide(num: int, divisor: Json): (r: Result<real>)
    ensures AsReal(divisor).None? ==> r == Raise(TypeError)
    ensures AsReal(divisor) == Some(0.0) ==> r == Raise(ZeroDivisionError)
    ensures r.Ok? ==> AsReal(divisor).Some? && AsReal(divisor).value != 0.0 && r.value * AsReal(divisor).value == num as real
  {
    match AsReal(divisor)
    case None => Raise(TypeError)
    case Some(d) => if d == 0.0 then Raise(ZeroDivisionError) else Ok(num as real / d)
  }

  /** Python `c[key]` on a column with a string key. */
  function Field(c: Cell, key: string): Result<Json>
  {
    match c
    case Value(v) => Subscript(v, key)
    case Table(m) => if Name(key) in m then Ok(m[Name(key)]) else Raise(KeyError(key))
  }

  /** `count` is a dict `int()` can read every key of, with integer values, and `total` is a non-zero number. */
  predicate ScoreReadable(counts: Json, votes: Json)
  {
    && counts.Object?
    && ScoresAreIntegers(counts.fields)
    && CountsAreIntegers(counts.fields)
    && AsReal(votes).Some?
    && AsReal(votes).value != 0.0
  }

  /** `sum([int(rating) * count for rating, count in ratings.items()]) / votes` */
  function RatingScore(counts: Json, votes: Json): (r: Result<real>)
    ensures !counts.Object? ==> r == Raise(AttributeError)
    ensures counts.Object? && !ScoresAreIntegers(counts.fields) ==> r == Raise(ValueError)
    ensures counts.Object? && ScoresAreIntegers(counts.fields) && !CountsAreIntegers(counts.fields) ==> r == Raise(TypeError)
    ensures counts.Object? && ScoresAreIntegers(counts.fields) && CountsAreIntegers(counts.fields) ==>
      && (AsReal(votes).None? ==> r == Raise(TypeError))
      && (AsReal(votes) == Some(0.0) ==> r == Raise(ZeroDivisionError))
    ensures r.Ok? <==> ScoreReadable(counts, votes)
    ensures r.Ok? ==> r.value == ScoreTotal(counts.fields) as real / AsReal(votes).value
  {
    if !counts.Object? then Raise(AttributeError)
    else if !ScoresAreIntegers(counts.fields) then Raise(ValueError)
    else if !CountsAreIntegers(counts.fields) then Raise(TypeError)
    else
      var q := TrueDivide(WeightedScoreSum(counts.fields).value, votes);
      assert q.Ok? ==> q.value == ScoreTotal(counts.fields) as real / AsReal(votes).value;
      q
  }

  /** A score key of more than 4300 digits makes scoring raise ValueError, as `int()` refuses it. */
  lemma LongScoreRaises(counts: Json, votes: Json, score: string)
    requires counts.Object? && score in counts.fields
    requires Numerals.IntegerBody(score) && Numerals.DigitCount(score) > Numerals.MaxStrDigits
    ensures RatingScore(counts, votes) == Raise(ValueError)
  {
    Numerals.TooManyDigitsRaises(score);
  }

  /** A score key that starts with an information separator (U+001C to U+001F) makes scoring raise ValueError. */
  lemma SeparatorScoreRaises(counts: Json, votes: Json, score: string)
    requires counts.Object? && score in counts.fields
    requires |score| > 0 && '\U{001C}' <= score[0] <= '\U{001F}'
    ensures RatingScore(counts, votes) == Raise(ValueError)
  {
    Numerals.SeparatorFirstRaises(score);
  }

  /** What the rating step reads from the rating object, and the score it computes. */
  datatype Rating = Rating(rank: Json, votes: Json, counts: Json, score: real)

  /** The rating object has `rank`, `total` and `count`. */
  predicate HasRatingFields(c: Cell)
  {
    Field(c, "rank").Ok? && Field(c, "total").Ok? && Field(c, "count").Ok?
  }

  /** A rating object the rating step accepts. */
  predicate RatingReadable(c: Cell)
  {
    HasRatingFields(c) && ScoreReadable(Field(c, "count").value, Field(c, "total").value)
  }

  /**
    `rank`, `votes` and `ratings` read from the rating object in that order, then the score. The
    first read or computation that fails raises.
   */
  function ReadRating(c: Cell): (r: Result<Rating>)
    ensures Field(c, "rank").Raise? ==> r == Raise(Field(c, "rank").error)
    ensures Field(c, "rank").Ok? && Field(c, "total").Raise? ==> r == Raise(Field(c, "total").error)
    ensures Field(c, "rank").Ok? && Field(c, "total").Ok? && Field(c, "count").Raise? ==>
      r == Raise(Field(c, "count").error)
    ensures HasRatingFields(c) && RatingScore(Field(c, "count").value, Field(c, "total").value).Raise? ==>
      r == Raise(RatingScore(Field(c, "count").value, Field(c, "total").value).error)
    ensures r.Ok? <==> RatingReadable(c)
    ensures r.Ok? ==>
      r.value == Rating(Field(c, "rank").value, Field(c, "total").value, Field(c, "count").value,
                        RatingScore(Field(c, "count").value, Field(c, "total").value).value)
  {
    var rank :- Field(c, "rank");
    var votes :- Field(c, "total");
    var counts :- Field(c, "count");
    var score :- RatingScore(counts, votes);
    Ok(Rating(rank, votes, counts, score))
  }

  // ---- the four rewriting steps, in the order the source applies them ----

  /**
    `images = {...}; row.pop("images"); row.update(images)` on the parsed document: `.items()`
    on a value that is not a dict raises AttributeError.
   */
  function UnpackImages(top: map<string, Json>): (r: Result<Row>)
    ensures "images" !in top ==> r == Raise(KeyError("images"))
    ensures "images" in top && !top["images"].Object? ==> r == Raise(AttributeError)
    ensures r.Ok? <==> "images" in top && top["images"].Object?
    ensures r.Ok? ==>
      var covers := Covers(top["images"].fields);
      && (forall k :: k in r.value <==> k in covers || (k.Name? && k.name in top && k.name != "images"))
      && (forall k :: k in covers ==> r.value[k] == covers[k])
      && (forall s :: s in top && s != "images" && Name(s) !in covers ==> r.value[Name(s)] == Value(top[s]))
  {
    if "images" !in top then Raise(KeyError("images"))
    else if !top["images"].Object? then Raise(AttributeError)
    else Ok((Columns(top) - {Name("images")}) + Covers(top["images"].fields))
  }

  /** `row["tags"] = {tag["name"]: tag["count"] for tag in row["tags"]}` */
  function UnpackTags(row: Row): (r: Result<Row>)
    ensures Name("tags") !in row ==> r == Raise(KeyError("tags"))
    ensures Name("tags") in row && CellNameTable(row[Name("tags")], "name", "count").Raise? ==>
      r == Raise(CellNameTable(row[Name("tags")], "name", "count").error)
    ensures r.Ok? <==> Name("tags") in row && CellNameTable(row[Name("tags")], "name", "count").Ok?
    ensures r.Ok? ==>
      && r.value.Keys == row.Keys
      && r.value[Name("tags")] == Table(CellNameTable(row[Name("tags")], "name", "count").value)
      && (forall k :: k in row && k != Name("tags") ==> r.value[k] == row[k])
  {
    if Name("tags") !in row then Raise(KeyError("tags"))
    else
      var tags :- CellNameTable(row[Name("tags")], "name", "count");
      Ok(row[Name("tags") := Table(tags)])
  }

  /** The entries of an infobox table as columns. */
  function InfoColumns(info: map<Key, Json>): (cols: Row)
    ensures cols.Keys == info.Keys && forall k :: k in info ==> cols[k] == Value(info[k])
  {
    map k | k in info :: Value(info[k])
  }

  /** `infobox = {item["key"]: item["value"] for item in row["infobox"]}; row.pop("infobox"); row.update(infobox)` */
  function UnpackInfobox(row: Row): (r: Result<Row>)
    ensures Name("infobox") !in row ==> r == Raise(KeyError("infobox"))
    ensures Name("infobox") in row && CellNameTable(row[Name("infobox")], "key", "value").Raise? ==>
      r == Raise(CellNameTable(row[Name("infobox")], "key", "value").error)
    ensures r.Ok? <==> Name("infobox") in row && CellNameTable(row[Name("infobox")], "key", "value").Ok?
    ensures r.Ok? ==>
      var info := CellNameTable(row[Name("infobox")], "key", "value").value;
      && r.value.Keys == (row.Keys - {Name("infobox")}) + info.Keys
      && (forall k :: k in info ==> r.value[k] == Value(info[k]))
      && (forall k :: k in row && k != Name("infobox") && k !in info ==> r.value[k] == row[k])
  {
    if Name("infobox") !in row then Raise(KeyError("infobox"))
    else
      var info :- CellNameTable(row[Name("infobox")], "key", "value");
      Ok((row - {Name("infobox")}) + InfoColumns(info))
  }

  /**
    Read the rating object, drop `rating` and write `rank`, `votes`, `ratings` and
    `rating_score` last.
   */
  function UnpackRating(row: Row): (r: Result<Row>)
    ensures Name("rating") !in row ==> r == Raise(KeyError("rating"))
    ensures Name("rating") in row && ReadRating(row[Name("rating")]).Raise? ==>
      r == Raise(ReadRating(row[Name("rating")]).error)
    ensures r.Ok? <==> Name("rating") in row && RatingReadable(row[Name("rating")])
    ensures r.Ok? ==>
      var rating := ReadRating(row[Name("rating")]).value;
      && r.value.Keys == (row.Keys - {Name("rating")}) + RatingColumns
      && r.value[Name("rank")] == Value(rating.rank)
      && r.value[Name("votes")] == Value(rating.votes)
      && r.value[Name("ratings")] == Value(rating.counts)
      && r.value[Name("rating_score")] == Value(Float(rating.score))
      && (forall k :: k in row && k != Name("rating") && k !in RatingColumns ==> r.value[k] == row[k])
  {
    if Name("rating") !in row then Raise(KeyError("rating"))
    else
      var rating :- ReadRating(row[Name("rating")]);
      Ok(Rated(row, rating))
  }

  /** The row the rating step leaves: `rating` dropped and the four rating columns written last. */
  function Rated(row: Row, rating: Rating): (r: Row)
    ensures r.Keys == (row.Keys - {Name("rating")}) + RatingColumns
    ensures r[Name("rank")] == Value(rating.rank) && r[Name("votes")] == Value(rating.votes)
    ensures r[Name("ratings")] == Value(rating.counts) && r[Name("rating_score")] == Value(Float(rating.score))
    ensures forall k :: k in row && k != Name("rating") && k !in RatingColumns ==> r[k] == row[k]
  {
    (row - {Name("rating")})[Name("rank") := Value(rating.rank)][Name("votes") := Value(rating.votes)]
      [Name("ratings") := Value(rating.counts)][Name("rating_score") := Value(Float(rating.score))]
  }

  // ---- the whole record ----

  /** The `images` field is present and a dict. */
  predicate ImagesOk(top: map<string, Json>)
  {
    "images" in top && top["images"].Object?
  }

  /** ... and the `tags` field is present and the tag comprehension accepts it. */
  predicate TagsOk(top: map<string, Json>)
  {
    ImagesOk(top) && "tags" in top && NameTable(top["tags"], "name", "count").Ok?
  }

  /** ... and the `infobox` field is present and the infobox comprehension accepts it. */
  predicate InfoOk(top: map<string, Json>)
  {
    TagsOk(top) && "infobox" in top && NameTable(top["infobox"], "key", "value").Ok?
  }

  /** The infobox table of a document whose first three steps succeed. */
  function Info(top: map<string, Json>): map<Key, Json>
    requires InfoOk(top)
  {
    NameTable(top["infobox"], "key", "value").value
  }

  /** A `rating` column exists after the infobox step: from the infobox or from the document. */
  predicate HasRating(top: map<string, Json>)
    requires InfoOk(top)
  {
    Name("rating") in Info(top) || "rating" in top
  }

  /** The rating object the rating step reads: an infobox entry named `rating` replaces the original. */
  function RatingCell(top: map<string, Json>): Cell
    requires InfoOk(top) && HasRating(top)
  {
    if Name("rating") in Info(top) then Value(Info(top)[Name("rating")]) else Value(top["rating"])
  }

  /**
    The body of the loop in `process_anime_info`, after `json.loads`. The first step that fails
    raises, in the order images, tags, infobox, rating.
   */
  function FlattenRecord(raw: Json): (r: Result<Row>)
    ensures !raw.Object? ==> r == Raise(TypeError)
    ensures raw.Object? && "images" !in raw.fields ==> r == Raise(KeyError("images"))
    ensures raw.Object? && "images" in raw.fields && !raw.fields["images"].Object? ==> r == Raise(AttributeError)
    ensures raw.Object? && ImagesOk(raw.fields) && "tags" !in raw.fields ==> r == Raise(KeyError("tags"))
    ensures raw.Object? && ImagesOk(raw.fields) && "tags" in raw.fields && NameTable(raw.fields["tags"], "name", "count").Raise? ==>
      r == Raise(NameTable(raw.fields["tags"], "name", "count").error)
    ensures raw.Object? && TagsOk(raw.fields) && "infobox" !in raw.fields ==> r == Raise(KeyError("infobox"))
    ensures raw.Object? && TagsOk(raw.fields) && "infobox" in raw.fields && NameTable(raw.fields["infobox"], "key", "value").Raise? ==>
      r == Raise(NameTable(raw.fields["infobox"], "key", "value").error)
    ensures raw.Object? && InfoOk(raw.fields) && !HasRating(raw.fields) ==> r == Raise(KeyError("rating"))
    ensures raw.Object? && InfoOk(raw.fields) && HasRating(raw.fields) && ReadRating(RatingCell(raw.fields)).Raise? ==>
      r == Raise(ReadRating(RatingCell(raw.fields)).error)
    ensures r.Ok? <==>
      raw.Object? && InfoOk(raw.fields) && HasRating(raw.fields) && RatingReadable(RatingCell(raw.fields))
    ensures r.Ok? ==> RatingColumns <= r.value.Keys && Name("rating") !in r.value && Name("tags") in r.value
  {
    if !raw.Object? then Raise(TypeError)
    else
      var withInfo :- InfoboxStage(raw.fields);
      RatingStepKeys(withInfo);
      UnpackRating(withInfo)
  }

  /** The image and tag steps on the parsed document. */
  function TagStage(top: map<string, Json>): (r: Result<Row>)
    ensures "images" !in top ==> r == Raise(KeyError("images"))
    ensures "images" in top && !top["images"].Object? ==> r == Raise(AttributeError)
    ensures ImagesOk(top) && "tags" !in top ==> r == Raise(KeyError("tags"))
    ensures ImagesOk(top) && "tags" in top && NameTable(top["tags"], "name", "count").Raise? ==>
      r == Raise(NameTable(top["tags"], "name", "count").error)
    ensures r.Ok? <==> TagsOk(top)
    ensures r.Ok? ==>
      && Name("tags") in r.value
      && r.value[Name("tags")] == Table(NameTable(top["tags"], "name", "count").value)
      && (Name("infobox") in r.value <==> "infobox" in top)
      && ("infobox" in top ==> r.value[Name("infobox")] == Value(top["infobox"]))
      && (Name("rating") in r.value <==> "rating" in top)
      && ("rating" in top ==> r.value[Name("rating")] == Value(top["rating"]))
  {
    var withCovers :- UnpackImages(top);
    ImagesStep(top);
    FieldNamesDistinct();
    UnpackTags(withCovers)
  }

  /** The image, tag and infobox steps on the parsed document. */
  function InfoboxStage(top: map<string, Json>): (r: Result<Row>)
    ensures !TagsOk(top) ==> r.Raise? && r.error == TagStage(top).error
    ensures TagsOk(top) && "infobox" !in top ==> r == Raise(KeyError("infobox"))
    ensures TagsOk(top) && "infobox" in top && NameTable(top["infobox"], "key", "value").Raise? ==>
      r == Raise(NameTable(top["infobox"], "key", "value").error)
    ensures r.Ok? <==> InfoOk(top)
    ensures r.Ok? ==>
      && Name("tags") in r.value
      && (Name("rating") in r.value <==> HasRating(top))
      && (HasRating(top) ==> r.value[Name("rating")] == RatingCell(top))
  {
    var withTags :- TagStage(top);
    FieldNamesDistinct();
    UnpackInfobox(withTags)
  }

  /** The image step leaves the fields the later steps read where they were. */
  lemma ImagesStep(top: map<string, Json>)
    requires ImagesOk(top)
    ensures var row := UnpackImages(top).value;
      && (Name("tags") in row <==> "tags" in top)
      && ("tags" in top ==> row[Name("tags")] == Value(top["tags"]))
      && (Name("infobox") in row <==> "infobox" in top)
      && ("infobox" in top ==> row[Name("infobox")] == Value(top["infobox"]))
      && (Name("rating") in row <==> "rating" in top)
      && ("rating" in top ==> row[Name("rating")] == Value(top["rating"]))
  {
    CoversAreNotFieldNames(top["images"].fields);
  }

  /** The rating step keeps `tags`, drops `rating` and writes the rating columns. */
  lemma RatingStepKeys(row: Row)
    ensures UnpackRating(row).Ok? ==>
      RatingColumns <= UnpackRating(row).value.Keys && Name("rating") !in UnpackRating(row).value
    ensures UnpackRating(row).Ok? && Name("tags") in row ==> Name("tags") in UnpackRating(row).value
  {
    FieldNamesDistinct();
  }

  /** The field and column names the steps use are pairwise different. */
  lemma FieldNamesDistinct()
    ensures Name("tags") !in RatingColumns && Name("images") !in RatingColumns
    ensures Name("infobox") !in RatingColumns && Name("rating") !in RatingColumns
    ensures "tags" != "rating" && "tags" != "infobox" && "tags" != "images"
    ensures "infobox" != "rating" && "infobox" != "images" && "images" != "rating"
  {
  }

  /** The names of the fields the steps read or write. */
  const StepNames: set<string> := {"images", "tags", "infobox", "rating", "rank", "votes", "ratings", "rating_score"}

  /** No cover column is named like one of the fields the later steps read or write. */
  lemma CoversAreNotFieldNames(images: map<string, Json>)
    ensures forall k :: k in Covers(images) ==> k.Name? && k.name !in StepNames
  {
    forall k | k in Covers(images)
      ensures k.Name? && k.name !in StepNames
    {
      CoverKeyEndsInR(k.name);
    }
  }

  lemma CoverKeyEndsInR(k: string)
    requires EndsWithCover(k)
    ensures k !in StepNames
  {
    assert k[|k| - 1] == 'r' by {
      var tail := k[|k| - |CoverSuffix|..];
      assert tail[|tail| - 1] == k[|k| - 1];
    }
    forall w | w in StepNames
      ensures w != k
    {
      assert w[|w| - 1] != 'r';
    }
  }

  /** The intermediate rows of a successful flattening. */
  lemma Stages(raw: Json) returns (withCovers: Row, withTags: Row, withInfo: Row)
    requires FlattenRecord(raw).Ok?
    ensures raw.Object? && UnpackImages(raw.fields) == Ok(withCovers)
    ensures UnpackTags(withCovers) == Ok(withTags) && UnpackInfobox(withTags) == Ok(withInfo)
    ensures FlattenRecord(raw) == UnpackRating(withInfo)
    ensures withTags[Name("tags")] == Table(NameTable(raw.fields["tags"], "name", "count").value)
    ensures withTags[Name("infobox")] == Value(raw.fields["infobox"])
  {
    var top := raw.fields;
    CoversAreNotFieldNames(top["images"].fields);
    FieldNamesDistinct();
    withCovers := UnpackImages(top).value;
    withTags := UnpackTags(withCovers).value;
    withInfo := UnpackInfobox(withTags).value;
  }

  /** A document field that no step reads, renames or overwrites. */
  predicate PlainField(k: Key, top: map<string, Json>)
  {
    k.Name? && k.name in top && k.name !in {"images", "infobox"}
  }

  /**
    The columns of a flattened record: the rating columns, and otherwise every infobox name,
    `tags`, every cover column and every original field except `images`, `infobox` and `rating`.
   */
  lemma FlattenColumns(raw: Json, k: Key)
    requires FlattenRecord(raw).Ok?
    ensures raw.Object? && InfoOk(raw.fields)
    ensures
      var top := raw.fields;
      k in FlattenRecord(raw).value
      <==> k in RatingColumns
           || (k != Name("rating") && (k in Info(top) || k == Name("tags") || IsCover(k, top["images"].fields) || PlainField(k, top)))
  {
    var top := raw.fields;
    var info := Info(top);
    var withCovers, withTags, withInfo := Stages(raw);
    CoversAreNotFieldNames(top["images"].fields);
    KeysThroughSteps(top, withCovers.Keys, withTags.Keys, withInfo.Keys, FlattenRecord(raw).value.Keys, info.Keys, k);
  }

  /** The membership reading of the key sets the four steps leave. */
  lemma KeysThroughSteps(top: map<string, Json>, covered: set<Key>, tagged: set<Key>, merged: set<Key>,
                         rated: set<Key>, info: set<Key>, k: Key)
    requires ImagesOk(top) && "tags" in top
    requires k in covered <==> IsCover(k, top["images"].fields) || (k.Name? && k.name in top && k.name != "images")
    requires IsCover(k, top["images"].fields) ==> k.name !in StepNames
    requires tagged == covered
    requires merged == (tagged - {Name("infobox")}) + info
    requires rated == (merged - {Name("rating")}) + RatingColumns
    ensures k in rated
      <==> k in RatingColumns
           || (k != Name("rating") && (k in info || k == Name("tags") || IsCover(k, top["images"].fields) || PlainField(k, top)))
  {
  }

  /**
    Which step's value each column of a flattened record holds. Later steps win: the rating
    columns over everything, then infobox entries, then the `tags` table, then cover columns,
    then the original fields.
   */
  lemma ColumnPrecedence(raw: Json, k: Key)
    requires FlattenRecord(raw).Ok?
    requires k !in RatingColumns && k != Name("rating") && k in FlattenRecord(raw).value
    ensures raw.Object? && InfoOk(raw.fields)
    ensures
      var row := FlattenRecord(raw).value;
      var top := raw.fields;
      var covers := Covers(top["images"].fields);
      var info := Info(top);
      && (k in info ==> row[k] == Value(info[k]))
      && (k !in info && k == Name("tags") ==> row[k] == Table(NameTable(top["tags"], "name", "count").value))
      && (k !in info && k != Name("tags") && k in covers ==> row[k] == covers[k])
      && (k !in info && k != Name("tags") && k !in covers ==> PlainField(k, top) && row[k] == Value(top[k.name]))
  {
    var top := raw.fields;
    var withCovers, withTags, withInfo := Stages(raw);
    FieldNamesDistinct();
    CoversAreNotFieldNames(top["images"].fields);
    FlattenColumns(raw, k);
    assert FlattenRecord(raw).value[k] == withInfo[k];
  }

  /** The rating columns come from the rating object as the infobox step left it. */
  lemma RatingColumnsFromSource(raw: Json)
    requires FlattenRecord(raw).Ok?
    ensures raw.Object? && InfoOk(raw.fields) && HasRating(raw.fields) && RatingReadable(RatingCell(raw.fields))
    ensures
      var row := FlattenRecord(raw).value;
      var c := RatingCell(raw.fields);
      var votes := Field(c, "total").value;
      var counts := Field(c, "count").value;
      && row[Name("rank")] == Value(Field(c, "rank").value)
      && row[Name("votes")] == Value(votes)
      && row[Name("ratings")] == Value(counts)
      && counts.Object? && AsReal(votes).Some? && AsReal(votes).value != 0.0
      && row[Name("rating_score")] == Value(Float(ScoreTotal(counts.fields) as real / AsReal(votes).value))
  {
    var withCovers, withTags, withInfo := Stages(raw);
    var top := raw.fields;
    CoversAreNotFieldNames(top["images"].fields);
    FieldNamesDistinct();
    assert withInfo[Name("rating")] == RatingCell(top);
  }

  /** The music crawler's variant: `pop("nsfw")` and `pop("locked")` first, then the same steps. */
  function FlattenMusicRecord(raw: Json): (r: Result<Row>)
    ensures raw.Object? && "nsfw" !in raw.fields ==> r == Raise(KeyError("nsfw"))
    ensures raw.Object? && "nsfw" in raw.fields && "locked" !in raw.fields ==> r == Raise(KeyError("locked"))
    ensures raw.Object? && "nsfw" in raw.fields && "locked" in raw.fields ==>
      r == FlattenRecord(Object(raw.fields - {"nsfw", "locked"}))
    ensures raw.Array? ==> r == Raise(TypeError)
    ensures !raw.Object? && !raw.Array? ==> r == Raise(AttributeError)
  {
    match raw
    case Object(top) =>
      if "nsfw" !in top then Raise(KeyError("nsfw"))
      else if "locked" !in top then Raise(KeyError("locked"))
      else FlattenRecord(Object(top - {"nsfw", "locked"}))
    case Array(_) => Raise(TypeError)
    case _ => Raise(AttributeError)
  }
}

=== FILE: json.dfy ===
/**
  JSON documents as `json.loads` returns them: objects are dictionaries with string keys,
  numbers are `int` or `float` (a `float` is modelled by its exact real value).
 */
module JsonValue {
  import opened Outcome
  import Order

  datatype Json =
    | Null
    | Bool(bval: bool)
    | Int(ival: int)
    | Float(fval: real)
    | Str(sval: string)
    | Array(elems: seq<Json>)
    | Object(fields: map<string, Json>)

  /**
    A key of a dictionary the program builds, up to Python's key equality: `1`, `1.0` and `True`
    are equal and hash alike, so they are one key.
   */
  datatype Key = Name(name: string) | Number(number: real) | NoneKey

  /** Python `v[key]` with a string key. */
  function Subscript(v: Json, key: string): Result<Json>
  {
    match v
    case Object(m) => if key in m then Ok(m[key]) else Raise(KeyError(key))
    case _ => Raise(TypeError)
  }

  /**
    The values a Python `for` loop visits: the items of a list, the keys of a dict, the
    one-character strings of a string; other values are not iterable.
   */
  function Elements(v: Json): (r: Result<seq<Json>>)
    ensures v.Array? ==> r == Ok(v.elems)
    ensures v.Null? || v.Bool? || v.Int? || v.Float? ==> r == Raise(TypeError)
    ensures v.Object? ==>
      && r.Ok? && |r.value| == |v.fields|
      && (forall i :: 0 <= i < |r.value| ==> r.value[i].Str? && r.value[i].sval in v.fields)
      && (forall k :: k in v.fields ==> Str(k) in r.value)
      && (forall i, j :: 0 <= i < j < |r.value| ==> r.value[i] != r.value[j])
    ensures v.Str? ==>
      && r.Ok? && |r.value| == |v.sval|
      && forall i :: 0 <= i < |v.sval| ==> r.value[i] == Str([v.sval[i]])
  {
    match v
    case Array(xs) => Ok(xs)
    case Object(m) => Ok(FieldNames(m))
    case Str(s) => Ok(Chars(s))
    case _ => Raise(TypeError)
  }

  /** Iterating over a `dict` gives its keys, each once (in the model: in ascending order). */
  function FieldNames(m: map<string, Json>): (es: seq<Json>)
    ensures |es| == |m|
    ensures forall i :: 0 <= i < |es| ==> es[i].Str? && es[i].sval in m
    ensures forall k :: k in m ==> Str(k) in es
    ensures forall i, j :: 0 <= i < j < |es| ==> es[i] != es[j]
  {
    var ks := Order.SortedKeys(m.Keys);
    var es := seq(|ks|, i requires 0 <= i < |ks| => Str(ks[i]));
    forall k | k in m
      ensures Str(k) in es
    {
      var i :| 0 <= i < |ks| && ks[i] == k;
      assert es[i] == Str(k);
    }
    es
  }

  /** Iterating over a `str` gives its characters, each as a one-character string. */
  function Chars(s: string): (es: seq<Json>)
    ensures |es| == |s|
    ensures forall i :: 0 <= i < |s| ==> es[i] == Str([s[i]])
  {
    seq(|s|, i requires 0 <= i < |s| => Str([s[i]]))
  }

  /** The integer a value stands for in Python arithmetic (`bool` is a subtype of `int`). */
  function AsInt(v: Json): Option<int>
  {
    match v
    case Int(i) => Some(i)
    case Bool(b) => Some(if b then 1 else 0)
    case _ => None
  }

  /** The number a value stands for in Python arithmetic. */
  function AsReal(v: Json): Option<real>
  {
    match v
    case Int(i) => Some(i as real)
    case Float(x) => Some(x)
    case Bool(b) => Some(if b then 1.0 else 0.0)
    case _ => None
  }

  /**
    The dictionary key a value is stored under; `None` when the value is a list or a dict,
    which Python refuses to hash.
   */
  function KeyOf(v: Json): (k: Option<Key>)
    ensures k.None? <==> v.Array? || v.Object?
    ensures v.Str? ==> k == Some(Name(v.sval))
    ensures v.Null? ==> k == Some(NoneKey)
    ensures AsReal(v).Some? ==> k == Some(Number(AsReal(v).value))
  {
    match v
    case Null => Some(NoneKey)
    case Str(s) => Some(Name(s))
    case Array(_) => None
    case Object(_) => None
    case _ => Some(Number(AsReal(v).value))
  }
}

=== FILE: music_analysis.dfy ===
/**
  The music statistics of analysis/music_analysis.py: composers split out of the 作曲 field,
  how often each composer occurs, and the labels (厂牌) with their share of the pie. The number
  of records per year is `Dates.YearCounts`.

  A row is the year of its `date`, its label and its composer field; each may be missing (NaN).
 */
module MusicAnalysis {
  import opened Outcome
  import Text
  import Sums
  import Counting
  import Dates

  datatype Row = Row(year: Option<string>, company: Option<string>, composer: Option<string>)

  /** The year of a row. */
  function YearOf(r: Row): Option<string>
  {
    r.year
  }

  const Enumeration: char := '、'
  const Bar: char := '|'

  /** `str.replace("、", "|").str.split("|")`: the composers named in one field. */
  function SplitComposers(s: string): (pieces: seq<string>)
    ensures |pieces| >= 1
    ensures forall i :: 0 <= i < |pieces| ==> Enumeration !in pieces[i] && Bar !in pieces[i]
  {
    var replaced := Text.ReplaceChar(s, Enumeration, Bar);
    Text.ReplaceCharCount(s, Enumeration, Bar);
    assert Enumeration !in replaced by {
      assert multiset(replaced)[Enumeration] == 0;
    }
    Text.SplitAvoids(replaced, Bar, Enumeration);
    Text.Split(replaced, Bar)
  }

  /** One piece per separator plus one, and joining the pieces with "|" gives the replaced field. */
  lemma SplitComposersCount(s: string)
    ensures |SplitComposers(s)| == 1 + Text.CountOf(s, Enumeration) + Text.CountOf(s, Bar)
    ensures Text.Join(SplitComposers(s), Bar) == Text.ReplaceChar(s, Enumeration, Bar)
  {
    var replaced := Text.ReplaceChar(s, Enumeration, Bar);
    Text.ReplaceCharCount(s, Enumeration, Bar);
    Text.SplitCount(replaced, Bar);
    Text.JoinSplit(replaced, Bar);
  }

  /** `explode()` over the composer lists of the rows; a missing field yields nothing. */
  function Composers(rows: seq<Row>): seq<string>
  {
    if rows == [] then []
    else
      (match rows[0].composer case Some(s) => SplitComposers(s) case None => []) + Composers(rows[1..])
  }

  /** How often `c` is named in the rows' composer fields, a field that names it twice counting twice. */
  function Mentions(rows: seq<Row>, c: string): nat
  {
    if rows == [] then 0
    else
      (match rows[0].composer case Some(s) => multiset(SplitComposers(s))[c] case None => 0) + Mentions(rows[1..], c)
  }

  lemma {:induction false} ComposersMentions(rows: seq<Row>, c: string)
    ensures multiset(Composers(rows))[c] == Mentions(rows, c)
  {
    if rows != [] {
      ComposersMentions(rows[1..], c);
    }
  }

  /**
    `count_composer_frequency()`: for each composer, the number of times the dated rows name
    it; a composer no row names is absent.
   */
  function ComposerFrequency(rows: seq<Row>): (freq: map<string, nat>)
    ensures forall c :: c in freq <==> Mentions(Dates.Dated(rows, YearOf), c) > 0
    ensures forall c :: c in freq ==> freq[c] == Mentions(Dates.Dated(rows, YearOf), c)
  {
    var names := Composers(Dates.Dated(rows, YearOf));
    var freq := Counting.Tally(names);
    forall c
      ensures multiset(names)[c] == Mentions(Dates.Dated(rows, YearOf), c)
    {
      ComposersMentions(Dates.Dated(rows, YearOf), c);
    }
    freq
  }

  /** The labels of the dated rows that have one. */
  function Companies(rows: seq<Row>): seq<string>
  {
    if rows == [] then []
    else (match rows[0].company case Some(c) => [c] case None => []) + Companies(rows[1..])
  }

  /** `count_company_music()`: the number of dated rows of each label. */
  function CompanyCounts(rows: seq<Row>): (counts: map<string, nat>)
    ensures forall c :: c in counts <==> c in Companies(Dates.Dated(rows, YearOf))
    ensures forall c :: c in counts ==> counts[c] == multiset(Companies(Dates.Dated(rows, YearOf)))[c] > 0
  {
    Counting.Tally(Companies(Dates.Dated(rows, YearOf)))
  }

  /** The label the small labels are merged into. */
  const Other := "其他"

  /** A label with at least 1% of all rows keeps its own slice. */
  predicate Kept(c: nat, total: int)
  {
    100 * c >= total
  }

  /** The labels at or above the threshold. */
  function Large(counts: map<string, nat>, total: int): (large: set<string>)
    ensures large <= counts.Keys
    ensures forall k :: k in large <==> k in counts && Kept(counts[k], total)
  {
    set k | k in counts && Kept(counts[k], total)
  }

  /** The kept labels with their counts, and "其他" with `other`. */
  function Merge(counts: map<string, nat>, large: set<string>, other: nat): (slices: map<string, nat>)
    requires large <= counts.Keys
    ensures slices.Keys == large + {Other}
    ensures slices[Other] == other
    ensures forall k :: k in large && k != Other ==> slices[k] == counts[k]
  {
    (map k | k in large :: counts[k])[Other := other]
  }

  /**
    The slices of `pie_company_music`: every label with at least 1% of the total keeps its
    count, and "其他" gets the summed count of the others (overwriting a kept label of that name).
   */
  function PieSlices(counts: map<string, nat>): (slices: map<string, nat>)
    ensures slices.Keys == Large(counts, Counting.Total(counts)) + {Other}
    ensures forall k :: k != Other && k in slices ==> slices[k] == counts[k]
    ensures slices[Other] == Sums.SetSum(counts.Keys - Large(counts, Counting.Total(counts)), Counting.CountFn(counts))
  {
    var f := Counting.CountFn(counts);
    var large := Large(counts, Counting.SetTotal(counts.Keys, f));
    Sums.SetSumNonNegative(counts.Keys - large, f);
    Merge(counts, large, Counting.SetTotal(counts.Keys - large, f))
  }

  /** Kept labels with their own counts plus one slice holding the rest add up to the total. */
  lemma MergedTotal(counts: map<string, nat>, large: set<string>, slices: map<string, nat>)
    requires large <= counts.Keys && Other !in large
    requires slices.Keys == large + {Other}
    requires forall k :: k in large ==> slices[k] == counts[k]
    requires slices[Other] == Sums.SetSum(counts.Keys - large, Counting.CountFn(counts))
    ensures Counting.Total(slices) == Counting.Total(counts)
  {
    var f := Counting.CountFn(counts);
    var g := Counting.CountFn(slices);
    Sums.SetSumSplit(counts.Keys, large, f);
    Sums.SetSumRemove(slices.Keys, g, Other);
    assert slices.Keys - {Other} == large;
    Sums.SetSumCongruent(large, g, f);
  }

  /** The slices add up to the total, unless a label literally named "其他" kept its own slice. */
  lemma PieSlicesTotal(counts: map<string, nat>)
    requires Other !in Large(counts, Counting.Total(counts))
    ensures Counting.Total(PieSlices(counts)) == Counting.Total(counts)
  {
    MergedTotal(counts, Large(counts, Counting.Total(counts)), PieSlices(counts));
  }
}

=== FILE: music_crawler.dfy ===
/**
  The older music detail crawler (crawler/music_crawler.py): codes are fetched one at a time,
  the loop stops at the first code whose fetch gives nothing, every record loses its `nsfw` and
  `locked` fields before the same flattening as the anime crawler, and the table is saved once,
  after the loop.

  `fetchOne(url)` is what fetching one URL returns: `None` when the fetcher gave up, otherwise
  the body (possibly empty).
 */
module MusicCrawler {
  import opened Outcome
  import opened JsonValue
  import Flatten
  import AnimeCrawler
  import BaseCrawler

  /** One row from one non-empty body: `json.loads`, the two pops, the flattening. */
  function MusicRecord(body: string, parse: string -> Option<Json>): (r: Result<Flatten.Row>)
    ensures parse(body).None? ==> r == Raise(JsonDecodeError)
    ensures parse(body).Some? ==> r == Flatten.FlattenMusicRecord(parse(body).value)
  {
    match parse(body)
    case None => Raise(JsonDecodeError)
    case Some(doc) => Flatten.FlattenMusicRecord(doc)
  }

  /** How the per-code loop ended: the URLs it requested and the rows it built, or the exception. */
  datatype LoopEnd<R> = LoopEnd(requested: seq<string>, rows: Result<seq<R>>)

  /**
    How a loop over `urls` may end: it requested a prefix of the URLs; a row was built from each
    fetched body in order; a normal end before the last URL came right after a fetch that gave
    nothing; an exception came from the record of the last URL requested, all of whose fetches
    gave something.
   */
  ghost predicate Ended<R>(urls: seq<string>, fetchOne: string -> Option<string>, record: string -> Result<R>, e: LoopEnd<R>)
  {
    && |e.requested| <= |urls| && e.requested == urls[..|e.requested|]
    && (e.rows.Ok? ==>
          && |e.rows.value| <= |e.requested|
          && (forall k :: 0 <= k < |e.rows.value| ==>
                BaseCrawler.Truthy(fetchOne(urls[k])) && record(fetchOne(urls[k]).value) == Ok(e.rows.value[k]))
          && (|e.rows.value| < |urls| ==>
                |e.requested| == |e.rows.value| + 1 && !BaseCrawler.Truthy(fetchOne(urls[|e.rows.value|])))
          && (|e.rows.value| == |urls| ==> |e.requested| == |urls|))
    && (e.rows.Raise? ==>
          && 0 < |e.requested|
          && (forall k :: 0 <= k < |e.requested| ==> BaseCrawler.Truthy(fetchOne(urls[k])))
          && record(fetchOne(urls[|e.requested| - 1]).value) == Raise(e.rows.error))
  }

  /**
    The loop over `urls`, in order, with `record` turning one non-empty body into a row: it
    requests a prefix of the URLs and stops after the first one whose fetch gives nothing.
   */
  function UrlLoop<R>(urls: seq<string>, fetchOne: string -> Option<string>, record: string -> Result<R>): (e: LoopEnd<R>)
    ensures Ended(urls, fetchOne, record, e)
  {
    if urls == [] then LoopEnd([], Ok([]))
    else
      var body := fetchOne(urls[0]);
      if !BaseCrawler.Truthy(body) then LoopEnd([urls[0]], Ok([]))
      else
        match record(body.value)
        case Raise(err) => LoopEnd([urls[0]], Raise(err))
        case Ok(row) =>
          var rest := UrlLoop(urls[1..], fetchOne, record);
          LoopStep(urls[0], urls[1..], fetchOne, record, row, rest);
          assert urls == [urls[0]] + urls[1..];
          Prepend(urls[0], row, rest)
  }

  /** A row built from the first URL's body, followed by how the loop over the others ended. */
  function Prepend<R>(u: string, row: R, rest: LoopEnd<R>): LoopEnd<R>
  {
    match rest.rows
    case Raise(err) => LoopEnd([u] + rest.requested, Raise(err))
    case Ok(rows) => LoopEnd([u] + rest.requested, Ok([row] + rows))
  }

  /** A good first URL in front of a loop that ended properly is a loop that ended properly. */
  lemma LoopStep<R>(u: string, tail: seq<string>, fetchOne: string -> Option<string>, record: string -> Result<R>,
                    row: R, rest: LoopEnd<R>)
    requires BaseCrawler.Truthy(fetchOne(u)) && record(fetchOne(u).value) == Ok(row)
    requires Ended(tail, fetchOne, record, rest)
    ensures Ended([u] + tail, fetchOne, record, Prepend(u, row, rest))
  {
    var urls, e := [u] + tail, Prepend(u, row, rest);
    assert e.requested == urls[..|e.requested|] by {
      assert rest.requested == tail[..|rest.requested|];
    }
    forall k | 0 < k < |urls|
      ensures urls[k] == tail[k - 1]
    {
    }
    if e.rows.Ok? {
      var rows := e.rows.value;
      forall k | 0 <= k < |rows|
        ensures BaseCrawler.Truthy(fetchOne(urls[k])) && record(fetchOne(urls[k]).value) == Ok(rows[k])
      {
        if k > 0 {
          assert rows[k] == rest.rows.value[k - 1];
        }
      }
    }
  }

  /** What `get_music_info` leaves behind: the requested URLs, the saved tables, and its result. */
  datatype MusicRun = MusicRun(requested: seq<string>, saves: seq<seq<Flatten.Row>>, outcome: Result<seq<Flatten.Row>>)

  /**
    `get_music_info(subject_codes)`: the table is saved exactly once, after the loop, also when
    the loop stopped early, and holds the returned rows; an exception in the loop means no save.
   */
  function GetMusicInfo(codes: seq<string>, fetchOne: string -> Option<string>, parse: string -> Option<Json>): (r: MusicRun)
    ensures var e := UrlLoop(AnimeCrawler.BatchUrls(codes), fetchOne, body => MusicRecord(body, parse));
      && r.requested == e.requested
      && r.outcome == e.rows
      && r.saves == if e.rows.Ok? then [e.rows.value] else []
  {
    var e := UrlLoop(AnimeCrawler.BatchUrls(codes), fetchOne, body => MusicRecord(body, parse));
    match e.rows
    case Raise(err) => MusicRun(e.requested, [], Raise(err))
    case Ok(rows) => MusicRun(e.requested, [rows], Ok(rows))
  }

  /**
    The rows of a finished crawl are the records of a prefix of the codes, one per code, in
    order; nothing past the first code whose fetch gives nothing is requested.
   */
  lemma MusicRowsArePrefix(codes: seq<string>, fetchOne: string -> Option<string>, parse: string -> Option<Json>)
    requires GetMusicInfo(codes, fetchOne, parse).outcome.Ok?
    ensures var r := GetMusicInfo(codes, fetchOne, parse);
      && |r.outcome.value| <= |codes|
      && (forall k :: 0 <= k < |r.outcome.value| ==>
            && BaseCrawler.Truthy(fetchOne(AnimeCrawler.SubjectUrl(codes[k])))
            && MusicRecord(fetchOne(AnimeCrawler.SubjectUrl(codes[k])).value, parse) == Ok(r.outcome.value[k]))
      && (|r.outcome.value| < |codes| ==> !BaseCrawler.Truthy(fetchOne(AnimeCrawler.SubjectUrl(codes[|r.outcome.value|]))))
      && r.saves == [r.outcome.value]
  {
  }

  /** A code whose fetch gives nothing ends the crawl: no later code is requested. */
  lemma StopsAtFirstEmpty(codes: seq<string>, fetchOne: string -> Option<string>, parse: string -> Option<Json>, i: nat)
    requires i < |codes| && !BaseCrawler.Truthy(fetchOne(AnimeCrawler.SubjectUrl(codes[i])))
    ensures |GetMusicInfo(codes, fetchOne, parse).requested| <= i + 1
    ensures GetMusicInfo(codes, fetchOne, parse).outcome.Ok? ==> |GetMusicInfo(codes, fetchOne, parse).outcome.value| <= i
  {
  }
}

=== FILE: numerals.dfy ===
/**
  Decimal numerals as Python writes and reads them: `str(i)` / f-string formatting of an
  `int`, and `int(s)` on a string.
 */
module Numerals {
  import opened Outcome

  predicate IsDigit(c: char)
  {
    '0' <= c <= '9'
  }

  function DigitChar(d: nat): (c: char)
    requires d < 10
    ensures IsDigit(c) && c as int - '0' as int == d
  {
    ('0' as int + d) as char
  }

  /** The decimal digits of `n`, without leading zeros ("0" for zero). */
  function Digits(n: nat): (s: string)
    ensures |s| >= 1
    ensures forall i :: 0 <= i < |s| ==> IsDigit(s[i])
  {
    if n < 10 then [DigitChar(n)] else Digits(n / 10) + [DigitChar(n % 10)]
  }

  /** Python `str(i)` for an `int`. */
  function IntToString(i: int): string
  {
    if i < 0 then "-" + Digits(-i) else Digits(i)
  }

  /**
    The whitespace `int()` strips from both ends. Below code point 127 only tab, line feed,
    vertical tab, form feed, carriage return and space count, so the information separators
    U+001C to U+001F are kept (and rejected), although `str.isspace` accepts them. Above 126 it is
    the whitespace of Python's Unicode database.
   */
  predicate IsSpace(c: char)
  {
    || ('\t' <= c <= '\r') || c == ' '
    || c == '\U{0085}' || c == '\U{00A0}' || c == '\U{1680}'
    || ('\U{2000}' <= c <= '\U{200A}') || c == '\U{2028}' || c == '\U{2029}'
    || c == '\U{202F}' || c == '\U{205F}' || c == '\U{3000}'
  }

  /**
    `z` is the code point of the digit zero of a script with decimal digits (general category Nd
    of Unicode 15.0, the database of Python 3.12); the digits one to nine follow it.
   */
  predicate IsZero(z: int)
  {
    || z == 0x0030 || z == 0x0660 || z == 0x06F0 || z == 0x07C0 || z == 0x0966 || z == 0x09E6 || z == 0x0A66
    || z == 0x0AE6 || z == 0x0B66 || z == 0x0BE6 || z == 0x0C66 || z == 0x0CE6 || z == 0x0D66 || z == 0x0DE6
    || z == 0x0E50 || z == 0x0ED0 || z == 0x0F20 || z == 0x1040 || z == 0x1090 || z == 0x17E0 || z == 0x1810
    || z == 0x1946 || z == 0x19D0 || z == 0x1A80 || z == 0x1A90 || z == 0x1B50 || z == 0x1BB0 || z == 0x1C40
    || z == 0x1C50 || z == 0xA620 || z == 0xA8D0 || z == 0xA900 || z == 0xA9D0 || z == 0xA9F0 || z == 0xAA50
    || z == 0xABF0 || z == 0xFF10 || z == 0x104A0 || z == 0x10D30 || z == 0x11066 || z == 0x110F0 || z == 0x11136
    || z == 0x111D0 || z == 0x112F0 || z == 0x11450 || z == 0x114D0 || z == 0x11650 || z == 0x116C0 || z == 0x11730
    || z == 0x118E0 || z == 0x11950 || z == 0x11C50 || z == 0x11D50 || z == 0x11DA0 || z == 0x11F50 || z == 0x16A60
    || z == 0x16AC0 || z == 0x16B50 || z == 0x1D7CE || z == 0x1D7D8 || z == 0x1D7E2 || z == 0x1D7EC || z == 0x1D7F6
    || z == 0x1E140 || z == 0x1E2F0 || z == 0x1E4F0 || z == 0x1E950 || z == 0x1FBF0
  }

  /** No code point from `x - 9` up to `x - d` is the zero of a run of digits. */
  predicate NoZeroFrom(x: int, d: nat)
    decreases 10 - d
  {
    d >= 10 || (!IsZero(x - d) && NoZeroFrom(x, d + 1))
  }

  /** The value of code point `x` as a digit, trying the values from `d` up to nine. */
  function DigitFrom(x: int, d: nat): (r: Option<nat>)
    requires d <= 10
    ensures r.Some? ==> d <= r.value < 10 && IsZero(x - r.value)
    ensures r.None? ==> NoZeroFrom(x, d)
    decreases 10 - d
  {
    if d == 10 then None
    else if IsZero(x - d) then Some(d)
    else DigitFrom(x, d + 1)
  }

  lemma {:induction false} NoZeroRange(x: int, d: nat)
    requires d <= 10 && NoZeroFrom(x, d)
    ensures forall z :: x - 10 < z <= x - d ==> !IsZero(z)
    decreases 10 - d
  {
    if d < 10 {
      NoZeroRange(x, d + 1);
      forall z | x - 10 < z <= x - d
        ensures !IsZero(z)
      {
        if z != x - d {
          assert x - 10 < z <= x - (d + 1);
        }
      }
    }
  }

  /** The value `int()` gives the decimal digit `c` of any script; `None` for other characters. */
  function DecimalValue(c: char): (r: Option<nat>)
    ensures r.Some? ==> r.value < 10 && IsZero(c as int - r.value)
    ensures r.None? ==> forall z :: c as int - 10 < z <= c as int ==> !IsZero(z)
  {
    var r := DigitFrom(c as int, 0);
    if r.None? then NoZeroRange(c as int, 0); r else r
  }

  predicate IsDecimal(c: char)
  {
    DecimalValue(c).Some?
  }

  /** An ASCII digit reads as itself. */
  lemma AsciiDecimal(c: char)
    requires IsDigit(c)
    ensures DecimalValue(c) == Some(c as int - '0' as int)
  {
  }

  function StripStart(s: string): string
  {
    if |s| > 0 && IsSpace(s[0]) then StripStart(s[1..]) else s
  }

  function StripEnd(s: string): string
  {
    if |s| > 0 && IsSpace(s[|s| - 1]) then StripEnd(s[..|s| - 1]) else s
  }

  /** The digits of an integer literal: digit groups separated by single underscores. */
  predicate IntegerBody(s: string)
  {
    && |s| > 0
    && IsDecimal(s[0])
    && IsDecimal(s[|s| - 1])
    && (forall i :: 0 <= i < |s| ==> IsDecimal(s[i]) || s[i] == '_')
    && (forall i :: 0 <= i < |s| - 1 && s[i] == '_' ==> s[i + 1] != '_')
  }

  /** The value of a string of digits and underscores; underscores are skipped. */
  function BodyValue(s: string): nat
    requires forall i :: 0 <= i < |s| ==> IsDecimal(s[i]) || s[i] == '_'
  {
    if s == [] then 0
    else
      var last := s[|s| - 1];
      assert IsDecimal(last) || last == '_';
      var front := BodyValue(s[..|s| - 1]);
      if last == '_' then front else front * 10 + DecimalValue(last).value
  }

  /**
    The default of `sys.int_max_str_digits` in Python 3.12: `int()` refuses a decimal numeral with
    more digits, and `str()` an integer with more digits.
   */
  const MaxStrDigits: nat := 4300

  /** The number of digits of a numeral body; underscores do not count. */
  function DigitCount(s: string): (n: nat)
    ensures n <= |s|
  {
    if s == [] then 0 else (if s[0] == '_' then 0 else 1) + DigitCount(s[1..])
  }

  /** The value of a numeral body, or ValueError when it is malformed or has too many digits. */
  function ReadBody(b: string): (r: Result<nat>)
    ensures r.Ok? <==> IntegerBody(b) && DigitCount(b) <= MaxStrDigits
    ensures r.Ok? ==> r.value == BodyValue(b)
    ensures r.Raise? ==> r.error == ValueError
  {
    if IntegerBody(b) && DigitCount(b) <= MaxStrDigits then Ok(BodyValue(b)) else Raise(ValueError)
  }

  /**
    Python `int(s)` on a string: optional surrounding whitespace, an optional ASCII sign, then
    decimal digits of any script, which may be mixed, in groups joined by single underscores,
    and at most `MaxStrDigits` digits.
   */
  function ParseInt(s: string): Result<int>
  {
    var t := StripEnd(StripStart(s));
    if |t| > 0 && (t[0] == '-' || t[0] == '+') then
      var v :- ReadBody(t[1..]);
      Ok(if t[0] == '-' then -(v as int) else v)
    else
      var v :- ReadBody(t);
      Ok(v)
  }

  lemma {:induction false} DigitsValue(n: nat)
    ensures forall i :: 0 <= i < |Digits(n)| ==> IsDecimal(Digits(n)[i])
    ensures BodyValue(Digits(n)) == n
  {
    var s := Digits(n);
    forall i | 0 <= i < |s|
      ensures IsDecimal(s[i])
    {
      AsciiDecimal(s[i]);
    }
    if n >= 10 {
      DigitsValue(n / 10);
      assert s[..|s| - 1] == Digits(n / 10);
      AsciiDecimal(s[|s| - 1]);
    } else {
      AsciiDecimal(s[0]);
    }
  }

  /** A string that neither starts nor ends with whitespace is not stripped. */
  lemma NoStrip(s: string)
    requires |s| > 0 && !IsSpace(s[0]) && !IsSpace(s[|s| - 1])
    ensures StripEnd(StripStart(s)) == s
  {
  }

  /** Digits without surrounding whitespace or a sign read as their value. */
  lemma ParseUnsigned(t: string)
    requires IntegerBody(t) && DigitCount(t) <= MaxStrDigits
    ensures ParseInt(t) == Ok(BodyValue(t))
  {
    DecimalIsNotSpace(t[0]);
    DecimalIsNotSpace(t[|t| - 1]);
    NoStrip(t);
  }

  /** A minus sign in front of digits negates their value. */
  lemma ParseNegative(s: string)
    requires |s| > 1 && s[0] == '-' && IntegerBody(s[1..]) && DigitCount(s[1..]) <= MaxStrDigits
    ensures ParseInt(s) == Ok(-(BodyValue(s[1..]) as int))
  {
    var t := s[1..];
    assert t[|t| - 1] == s[|s| - 1];
    DecimalIsNotSpace(t[|t| - 1]);
    NoStrip(s);
  }

  /** Without underscores every character of a body is a digit. */
  lemma DigitCountNoUnderscore(s: string)
    requires forall k :: 0 <= k < |s| ==> s[k] != '_'
    ensures DigitCount(s) == |s|
  {
  }

  /**
    Reading back what `str` wrote gives the same integer, for every integer `str` can write
    (at most `MaxStrDigits` digits).
   */
  lemma ParseIntToString(i: int)
    requires |Digits(if i < 0 then -i else i)| <= MaxStrDigits
    ensures ParseInt(IntToString(i)) == Ok(i)
  {
    var m: nat := if i < 0 then -i else i;
    DigitsValue(m);
    DigitCountNoUnderscore(Digits(m));
    assert IntegerBody(Digits(m));
    if i < 0 {
      var s := IntToString(i);
      assert s[1..] == Digits(m);
      ParseNegative(s);
    } else {
      ParseUnsigned(Digits(m));
    }
  }

  /** Different integers are written differently. */
  lemma IntToStringInjective(a: int, b: int)
    requires IntToString(a) == IntToString(b)
    ensures a == b
  {
    var ma: nat := if a < 0 then -a else a;
    var mb: nat := if b < 0 then -b else b;
    DigitsValue(ma);
    DigitsValue(mb);
    var s := IntToString(a);
    assert (a < 0) == (s[0] == '-') by {
      if a >= 0 {
        assert IsDigit(Digits(ma)[0]);
      }
    }
    assert (b < 0) == (s[0] == '-') by {
      if b >= 0 {
        assert IsDigit(Digits(mb)[0]);
      }
    }
    if a < 0 {
      assert Digits(ma) == s[1..] == Digits(mb);
    }
  }

  /** `int()` refuses a numeral of more than `MaxStrDigits` digits with ValueError. */
  lemma TooManyDigitsRaises(s: string)
    requires IntegerBody(s) && DigitCount(s) > MaxStrDigits
    ensures ParseInt(s) == Raise(ValueError)
  {
    DecimalIsNotSpace(s[0]);
    DecimalIsNotSpace(s[|s| - 1]);
    NoStrip(s);
  }

  /** No decimal digit is whitespace or a sign. */
  lemma DecimalIsNotSpace(c: char)
    requires IsDecimal(c)
    ensures !IsSpace(c) && c != '-' && c != '+' && c != '_'
  {
  }

  /** Stripping the end keeps a prefix of the string. */
  lemma StripEndPrefix(s: string)
    ensures |StripEnd(s)| <= |s| && StripEnd(s) == s[..|StripEnd(s)|]
  {
  }

  /** A string that starts with an information separator (U+001C to U+001F) is not an integer. */
  lemma SeparatorFirstRaises(s: string)
    requires |s| > 0 && '\U{001C}' <= s[0] <= '\U{001F}'
    ensures ParseInt(s).Raise?
  {
    assert StripStart(s) == s;
    StripEndPrefix(s);
    var t := StripEnd(s);
    if |t| > 0 {
      assert t[0] == s[0];
      assert !IsDecimal(t[0]);
    }
  }

  /** A single decimal digit of any script reads as its value. */
  lemma ParseOneDigit(c: char)
    requires IsDecimal(c)
    ensures ParseInt([c]) == Ok(DecimalValue(c).value)
  {
    var t := [c];
    assert t[..|t| - 1] == [];
    assert BodyValue(t) == DecimalValue(c).value;
    assert IntegerBody(t);
    assert DigitCount(t) == 1;
    ParseUnsigned(t);
  }
}

=== FILE: order.dfy ===
/**
  Python's ordering of `str` values (code point by code point, a proper prefix first) and the
  ascending listing of a finite set of strings. The listing gives a deterministic traversal of
  a dictionary's keys wherever the crawler iterates over one.
 */
module Order {

  /** `a <= b` on Python strings. */
  predicate Le(a: string, b: string)
    decreases |a|
  {
    |a| == 0 || (|b| > 0 && (a[0] < b[0] || (a[0] == b[0] && Le(a[1..], b[1..]))))
  }

  lemma {:induction false} LeReflexive(a: string)
    ensures Le(a, a)
    decreases |a|
  {
    if |a| > 0 {
      LeReflexive(a[1..]);
    }
  }

  lemma {:induction false} LeAntisymmetric(a: string, b: string)
    requires Le(a, b) && Le(b, a)
    ensures a == b
    decreases |a|
  {
    if |a| > 0 {
      LeAntisymmetric(a[1..], b[1..]);
      assert a == [a[0]] + a[1..];
      assert b == [b[0]] + b[1..];
    }
  }

  lemma {:induction false} LeTransitive(a: string, b: string, c: string)
    requires Le(a, b) && Le(b, c)
    ensures Le(a, c)
    decreases |a|
  {
    if |a| > 0 && a[0] == b[0] && b[0] == c[0] {
      LeTransitive(a[1..], b[1..], c[1..]);
    }
  }

  lemma {:induction false} LeTotal(a: string, b: string)
    ensures Le(a, b) || Le(b, a)
    decreases |a|
  {
    if |a| > 0 && |b| > 0 && a[0] == b[0] {
      LeTotal(a[1..], b[1..]);
    }
  }

  /** `m` is an element of `s` no larger than any other. */
  predicate IsLeast(m: string, s: set<string>)
  {
    m in s && forall x :: x in s ==> Le(m, x)
  }

  /** Adding `y` to a set keeps its least element or makes `y` the least one. */
  lemma LeastOfAdded(m: string, rest: set<string>, y: string)
    requires IsLeast(m, rest)
    ensures IsLeast(m, rest + {y}) || IsLeast(y, rest + {y})
  {
    LeTotal(m, y);
    if !Le(m, y) {
      forall x | x in rest + {y}
        ensures Le(y, x)
      {
        if x == y {
          LeReflexive(y);
        } else {
          LeTransitive(y, m, x);
        }
      }
    }
  }

  /** Every non-empty finite set of strings has a least element. */
  lemma {:induction false} LeastExists(s: set<string>)
    requires s != {}
    ensures exists m :: IsLeast(m, s)
    decreases |s|
  {
    var y :| y in s;
    if s == {y} {
      LeReflexive(y);
      assert IsLeast(y, s);
    } else {
      var rest := s - {y};
      LeastExists(rest);
      var m :| IsLeast(m, rest);
      LeastOfAdded(m, rest, y);
      assert rest + {y} == s;
    }
  }

  /** The least string of a non-empty set. */
  function Least(s: set<string>): (m: string)
    requires s != {}
    ensures m in s
    ensures forall x :: x in s ==> Le(m, x)
  {
    LeastExists(s);
    assert forall a, b :: a in s && b in s && Le(a, b) && Le(b, a) ==> a == b by {
      forall a, b | a in s && b in s && Le(a, b) && Le(b, a)
        ensures a == b
      {
        LeAntisymmetric(a, b);
      }
    }
    var m :| IsLeast(m, s);
    m
  }

  /** True when `ks` is strictly ascending. */
  predicate Ascending(ks: seq<string>)
  {
    forall i, j :: 0 <= i < j < |ks| ==> Le(ks[i], ks[j]) && ks[i] != ks[j]
  }

  /** The elements of `s`, each once, in ascending order. */
  function SortedKeys(s: set<string>): (ks: seq<string>)
    ensures |ks| == |s|
    ensures forall k :: k in ks <==> k in s
    ensures Ascending(ks)
    decreases |s|
  {
    if s == {} then []
    else
      var m := Least(s);
      var rest := SortedKeys(s - {m});
      ListingStep(s, m, rest);
      [m] + rest
  }

  /** The least element in front of a listing of the others is a listing of the whole set. */
  lemma ListingStep(s: set<string>, m: string, rest: seq<string>)
    requires IsLeast(m, s)
    requires |rest| == |s - {m}| && (forall k :: k in rest <==> k in s - {m}) && Ascending(rest)
    ensures |[m] + rest| == |s| && (forall k :: k in [m] + rest <==> k in s) && Ascending([m] + rest)
  {
    var ks := [m] + rest;
    forall i, j | 0 <= i < j < |ks|
      ensures Le(ks[i], ks[j]) && ks[i] != ks[j]
    {
      if i > 0 {
        assert ks[i] == rest[i - 1] && ks[j] == rest[j - 1];
      } else {
        assert ks[j] == rest[j - 1] && ks[j] in s - {m};
      }
    }
  }

  /** Each element of the set occurs exactly once in its listing. */
  lemma {:induction false} SortedKeysOnce(s: set<string>, x: string)
    ensures multiset(SortedKeys(s))[x] == if x in s then 1 else 0
    decreases |s|
  {
    if s != {} {
      var m := Least(s);
      SortedKeysOnce(s - {m}, x);
      assert SortedKeys(s) == [m] + SortedKeys(s - {m});
    }
  }
}

=== FILE: outcome.dfy ===
/**
  The failure vocabulary of the crawler: Python exceptions that the modelled code can raise.
  Nothing in the crawler catches any of them except the retry loop of the fetcher, so every
  one of them ends the operation that raised it.
 */
module Outcome {

  datatype Option<+T> = None | Some(value: T) {
    predicate IsFailure() { None? }

    function PropagateFailure<U>(): Option<U>
      requires None?
    {
      None
    }

    function Extract(): T
      requires Some?
    {
      value
    }
  }

  /** The Python exceptions the modelled code can raise. */
  datatype PyError =
    | KeyError(key: string)      // `d[key]` or `d.pop(key)` on a dict without that key
    | TypeError                  // wrong operand type, subscript of a non-dict, `json.loads(None)`
    | AttributeError             // `.items()` on something that is not a dict
    | ValueError                 // `int(s)` on a string that is not an integer literal
    | ZeroDivisionError          // `x / 0`
    | JsonDecodeError            // `json.loads` on text that is not JSON
    | StopIteration              // `next(reader)` on an empty file
    | IndexError                 // `row[0]` on an empty row
    | AssertionError             // a failed `assert`
    | HttpError(status: int)     // `raise_for_status()` on an error response, re-raised by the fetcher

  /** Either a value or the exception that was raised instead. */
  datatype Result<+T> = Ok(value: T) | Raise(error: PyError) {
    predicate IsFailure() { Raise? }

    function PropagateFailure<U>(): Result<U>
      requires Raise?
    {
      Raise(error)
    }

    function Extract(): T
      requires Ok?
    {
      value
    }
  }
}

=== FILE: permutation.dfy ===
/**
  Reorderings of a sequence, stated through multisets: the completion order of concurrent work
  is some reordering of the order it was submitted in.
 */
module Permutation {

  /** `0, 1, ..., n - 1` */
  function Range(n: nat): (r: seq<nat>)
    ensures |r| == n && forall i :: 0 <= i < n ==> r[i] == i
  {
    seq(n, i requires 0 <= i < n => i)
  }

  /** `order` lists every index below `n` exactly once. */
  predicate IsOrder(order: seq<nat>, n: nat)
  {
    |order| == n && multiset(order) == multiset(Range(n))
  }

  /** An order has one entry per index, and every entry is an index. */
  lemma OrderBounds(order: seq<nat>, n: nat)
    requires IsOrder(order, n)
    ensures |order| == n
    ensures forall k :: 0 <= k < |order| ==> order[k] < n
    ensures forall i :: 0 <= i < n ==> i in order
  {
    assert |multiset(order)| == |order|;
    assert |multiset(Range(n))| == n;
    forall k | 0 <= k < |order|
      ensures order[k] < n
    {
      assert order[k] in multiset(Range(n));
    }
    forall i | 0 <= i < n
      ensures i in order
    {
      assert Range(n)[i] == i;
      assert i in multiset(order);
    }
  }

  /** `f` applied to every element of `xs`, in order. */
  function Apply<X, Y>(f: X -> Y, xs: seq<X>): (ys: seq<Y>)
    ensures |ys| == |xs| && forall i :: 0 <= i < |xs| ==> ys[i] == f(xs[i])
  {
    seq(|xs|, i requires 0 <= i < |xs| => f(xs[i]))
  }

  lemma ApplyConcat<X, Y>(f: X -> Y, a: seq<X>, b: seq<X>)
    ensures Apply(f, a + b) == Apply(f, a) + Apply(f, b)
  {
  }

  /** The outputs for `0, ..., n` are those for `0, ..., n - 1` followed by the output for `n`. */
  lemma ApplyRangeSnoc<Y>(f: nat -> Y, n: nat)
    ensures Apply(f, Range(n + 1)) == Apply(f, Range(n)) + [f(n)]
  {
  }

  /** Taking out the element at `j` takes one copy of it out of the multiset. */
  lemma RemoveAt<X>(ys: seq<X>, j: nat)
    requires j < |ys|
    ensures multiset(ys[..j] + ys[j + 1..]) == multiset(ys) - multiset{ys[j]}
    ensures multiset(ys) == multiset(ys[..j] + ys[j + 1..]) + multiset{ys[j]}
  {
    assert ys == ys[..j] + [ys[j]] + ys[j + 1..];
  }

  /** The outputs for `ys` are the outputs for `ys` without its element `j`, plus that element's. */
  lemma ApplyRemoveAt<X, Y>(f: X -> Y, ys: seq<X>, j: nat)
    requires j < |ys|
    ensures multiset(Apply(f, ys)) == multiset(Apply(f, ys[..j] + ys[j + 1..])) + multiset{f(ys[j])}
  {
    var a, b := ys[..j], ys[j + 1..];
    assert ys == a + [ys[j]] + b;
    ApplyConcat(f, a + [ys[j]], b);
    ApplyConcat(f, a, [ys[j]]);
    ApplyConcat(f, a, b);
  }

  /** The outputs for a non-empty sequence are the output of its head plus those of its tail. */
  lemma ApplyCons<X, Y>(f: X -> Y, xs: seq<X>)
    requires xs != []
    ensures multiset(Apply(f, xs)) == multiset{f(xs[0])} + multiset(Apply(f, xs[1..]))
  {
    assert Apply(f, xs) == [f(xs[0])] + Apply(f, xs[1..]);
  }

  /** A rearrangement has the head of the original somewhere; without it, the rests still match. */
  lemma MatchHead<X>(xs: seq<X>, ys: seq<X>) returns (j: nat)
    requires xs != [] && multiset(xs) == multiset(ys)
    ensures j < |ys| && ys[j] == xs[0]
    ensures multiset(xs[1..]) == multiset(ys[..j] + ys[j + 1..])
  {
    var h, t := xs[0], xs[1..];
    assert xs == [h] + t;
    assert multiset(xs) == multiset{h} + multiset(t);
    assert h in multiset(ys);
    j :| 0 <= j < |ys| && ys[j] == h;
    RemoveAt(ys, j);
  }

  /** Rearranging the inputs rearranges the outputs the same way. */
  lemma {:induction false} ApplyMultiset<X, Y>(f: X -> Y, xs: seq<X>, ys: seq<X>)
    requires multiset(xs) == multiset(ys)
    ensures multiset(Apply(f, xs)) == multiset(Apply(f, ys))
    decreases |xs|
  {
    if xs != [] {
      var j := MatchHead(xs, ys);
      ApplyMultiset(f, xs[1..], ys[..j] + ys[j + 1..]);
      ApplyRemoveAt(f, ys, j);
      ApplyCons(f, xs);
    }
  }

  /** Visiting indices in any order yields the values in index order, rearranged. */
  lemma OrderedValues<Y>(f: nat -> Y, order: seq<nat>, n: nat)
    requires IsOrder(order, n)
    ensures multiset(Apply(f, order)) == multiset(Apply(f, Range(n)))
  {
    ApplyMultiset(f, order, Range(n));
  }
}

=== FILE: rank_crawler.dfy ===
/**
  The ranking-page scanner (crawler/rank_crawler.py): for one subject kind it walks the
  browser pages sorted by rank, page 1 upwards, stops at the first page whose fetch gives
  nothing, keeps the last path segment of every subject link as a subject code, and saves the
  codes as a one-column table.

  `fetchOne(url)` is what fetching one page returns (`None` when the fetcher gave up), and
  `hrefsOf(html)` is the list of `href` attributes the `.subjectCover` selector finds in a page.
 */
module RankCrawler {
  import opened Outcome
  import Text
  import Numerals
  import Order
  import BaseCrawler

  /** The kinds of subject the site ranks. */
  const Kinds: seq<string> := ["anime", "book", "music", "game", "real"]

  const SiteRoot := "https://bgm.tv/"
  const RankPath := "/browser?sort=rank"
  const PageQuery := "&page="
  const CodesHeader := "subject_code"

  datatype Crawler = Crawler(kind: string, maxPage: int, url: string)

  /** The first page of the ranking of one kind. */
  function RankUrl(kind: string): string
  {
    SiteRoot + kind + RankPath
  }

  /**
    `RankCrawler(type, max_page)`: the kind is checked before anything else happens, and a kind
    outside the five the site ranks fails the `assert`.
   */
  function NewCrawler(kind: string, maxPage: int): (r: Result<Crawler>)
    ensures r.Ok? <==> kind in Kinds
    ensures r.Raise? ==> r.error == AssertionError
    ensures r.Ok? ==> r.value == Crawler(kind, maxPage, RankUrl(kind))
  {
    if kind in Kinds then Ok(Crawler(kind, maxPage, RankUrl(kind))) else Raise(AssertionError)
  }

  /** Different kinds have different ranking URLs. */
  lemma RankUrlInjective(a: string, b: string)
    requires RankUrl(a) == RankUrl(b)
    ensures a == b
  {
    var n := |SiteRoot|;
    assert a == RankUrl(a)[n..|RankUrl(a)| - |RankPath|];
    assert b == RankUrl(b)[n..|RankUrl(b)| - |RankPath|];
  }

  /** The URL of one page of the ranking. */
  function PageUrl(base: string, page: int): string
  {
    base + PageQuery + Numerals.IntToString(page)
  }

  /** Different pages of the same ranking have different URLs. */
  lemma PageUrlInjective(base: string, p: int, q: int)
    requires PageUrl(base, p) == PageUrl(base, q)
    ensures p == q
  {
    var n := |base + PageQuery|;
    assert Numerals.IntToString(p) == PageUrl(base, p)[n..];
    assert Numerals.IntToString(q) == PageUrl(base, q)[n..];
    Numerals.IntToStringInjective(p, q);
  }

  /** The subject codes of one page: the last path segment of each link. */
  function Ids(hrefs: seq<string>): (ids: set<string>)
    ensures forall id :: id in ids ==> '/' !in id
  {
    set h | h in hrefs :: Text.LastSegment(h)
  }

  /** Every link of a page contributes its code. */
  lemma IdsOfLink(hrefs: seq<string>, k: nat)
    requires k < |hrefs|
    ensures Text.LastSegment(hrefs[k]) in Ids(hrefs)
  {
  }

  /** The URLs of pages `page` to `maxPage`, in ascending order (`range(page, maxPage + 1)`). */
  function PageUrls(base: string, page: int, maxPage: int): (urls: seq<string>)
    ensures |urls| == if page <= maxPage then maxPage + 1 - page else 0
    ensures forall k :: 0 <= k < |urls| ==> urls[k] == PageUrl(base, page + k)
  {
    var n := if page <= maxPage then maxPage + 1 - page else 0;
    seq(n, k requires 0 <= k < n => PageUrl(base, page + k))
  }

  /**
    The pages the loop requests: a prefix of `urls`, ending at the end of the list or at the
    first page whose fetch is falsy.
   */
  function Requested(urls: seq<string>, fetchOne: string -> Option<string>): (req: seq<string>)
    ensures |req| <= |urls| && req == urls[..|req|]
    ensures forall k :: 0 <= k < |req| - 1 ==> BaseCrawler.Truthy(fetchOne(req[k]))
    ensures |req| < |urls| ==> 0 < |req| && !BaseCrawler.Truthy(fetchOne(req[|req| - 1]))
  {
    if urls == [] then []
    else if !BaseCrawler.Truthy(fetchOne(urls[0])) then [urls[0]]
    else
      var rest := Requested(urls[1..], fetchOne);
      assert [urls[0]] + rest == urls[..1 + |rest|];
      [urls[0]] + rest
  }

  /** The codes on the page `fetchOne` gave for `url`. */
  function PageIds(url: string, fetchOne: string -> Option<string>, hrefsOf: string -> seq<string>): set<string>
    requires BaseCrawler.Truthy(fetchOne(url))
  {
    Ids(hrefsOf(fetchOne(url).value))
  }

  /** The union of the codes of the fetched pages among `pages` (a falsy page contributes none). */
  function Collected(pages: seq<string>, fetchOne: string -> Option<string>, hrefsOf: string -> seq<string>): set<string>
  {
    if pages == [] then {}
    else
      var first := if BaseCrawler.Truthy(fetchOne(pages[0])) then PageIds(pages[0], fetchOne, hrefsOf) else {};
      first + Collected(pages[1..], fetchOne, hrefsOf)
  }

  /** Every fetched page's codes are collected. */
  lemma {:induction false} CollectedHasPage(pages: seq<string>, fetchOne: string -> Option<string>, hrefsOf: string -> seq<string>, k: nat)
    requires k < |pages| && BaseCrawler.Truthy(fetchOne(pages[k]))
    ensures PageIds(pages[k], fetchOne, hrefsOf) <= Collected(pages, fetchOne, hrefsOf)
  {
    if k > 0 {
      CollectedHasPage(pages[1..], fetchOne, hrefsOf, k - 1);
    }
  }

  /** Every collected code comes from some fetched page. */
  lemma {:induction false} CollectedFromPage(pages: seq<string>, fetchOne: string -> Option<string>, hrefsOf: string -> seq<string>, id: string)
    requires id in Collected(pages, fetchOne, hrefsOf)
    ensures exists k :: 0 <= k < |pages| && BaseCrawler.Truthy(fetchOne(pages[k])) && id in PageIds(pages[k], fetchOne, hrefsOf)
  {
    if BaseCrawler.Truthy(fetchOne(pages[0])) && id in PageIds(pages[0], fetchOne, hrefsOf) {
    } else {
      CollectedFromPage(pages[1..], fetchOne, hrefsOf, id);
      var k :| 0 <= k < |pages[1..]| && BaseCrawler.Truthy(fetchOne(pages[1..][k])) && id in PageIds(pages[1..][k], fetchOne, hrefsOf);
      assert pages[1..][k] == pages[k + 1];
    }
  }

  /** No collected code contains a '/'. */
  lemma CollectedHaveNoSlash(pages: seq<string>, fetchOne: string -> Option<string>, hrefsOf: string -> seq<string>, id: string)
    requires id in Collected(pages, fetchOne, hrefsOf)
    ensures '/' !in id
  {
    CollectedFromPage(pages, fetchOne, hrefsOf, id);
  }

  /** Where a scan stopped and what it found. */
  datatype Scan = Scan(requested: seq<string>, codes: set<string>)

  /**
    The scan of pages `page` to `maxPage`: pages are requested in ascending order, one URL
    each, until the last page or the first page whose fetch is falsy; the codes are the union
    of the codes of the pages that were fetched.
   */
  function ScanPages(base: string, page: int, maxPage: int, fetchOne: string -> Option<string>, hrefsOf: string -> seq<string>): (s: Scan)
    ensures var urls := PageUrls(base, page, maxPage);
      && |s.requested| <= |urls|
      && (forall k :: 0 <= k < |s.requested| ==> s.requested[k] == PageUrl(base, page + k))
      && (forall k :: 0 <= k < |s.requested| - 1 ==> BaseCrawler.Truthy(fetchOne(s.requested[k])))
      && (|s.requested| < |urls| ==> 0 < |s.requested| && !BaseCrawler.Truthy(fetchOne(s.requested[|s.requested| - 1])))
    ensures s.codes == Collected(s.requested, fetchOne, hrefsOf)
  {
    var req := Requested(PageUrls(base, page, maxPage), fetchOne);
    Scan(req, Collected(req, fetchOne, hrefsOf))
  }

  /** The table `save_subject_codes` writes: the header row, then one code per row. */
  function CodesTable(codes: seq<string>): (rows: seq<seq<string>>)
    ensures |rows| == |codes| + 1 && rows[0] == [CodesHeader]
    ensures forall k :: 0 <= k < |codes| ==> rows[k + 1] == [codes[k]]
  {
    [[CodesHeader]] + seq(|codes|, k requires 0 <= k < |codes| => [codes[k]])
  }

  /** What `get_subject_codes` leaves behind: the pages it requested, the saved table, the codes. */
  datatype RankRun = RankRun(requested: seq<string>, saved: seq<seq<string>>, codes: set<string>)

  /** Each row of a codes table after the header holds one element of the set. */
  lemma SetTableRows(codes: set<string>)
    ensures var saved := CodesTable(Order.SortedKeys(codes));
      forall k :: 1 <= k < |saved| ==> |saved[k]| == 1 && saved[k][0] in codes
  {
    var ordered := Order.SortedKeys(codes);
    var saved := CodesTable(ordered);
    forall k | 1 <= k < |saved|
      ensures |saved[k]| == 1 && saved[k][0] in codes
    {
      assert saved[k] == [ordered[k - 1]];
    }
  }

  /** No two rows of a codes table after the header are equal. */
  lemma SetTableDistinct(codes: set<string>)
    ensures var saved := CodesTable(Order.SortedKeys(codes));
      forall k, j :: 1 <= k < j < |saved| ==> saved[k] != saved[j]
  {
    var ordered := Order.SortedKeys(codes);
    var saved := CodesTable(ordered);
    forall k, j | 1 <= k < j < |saved|
      ensures saved[k] != saved[j]
    {
      assert saved[k] == [ordered[k - 1]] && saved[j] == [ordered[j - 1]];
    }
  }

  /** Every element of the set has a row in its codes table. */
  lemma SetTableCovers(codes: set<string>)
    ensures var saved := CodesTable(Order.SortedKeys(codes));
      forall id :: id in codes ==> [id] in saved[1..]
  {
    var ordered := Order.SortedKeys(codes);
    var saved := CodesTable(ordered);
    forall id | id in codes
      ensures [id] in saved[1..]
    {
      var k :| 0 <= k < |ordered| && ordered[k] == id;
      var tail := saved[1..];
      assert saved[k + 1] == [id];
      assert tail[k] == saved[k + 1];
    }
  }

  /**
    `get_subject_codes()`: pages 1 to `max_page`, then the codes are saved whether or not the
    scan stopped early: the header row and each code on its own row, exactly once. Python
    writes the set in its own iteration order; the model writes it in ascending order.
   */
  function GetSubjectCodes(c: Crawler, fetchOne: string -> Option<string>, hrefsOf: string -> seq<string>): (r: RankRun)
    ensures var s := ScanPages(c.url, 1, c.maxPage, fetchOne, hrefsOf);
      r.requested == s.requested && r.codes == s.codes
    ensures |r.saved| == |r.codes| + 1 && r.saved[0] == [CodesHeader]
    ensures forall k :: 1 <= k < |r.saved| ==> |r.saved[k]| == 1 && r.saved[k][0] in r.codes
    ensures forall k, j :: 1 <= k < j < |r.saved| ==> r.saved[k] != r.saved[j]
    ensures forall id :: id in r.codes ==> [id] in r.saved[1..]
  {
    var s := ScanPages(c.url, 1, c.maxPage, fetchOne, hrefsOf);
    SetTableRows(s.codes);
    SetTableDistinct(s.codes);
    SetTableCovers(s.codes);
    RankRun(s.requested, CodesTable(Order.SortedKeys(s.codes)), s.codes)
  }

  /** With `max_page` below 1 nothing is requested and a table with only the header is saved. */
  lemma NoPagesNoRequests(c: Crawler, fetchOne: string -> Option<string>, hrefsOf: string -> seq<string>)
    requires c.maxPage < 1
    ensures GetSubjectCodes(c, fetchOne, hrefsOf).requested == []
    ensures GetSubjectCodes(c, fetchOne, hrefsOf).saved == [[CodesHeader]]
  {
  }

  /**
    Page `p` (counted from 1) is requested only if every page before it was fetched, and no code
    comes from a page that was not requested.
   */
  lemma PagesBeforeWereFetched(c: Crawler, fetchOne: string -> Option<string>, hrefsOf: string -> seq<string>, p: int)
    requires 1 <= p <= |GetSubjectCodes(c, fetchOne, hrefsOf).requested|
    ensures GetSubjectCodes(c, fetchOne, hrefsOf).requested[p - 1] == PageUrl(c.url, p)
    ensures forall q :: 1 <= q < p ==> BaseCrawler.Truthy(fetchOne(PageUrl(c.url, q)))
  {
    var s := ScanPages(c.url, 1, c.maxPage, fetchOne, hrefsOf);
    assert s.requested[p - 1] == PageUrl(c.url, 1 + (p - 1));
    forall q | 1 <= q < p
      ensures BaseCrawler.Truthy(fetchOne(PageUrl(c.url, q)))
    {
      assert s.requested[q - 1] == PageUrl(c.url, 1 + (q - 1));
    }
  }
}

=== FILE: selection.dfy ===
/**
  Picking the largest entries of a labelled column, as pandas `Series.nlargest(n)` does: the `n`
  entries with the largest values, largest first, earlier entries first among equal values.
 */
module Selection {
  import Seqs

  /** Largest value first. */
  ghost predicate Descending<K>(s: seq<(K, int)>)
  {
    forall i, j :: 0 <= i < j < |s| ==> s[i].1 >= s[j].1
  }

  /** No two entries share a label. */
  ghost predicate DistinctKeys<K>(s: seq<(K, int)>)
  {
    forall i, j :: 0 <= i < j < |s| ==> s[i].0 != s[j].0
  }

  /** Puts `x` into a list, in front of the first entry whose value is not larger. */
  function Insert<K>(x: (K, int), s: seq<(K, int)>): (r: seq<(K, int)>)
    ensures |r| == |s| + 1
    ensures multiset(r) == multiset(s) + multiset{x}
    ensures r[0] == x || (s != [] && r[0] == s[0])
  {
    if s == [] || s[0].1 <= x.1 then [x] + s
    else
      assert s == [s[0]] + s[1..];
      [s[0]] + Insert(x, s[1..])
  }

  /** A descending list with one entry put in stays descending. */
  lemma {:induction false} InsertDescending<K>(x: (K, int), s: seq<(K, int)>)
    requires Descending(s)
    ensures Descending(Insert(x, s))
  {
    if s != [] && s[0].1 > x.1 {
      var rest := Insert(x, s[1..]);
      InsertDescending(x, s[1..]);
      assert rest[0].1 <= s[0].1;
      var r := [s[0]] + rest;
      forall i, j | 0 <= i < j < |r|
        ensures r[i].1 >= r[j].1
      {
        if i == 0 && j > 1 {
          assert r[1].1 >= r[j].1;
        }
      }
    }
  }

  /** Putting in an entry with a new label keeps the labels distinct. */
  lemma {:induction false} InsertDistinct<K>(x: (K, int), s: seq<(K, int)>)
    requires DistinctKeys(s) && forall e :: e in s ==> e.0 != x.0
    ensures DistinctKeys(Insert(x, s))
  {
    if s != [] && s[0].1 > x.1 {
      InsertDistinct(x, s[1..]);
      var rest := Insert(x, s[1..]);
      forall e | e in rest
        ensures e.0 != s[0].0
      {
        assert e in multiset(rest);
        if e != x {
          assert e in multiset(s[1..]);
          var j :| 0 <= j < |s[1..]| && s[1..][j] == e;
          assert s[j + 1] == e;
        }
      }
      var r := [s[0]] + rest;
      forall i, j | 0 <= i < j < |r|
        ensures r[i].0 != r[j].0
      {
        if i == 0 {
          assert r[j] in rest;
        } else {
          assert r[i] == rest[i - 1] && r[j] == rest[j - 1];
        }
      }
    }
  }

  /** The step of `SortDescending`: the first entry goes into the sorted rest. */
  lemma SortDistinctStep<K>(xs: seq<(K, int)>, rest: seq<(K, int)>)
    requires xs != [] && multiset(rest) == multiset(xs[1..])
    requires DistinctKeys(xs[1..]) ==> DistinctKeys(rest)
    ensures DistinctKeys(xs) ==> DistinctKeys(Insert(xs[0], rest))
  {
    if DistinctKeys(xs) {
      TailDistinct(xs);
      forall e | e in rest
        ensures e.0 != xs[0].0
      {
        assert e in multiset(xs[1..]);
      }
      InsertDistinct(xs[0], rest);
    }
  }

  /** A stable sort by descending value. */
  function SortDescending<K>(xs: seq<(K, int)>): (r: seq<(K, int)>)
    ensures |r| == |xs|
    ensures multiset(r) == multiset(xs)
    ensures Descending(r)
    ensures DistinctKeys(xs) ==> DistinctKeys(r)
  {
    if xs == [] then []
    else
      assert xs == [xs[0]] + xs[1..];
      var rest := SortDescending(xs[1..]);
      InsertDescending(xs[0], rest);
      SortDistinctStep(xs, rest);
      Insert(xs[0], rest)
  }

  /**
    `nlargest(n)`: the first `n` entries of the stable descending sort; for `n <= 0` nothing is
    selected.
   */
  function Largest<K>(xs: seq<(K, int)>, n: int): (r: seq<(K, int)>)
    ensures |r| == if n <= 0 then 0 else if n < |xs| then n else |xs|
    ensures Descending(r)
    ensures multiset(r) <= multiset(xs)
    ensures n >= |xs| ==> multiset(r) == multiset(xs)
    ensures DistinctKeys(xs) ==> DistinctKeys(r)
  {
    var sorted := SortDescending(xs);
    var k := if n <= 0 then 0 else if n < |xs| then n else |xs|;
    PrefixMultiset(sorted, k);
    assert k == |xs| ==> sorted[..k] == sorted;
    sorted[..k]
  }

  /** A prefix holds no more of anything than the whole list. */
  lemma PrefixMultiset<T>(all: seq<T>, k: nat)
    requires k <= |all|
    ensures multiset(all[..k]) <= multiset(all)
  {
    assert all == all[..k] + all[k..];
    assert multiset(all) == multiset(all[..k]) + multiset(all[k..]);
  }

  /** A selection shorter than asked for holds every candidate. */
  lemma LargestTakesAll<K>(xs: seq<(K, int)>, n: int)
    ensures n > 0 && |Largest(xs, n)| != n ==> forall e :: e in xs ==> e in Largest(xs, n)
  {
    if n > 0 && |Largest(xs, n)| != n {
      forall e | e in xs
        ensures e in Largest(xs, n)
      {
        assert e in multiset(xs);
      }
    }
  }

  /** Every selected entry is one of the candidates. */
  lemma LargestFromCandidates<K>(xs: seq<(K, int)>, n: int)
    ensures forall e :: e in Largest(xs, n) ==> e in xs
  {
    var r := Largest(xs, n);
    forall e | e in r
      ensures e in xs
    {
      assert e in multiset(r);
    }
  }

  /** Nothing left out of a selection is larger than anything in it. */
  lemma LargestDominates<K>(xs: seq<(K, int)>, n: int, e: (K, int))
    requires e in multiset(xs) - multiset(Largest(xs, n))
    ensures forall i :: 0 <= i < |Largest(xs, n)| ==> Largest(xs, n)[i].1 >= e.1
  {
    var sorted := SortDescending(xs);
    var k := |Largest(xs, n)|;
    assert Largest(xs, n) == sorted[..k];
    LeftOver(sorted, k, e);
    BehindIsSmaller(sorted, k, e);
  }

  /** What a prefix does not account for lies in the rest. */
  lemma LeftOver<T>(all: seq<T>, k: nat, e: T)
    requires k <= |all| && e in multiset(all) - multiset(all[..k])
    ensures e in all[k..]
  {
    assert all == all[..k] + all[k..];
    assert multiset(all) == multiset(all[..k]) + multiset(all[k..]);
    assert e in multiset(all[k..]);
  }

  /** In a descending list, an entry at or after position `k` is no larger than any before it. */
  lemma BehindIsSmaller<K>(sorted: seq<(K, int)>, k: nat, e: (K, int))
    requires Descending(sorted) && k <= |sorted| && e in sorted[k..]
    ensures forall i :: 0 <= i < k ==> sorted[i].1 >= e.1
  {
    var j :| k <= j < |sorted| && sorted[j] == e;
    forall i | 0 <= i < k
      ensures sorted[i].1 >= e.1
    {
      assert sorted[i].1 >= sorted[j].1;
    }
  }

  /** A candidate that was not selected is no larger than any selected entry. */
  lemma NotSelectedIsSmaller<K>(xs: seq<(K, int)>, n: int, e: (K, int))
    requires e in xs && e !in Largest(xs, n)
    ensures forall i :: 0 <= i < |Largest(xs, n)| ==> Largest(xs, n)[i].1 >= e.1
  {
    assert e in multiset(xs) - multiset(Largest(xs, n));
    LargestDominates(xs, n, e);
  }

  /** Keeps the entries whose value is strictly above `bound` (`s.loc[lambda s: s > bound]`), in order. */
  function Above<K(!new)>(xs: seq<(K, int)>, bound: int): (r: seq<(K, int)>)
    ensures forall e :: multiset(r)[e] == if e.1 > bound then multiset(xs)[e] else 0
    ensures forall i :: 0 <= i < |r| ==> r[i].1 > bound && r[i] in xs
    ensures forall e :: e in xs && e.1 > bound ==> e in r
    ensures DistinctKeys(xs) ==> DistinctKeys(r)
  {
    if xs == [] then []
    else
      var rest := Above(xs[1..], bound);
      var r := if xs[0].1 > bound then [xs[0]] + rest else rest;
      AboveStep(xs, bound, rest, r);
      if xs[0].1 > bound then
        AboveDistinctStep(xs, rest);
        r
      else
        TailDistinct(xs);
        r
  }

  /** One step of `Above`: what the rest keeps, with the first entry in front when it is above `bound`. */
  lemma AboveStep<K(!new)>(xs: seq<(K, int)>, bound: int, rest: seq<(K, int)>, r: seq<(K, int)>)
    requires xs != []
    requires forall e :: multiset(rest)[e] == if e.1 > bound then multiset(xs[1..])[e] else 0
    requires r == if xs[0].1 > bound then [xs[0]] + rest else rest
    ensures forall e :: multiset(r)[e] == if e.1 > bound then multiset(xs)[e] else 0
    ensures forall i :: 0 <= i < |r| ==> r[i].1 > bound && r[i] in xs
    ensures forall e :: e in xs && e.1 > bound ==> e in r
  {
    assert xs == [xs[0]] + xs[1..];
    forall i | 0 <= i < |r|
      ensures r[i].1 > bound && r[i] in xs
    {
      assert multiset(r)[r[i]] > 0;
    }
  }

  /** Without its first entry a list with distinct labels keeps them distinct, and none is the first's. */
  lemma TailDistinct<K>(xs: seq<(K, int)>)
    requires xs != []
    ensures DistinctKeys(xs) ==> DistinctKeys(xs[1..]) && forall e :: e in xs[1..] ==> e.0 != xs[0].0
  {
    if !DistinctKeys(xs) {
      return;
    }
    forall i, j | 0 <= i < j < |xs[1..]|
      ensures xs[1..][i].0 != xs[1..][j].0
    {
      assert xs[1..][i] == xs[i + 1] && xs[1..][j] == xs[j + 1];
    }
    forall e | e in xs[1..]
      ensures e.0 != xs[0].0
    {
      var j :| 0 <= j < |xs[1..]| && xs[1..][j] == e;
      assert xs[j + 1] == e;
    }
  }

  /** The step of `Above` that keeps the first entry keeps the labels distinct. */
  lemma AboveDistinctStep<K>(xs: seq<(K, int)>, rest: seq<(K, int)>)
    requires xs != []
    requires DistinctKeys(xs[1..]) ==> DistinctKeys(rest)
    requires forall e :: e in rest ==> e in xs[1..]
    ensures DistinctKeys(xs) ==> DistinctKeys([xs[0]] + rest)
  {
    if !DistinctKeys(xs) {
      return;
    }
    TailDistinct(xs);
    var r := [xs[0]] + rest;
    forall i, j | 0 <= i < j < |r|
      ensures r[i].0 != r[j].0
    {
      if i == 0 {
        assert r[j] in rest;
      } else {
        assert r[i] == rest[i - 1] && r[j] == rest[j - 1];
      }
    }
  }

  /** Filtering a concatenation filters each part; with `AboveOne` this determines `Above`. */
  lemma {:induction false} AboveConcat<K(!new)>(xs: seq<(K, int)>, ys: seq<(K, int)>, bound: int)
    ensures Above(xs + ys, bound) == Above(xs, bound) + Above(ys, bound)
  {
    if xs == [] {
      assert xs + ys == ys;
    } else {
      var zs := xs + ys;
      assert zs[0] == xs[0] && zs[1..] == xs[1..] + ys;
      AboveCons(zs, bound);
      AboveCons(xs, bound);
      AboveConcat(xs[1..], ys, bound);
      var head := if xs[0].1 > bound then [xs[0]] else [];
      var a, b := Above(xs[1..], bound), Above(ys, bound);
      Seqs.ConcatAssoc(head, a, b);
    }
  }

  /** The first entry is kept in front of the rest exactly when its value is above the bound. */
  lemma AboveCons<K(!new)>(xs: seq<(K, int)>, bound: int)
    requires xs != []
    ensures Above(xs, bound) == (if xs[0].1 > bound then [xs[0]] else []) + Above(xs[1..], bound)
  {
  }

  /** One entry is kept exactly when its value is above the bound. */
  lemma AboveOne<K(!new)>(e: (K, int), bound: int)
    ensures Above([e], bound) == if e.1 > bound then [e] else []
  {
    assert [e][1..] == [];
  }
}

=== FILE: seqs.dfy ===
/** Facts about sequences that several modules lean on. */
module Seqs {

  /**
    Concatenation is associative. Stated on its own so that proofs about filters, whose
    contracts speak about every index, do not have to rediscover it.
   */
  lemma ConcatAssoc<T>(a: seq<T>, b: seq<T>, c: seq<T>)
    ensures a + (b + c) == (a + b) + c
  {
  }
}

=== FILE: sums.dfy ===
/**
  Sums over finite sets and sequences. `SetSum` is the order-free sum used in contracts;
  `SeqSum` is the left-to-right sum a traversal computes. `SeqSumIsSetSum` connects them, so a
  traversal of a dictionary in any fixed key order computes the order-free sum.
 */
module Sums {

  /** Some element of a non-empty set (a fixed one for each set). */
  ghost function Pick<K>(s: set<K>): K
    requires s != {}
  {
    var k :| k in s; k
  }

  /** The sum of `f` over the elements of `s`. */
  ghost function SetSum<K>(s: set<K>, f: K -> int): int
    decreases s
  {
    if s == {} then 0 else var k := Pick(s); f(k) + SetSum(s - {k}, f)
  }

  /** Any element can be taken out first: the sum does not depend on the order of summation. */
  lemma {:induction false} SetSumRemove<K>(s: set<K>, f: K -> int, k: K)
    requires k in s
    ensures SetSum(s, f) == f(k) + SetSum(s - {k}, f)
    decreases s
  {
    var j := Pick(s);
    if j != k {
      SetSumRemove(s - {j}, f, k);
      SetSumRemove(s - {k}, f, j);
      assert s - {j} - {k} == s - {k} - {j};
    }
  }

  /** Two functions that agree on `s` have the same sum over `s`. */
  lemma {:induction false} SetSumCongruent<K>(s: set<K>, f: K -> int, g: K -> int)
    requires forall k :: k in s ==> f(k) == g(k)
    ensures SetSum(s, f) == SetSum(s, g)
    decreases s
  {
    if s != {} {
      var k := Pick(s);
      SetSumCongruent(s - {k}, f, g);
    }
  }

  /** A sum of non-negative terms is non-negative. */
  lemma {:induction false} SetSumNonNegative<K>(s: set<K>, f: K -> int)
    requires forall k :: k in s ==> f(k) >= 0
    ensures SetSum(s, f) >= 0
    decreases s
  {
    if s != {} {
      SetSumNonNegative(s - {Pick(s)}, f);
    }
  }

  /** A sum splits into the sum over a subset and the sum over the rest. */
  lemma {:induction false} SetSumSplit<K>(s: set<K>, a: set<K>, f: K -> int)
    requires a <= s
    ensures SetSum(s, f) == SetSum(a, f) + SetSum(s - a, f)
    decreases a
  {
    if a == {} {
      assert s - a == s;
    } else {
      var x := Pick(a);
      SetSumSplit(s - {x}, a - {x}, f);
      assert (s - {x}) - (a - {x}) == s - a;
      SetSumRemove(s, f, x);
      SetSumRemove(a, f, x);
    }
  }

  /** A subset is no larger than the set. */
  lemma {:induction false} SubsetSize<K>(a: set<K>, b: set<K>)
    requires a <= b
    ensures |a| <= |b|
    decreases a
  {
    if a != {} {
      var x := Pick(a);
      SubsetSize(a - {x}, b - {x});
    }
  }

  /** The sum of `f` over `ks`, left to right. */
  function SeqSum<K>(ks: seq<K>, f: K -> int): int
  {
    if ks == [] then 0 else f(ks[0]) + SeqSum(ks[1..], f)
  }

  ghost predicate Distinct<K>(ks: seq<K>)
  {
    forall i, j :: 0 <= i < j < |ks| ==> ks[i] != ks[j]
  }

  /** Summing a repetition-free listing of a set gives the set sum. */
  lemma {:induction false} SeqSumIsSetSum<K>(ks: seq<K>, f: K -> int)
    requires Distinct(ks)
    ensures SeqSum(ks, f) == SetSum((set k | k in ks), f)
  {
    if ks != [] {
      var s := set k | k in ks;
      var rest := set k | k in ks[1..];
      assert Distinct(ks[1..]) by {
        forall i, j | 0 <= i < j < |ks[1..]|
          ensures ks[1..][i] != ks[1..][j]
        {
          assert ks[1..][i] == ks[i + 1] && ks[1..][j] == ks[j + 1];
        }
      }
      SeqSumIsSetSum(ks[1..], f);
      assert rest == s - {ks[0]} by {
        forall k | k in rest
          ensures k != ks[0]
        {
          var i :| 0 <= i < |ks[1..]| && ks[1..][i] == k;
          assert ks[i + 1] == k;
        }
        forall k | k in s && k != ks[0]
          ensures k in rest
        {
          var i :| 0 <= i < |ks| && ks[i] == k;
          assert ks[1..][i - 1] == k;
        }
      }
      SetSumRemove(s, f, ks[0]);
    }
  }

  /** Summing a repetition-free listing of exactly the elements of `s` gives the set sum. */
  lemma SeqSumListing<K>(ks: seq<K>, s: set<K>, f: K -> int)
    requires Distinct(ks) && forall k :: k in ks <==> k in s
    ensures SeqSum(ks, f) == SetSum(s, f)
  {
    SeqSumIsSetSum(ks, f);
    assert (set k | k in ks) == s;
  }

  /** The keys of a sequence of (key, value) entries. */
  ghost function KeysOf<K>(ps: seq<(K, int)>): set<K>
  {
    set i | 0 <= i < |ps| :: ps[i].0
  }

  /** The sum of the values of the entries whose key is `k`. */
  function SumWhere<K(==)>(ps: seq<(K, int)>, k: K): int
  {
    if ps == [] then 0 else (if ps[0].0 == k then ps[0].1 else 0) + SumWhere(ps[1..], k)
  }

  /** The sum of all values. */
  function SumAll<K>(ps: seq<(K, int)>): int
  {
    if ps == [] then 0 else ps[0].1 + SumAll(ps[1..])
  }

  lemma {:induction false} SumWhereAbsent<K>(ps: seq<(K, int)>, k: K)
    requires k !in KeysOf(ps)
    ensures SumWhere(ps, k) == 0
  {
    if ps != [] {
      assert KeysOf(ps[1..]) <= KeysOf(ps) by {
        forall x | x in KeysOf(ps[1..])
          ensures x in KeysOf(ps)
        {
          var i :| 0 <= i < |ps[1..]| && ps[1..][i].0 == x;
          assert ps[i + 1].0 == x;
        }
      }
      SumWhereAbsent(ps[1..], k);
    }
  }

  /**
    Grouping entries by key and summing each group, then summing the group totals, gives the
    sum of all entries.
   */
  lemma {:induction false} GroupTotals<K>(ps: seq<(K, int)>)
    ensures SetSum(KeysOf(ps), k => SumWhere(ps, k)) == SumAll(ps)
  {
    if ps != [] {
      var p := ps[0];
      var rest := ps[1..];
      var f := k => SumWhere(ps, k);
      var g := k => SumWhere(rest, k);
      GroupTotals(rest);
      assert KeysOf(ps) == KeysOf(rest) + {p.0} by {
        forall x | x in KeysOf(ps)
          ensures x in KeysOf(rest) + {p.0}
        {
          var i :| 0 <= i < |ps| && ps[i].0 == x;
          if i > 0 {
            assert rest[i - 1].0 == x;
          }
        }
        forall x | x in KeysOf(rest)
          ensures x in KeysOf(ps)
        {
          var i :| 0 <= i < |rest| && rest[i].0 == x;
          assert ps[i + 1].0 == x;
        }
      }
      SetSumCongruent(KeysOf(rest) - {p.0}, f, g);
      assert f(p.0) == p.1 + g(p.0);
      if p.0 in KeysOf(rest) {
        assert KeysOf(ps) == KeysOf(rest);
        SetSumRemove(KeysOf(rest), f, p.0);
        SetSumRemove(KeysOf(rest), g, p.0);
      } else {
        assert KeysOf(rest) - {p.0} == KeysOf(rest);
        assert KeysOf(ps) - {p.0} == KeysOf(rest);
        SetSumRemove(KeysOf(ps), f, p.0);
        SumWhereAbsent(rest, p.0);
      }
    }
  }
}

=== FILE: tag_analysis.dfy ===
/**
  The tag statistics of analysis/tag_analysis.py over the crawled table: how many records
  chose each tag at least `min_count` times, and the per-year tag totals of the most chosen
  tags.

  A record is the year of its `date` (missing when the date is) and its `tags` column, the
  dictionary from tag name to the number of users who chose it.
 */
module TagAnalysis {
  import opened Outcome
  import Sums
  import Order
  import Counting
  import Selection
  import Dates

  datatype Record = Record(year: Option<string>, tags: map<string, int>)

  /** The year of a record. */
  function YearOf(r: Record): Option<string>
  {
    r.year
  }

  /** The tags of one record chosen at least `minCount` times. */
  function Chosen(tags: map<string, int>, minCount: int): set<string>
  {
    set t | t in tags && tags[t] >= minCount
  }

  /**
    The tags the generator of `count_tag_frequency` yields, record by record (the tags of one
    record in ascending order).
   */
  function ChosenTags(records: seq<Record>, minCount: int): seq<string>
  {
    if records == [] then []
    else Order.SortedKeys(Chosen(records[0].tags, minCount)) + ChosenTags(records[1..], minCount)
  }

  /** The number of records that chose tag `t` at least `minCount` times. */
  function Holders(records: seq<Record>, t: string, minCount: int): nat
  {
    if records == [] then 0
    else (if t in records[0].tags && records[0].tags[t] >= minCount then 1 else 0) + Holders(records[1..], t, minCount)
  }

  lemma {:induction false} ChosenTagsCount(records: seq<Record>, minCount: int, t: string)
    ensures multiset(ChosenTags(records, minCount))[t] == Holders(records, t, minCount)
  {
    if records != [] {
      ChosenTagsCount(records[1..], minCount, t);
      Order.SortedKeysOnce(Chosen(records[0].tags, minCount), t);
    }
  }

  /** A tag some record chose often enough. */
  ghost predicate Reached(records: seq<Record>, t: string, minCount: int)
  {
    exists i :: 0 <= i < |records| && t in records[i].tags && records[i].tags[t] >= minCount
  }

  lemma {:induction false} HoldersPositive(records: seq<Record>, t: string, minCount: int)
    ensures Holders(records, t, minCount) > 0 <==> Reached(records, t, minCount)
  {
    if records != [] {
      HoldersPositive(records[1..], t, minCount);
      if Reached(records[1..], t, minCount) {
        var i :| 0 <= i < |records[1..]| && t in records[1..][i].tags && records[1..][i].tags[t] >= minCount;
        assert records[i + 1] == records[1..][i];
      }
      if Reached(records, t, minCount) && !(t in records[0].tags && records[0].tags[t] >= minCount) {
        var i :| 0 <= i < |records| && t in records[i].tags && records[i].tags[t] >= minCount;
        assert records[1..][i - 1] == records[i];
      }
    }
  }

  /**
    `count_tag_frequency(min_count)` over the records `__init__` kept: for each tag, the number
    of dated records that chose it at least `min_count` times; a tag no dated record chose that
    often is absent.
   */
  function TagFrequency(records: seq<Record>, minCount: int): (freq: map<string, nat>)
    ensures forall t :: t in freq <==> Reached(Dates.Dated(records, YearOf), t, minCount)
    ensures forall t :: t in freq ==> freq[t] == Holders(Dates.Dated(records, YearOf), t, minCount)
  {
    var dated := Dates.Dated(records, YearOf);
    var chosen := ChosenTags(dated, minCount);
    var freq := Counting.Tally(chosen);
    assert forall t :: t in freq ==> freq[t] == Holders(dated, t, minCount) by {
      forall t | t in freq
        ensures freq[t] == Holders(dated, t, minCount)
      {
        ChosenTagsCount(dated, minCount, t);
      }
    }
    assert forall t :: t in freq <==> Reached(dated, t, minCount) by {
      forall t
        ensures t in freq <==> Reached(dated, t, minCount)
      {
        ChosenTagsCount(dated, minCount, t);
        HoldersPositive(dated, t, minCount);
      }
    }
    freq
  }

  lemma {:induction false} HoldersAntitone(records: seq<Record>, t: string, low: int, high: int)
    requires low <= high
    ensures Holders(records, t, high) <= Holders(records, t, low)
  {
    if records != [] {
      HoldersAntitone(records[1..], t, low, high);
    }
  }

  /** Raising the threshold never raises a tag's frequency. */
  lemma FrequencyAntitone(records: seq<Record>, t: string, low: int, high: int)
    requires low <= high
    ensures Counting.Get(TagFrequency(records, high), t) <= Counting.Get(TagFrequency(records, low), t)
  {
    HoldersAntitone(Dates.Dated(records, YearOf), t, low, high);
  }

  /** The number of (record, tag) entries of the table. */
  function TagEntries(records: seq<Record>): nat
  {
    if records == [] then 0 else |records[0].tags| + TagEntries(records[1..])
  }

  lemma {:induction false} ChosenTagsBound(records: seq<Record>, minCount: int)
    ensures |ChosenTags(records, minCount)| <= TagEntries(records)
  {
    if records != [] {
      ChosenTagsBound(records[1..], minCount);
      var tags := records[0].tags;
      assert Chosen(tags, minCount) <= tags.Keys;
      assert |Chosen(tags, minCount)| <= |tags.Keys| by {
        Sums.SubsetSize(Chosen(tags, minCount), tags.Keys);
      }
    }
  }

  /** Each record adds at most one per tag: the frequencies add up to at most the number of entries. */
  lemma FrequencyTotalBound(records: seq<Record>, minCount: int)
    ensures Counting.Total(TagFrequency(records, minCount)) <= TagEntries(Dates.Dated(records, YearOf))
  {
    Counting.TallyTotal(ChosenTags(Dates.Dated(records, YearOf), minCount));
    ChosenTagsBound(Dates.Dated(records, YearOf), minCount);
  }

  /** `fillna(0)`: a record without the tag counts 0. */
  function TagCount(tags: map<string, int>, t: string): int
  {
    if t in tags then tags[t] else 0
  }

  /** The (year, count of `t`) pairs of the dated records. */
  function YearPairs(records: seq<Record>, t: string): (ps: seq<(string, int)>)
    ensures |ps| <= |records|
  {
    if records == [] then []
    else
      var rest := YearPairs(records[1..], t);
      match records[0].year
      case Some(y) => [(y, TagCount(records[0].tags, t))] + rest
      case None => rest
  }

  /** The (tag, year) cell of `groupby("year").sum()`: the counts of `t` over the records of year `y`. */
  function Cell(records: seq<Record>, t: string, y: string): int
  {
    Sums.SumWhere(YearPairs(records, t), y)
  }

  /** The counts of `t` over the records of year `y`, record by record; a record without `t` adds 0. */
  function YearSum(records: seq<Record>, t: string, y: string): int
  {
    if records == [] then 0
    else (if records[0].year == Some(y) then TagCount(records[0].tags, t) else 0) + YearSum(records[1..], t, y)
  }

  /** A cell is the sum of the tag's counts over the records of its year. */
  lemma {:induction false} CellIsYearSum(records: seq<Record>, t: string, y: string)
    ensures Cell(records, t, y) == YearSum(records, t, y)
  {
    if records != [] {
      CellIsYearSum(records[1..], t, y);
      var ps := YearPairs(records, t);
      if records[0].year.Some? {
        assert ps[1..] == YearPairs(records[1..], t);
      }
    }
  }

  /** `tag_year_df.sum(axis=0)`: the count of `t` summed over all dated records. */
  function TagTotal(records: seq<Record>, t: string): int
  {
    Sums.SumAll(YearPairs(records, t))
  }

  /** The years of the dated records. */
  ghost function Years(records: seq<Record>, t: string): set<string>
  {
    Sums.KeysOf(YearPairs(records, t))
  }

  /** A tag's total is the sum of its cells over the years. */
  lemma TotalIsSumOfCells(records: seq<Record>, t: string)
    ensures TagTotal(records, t) == Sums.SetSum(Years(records, t), y => Cell(records, t, y))
  {
    var ps := YearPairs(records, t);
    Sums.GroupTotals(ps);
    Sums.SetSumCongruent(Sums.KeysOf(ps), y => Sums.SumWhere(ps, y), y => Cell(records, t, y));
  }

  /** Every tag of some dated record: the columns of `json_normalize`. */
  function AllTags(records: seq<Record>): (ts: set<string>)
    ensures forall t :: t in ts <==> exists i :: 0 <= i < |records| && records[i].year.Some? && t in records[i].tags
  {
    set i, t | 0 <= i < |records| && records[i].year.Some? && t in records[i].tags :: t
  }

  /** The tags `ts` with their totals, in the order of `ts`. */
  function TotalsOf(records: seq<Record>, ts: seq<string>): (cs: seq<(string, int)>)
    ensures |cs| == |ts|
    ensures forall i :: 0 <= i < |ts| ==> cs[i] == (ts[i], TagTotal(records, ts[i]))
  {
    if ts == [] then [] else [(ts[0], TagTotal(records, ts[0]))] + TotalsOf(records, ts[1..])
  }

  /** Distinct tags give distinct labels. */
  lemma TotalsOfDistinct(records: seq<Record>, ts: seq<string>)
    requires Order.Ascending(ts)
    ensures Selection.DistinctKeys(TotalsOf(records, ts))
  {
    var cs := TotalsOf(records, ts);
    forall i, j | 0 <= i < j < |cs|
      ensures cs[i].0 != cs[j].0
    {
      assert cs[i].0 == ts[i] && cs[j].0 == ts[j];
    }
  }

  /** The candidate columns and their totals, in ascending tag order. */
  function Totals(records: seq<Record>): (cs: seq<(string, int)>)
    ensures forall e :: e in cs ==> e.0 in AllTags(records) && e.1 == TagTotal(records, e.0)
    ensures forall t :: t in AllTags(records) ==> (t, TagTotal(records, t)) in cs
    ensures Selection.DistinctKeys(cs)
  {
    var ts := Order.SortedKeys(AllTags(records));
    var cs := TotalsOf(records, ts);
    TotalsOfDistinct(records, ts);
    forall t | t in AllTags(records)
      ensures (t, TagTotal(records, t)) in cs
    {
      var i :| 0 <= i < |ts| && ts[i] == t;
      assert cs[i] == (t, TagTotal(records, t));
    }
    cs
  }

  /**
    The tag selection of `count_tag_year_frequency(min_count, top_n)`: the tags whose total is
    strictly above `min_count`, at most `top_n` of them, largest total first.
   */
  function TopTags(records: seq<Record>, minCount: int, topN: int): (sel: seq<(string, int)>)
    ensures topN <= 0 ==> sel == []
    ensures topN > 0 ==> |sel| <= topN
    ensures forall e :: e in sel ==> e.1 > minCount && e.0 in AllTags(records) && e.1 == TagTotal(records, e.0)
    ensures Selection.Descending(sel)
    ensures forall i, j :: 0 <= i < j < |sel| ==> sel[i].0 != sel[j].0
    ensures topN > 0 ==>
      |sel| == topN || forall t :: t in AllTags(records) && TagTotal(records, t) > minCount ==> (t, TagTotal(records, t)) in sel
  {
    var cs := Totals(records);
    var above := Selection.Above(cs, minCount);
    var sel := Selection.Largest(above, topN);
    Selection.LargestFromCandidates(above, topN);
    Selection.LargestTakesAll(above, topN);
    sel
  }

  /** No tag above the bound that was left out has a larger total than a selected one. */
  lemma TopTagsDominate(records: seq<Record>, minCount: int, topN: int, t: string)
    requires t in AllTags(records) && TagTotal(records, t) > minCount
    requires forall e :: e in TopTags(records, minCount, topN) ==> e.0 != t
    ensures forall e :: e in TopTags(records, minCount, topN) ==> e.1 >= TagTotal(records, t)
  {
    var above := Selection.Above(Totals(records), minCount);
    var x := (t, TagTotal(records, t));
    Selection.NotSelectedIsSmaller(above, topN, x);
  }

  /** The years of the dated records: the rows of `groupby("year")`. */
  function YearSet(records: seq<Record>): set<string>
  {
    set i | 0 <= i < |records| && records[i].year.Some? :: records[i].year.value
  }

  /** One row of the transposed table: the cells of `t` in the given years. */
  function YearRow(records: seq<Record>, t: string, years: seq<string>): (row: seq<int>)
    ensures |row| == |years|
    ensures forall j :: 0 <= j < |years| ==> row[j] == Cell(records, t, years[j])
  {
    if years == [] then [] else [Cell(records, t, years[0])] + YearRow(records, t, years[1..])
  }

  /**
    The table `count_tag_year_frequency` returns: for each selected tag, in selection order, its
    cell in each year of the data, in ascending year order.
   */
  function TagYearTable(records: seq<Record>, minCount: int, topN: int): (table: seq<(string, seq<int>)>)
    ensures var sel := TopTags(records, minCount, topN);
      && |table| == |sel|
      && forall i :: 0 <= i < |table| ==> table[i] == (sel[i].0, YearRow(records, sel[i].0, Order.SortedKeys(YearSet(records))))
  {
    TableRows(records, TopTags(records, minCount, topN), Order.SortedKeys(YearSet(records)))
  }

  /** One row per selected tag, in selection order, with its cells in `years`. */
  function TableRows(records: seq<Record>, sel: seq<(string, int)>, years: seq<string>): (table: seq<(string, seq<int>)>)
    ensures |table| == |sel|
    ensures forall i :: 0 <= i < |table| ==> table[i] == (sel[i].0, YearRow(records, sel[i].0, years))
  {
    if sel == [] then [] else [(sel[0].0, YearRow(records, sel[0].0, years))] + TableRows(records, sel[1..], years)
  }
}

=== FILE: text.dfy ===
/**
  The string operations the crawler and the analysis scripts use: Python's `str.split` with a
  one-character separator, `str.join`, `str.replace`, and the last path segment of a link.
 */
module Text {

  /** The number of occurrences of `c` in `s`. */
  function CountOf(s: string, c: char): nat
  {
    multiset(s)[c]
  }

  /** Python `s.split(sep)` for a one-character separator. */
  function Split(s: string, sep: char): (parts: seq<string>)
    ensures |parts| >= 1
    ensures forall i :: 0 <= i < |parts| ==> sep !in parts[i]
  {
    if s == [] then [""]
    else
      var rest := Split(s[1..], sep);
      if s[0] == sep then [""] + rest
      else [[s[0]] + rest[0]] + rest[1..]
  }

  /** A character the string lacks is in none of its pieces. */
  lemma {:induction false} SplitAvoids(s: string, sep: char, c: char)
    requires c !in s
    ensures forall i :: 0 <= i < |Split(s, sep)| ==> c !in Split(s, sep)[i]
  {
    if s != [] {
      assert c !in s[1..] by {
        assert forall x :: x in s[1..] ==> x in s;
      }
      SplitAvoids(s[1..], sep, c);
      if s[0] != sep {
        SplitConsChar(s[0], s[1..], sep);
        assert s == [s[0]] + s[1..];
      }
    }
  }

  /** Python `sep.join(parts)` for a one-character separator. */
  function Join(parts: seq<string>, sep: char): string
  {
    if |parts| == 0 then ""
    else if |parts| == 1 then parts[0]
    else parts[0] + [sep] + Join(parts[1..], sep)
  }

  /** Joining the pieces of a split with the separator gives back the string. */
  lemma {:induction false} JoinSplit(s: string, sep: char)
    ensures Join(Split(s, sep), sep) == s
  {
    if s != [] {
      JoinSplit(s[1..], sep);
      var rest := Split(s[1..], sep);
      if s[0] != sep && |rest| > 1 {
        assert Join(rest, sep) == rest[0] + [sep] + Join(rest[1..], sep);
      }
      assert s == [s[0]] + s[1..];
    }
  }

  /** Splitting a join of separator-free pieces gives back the pieces. */
  lemma {:induction false} SplitJoin(parts: seq<string>, sep: char)
    requires |parts| >= 1
    requires forall i :: 0 <= i < |parts| ==> sep !in parts[i]
    ensures Split(Join(parts, sep), sep) == parts
    decreases |parts|, |parts[0]|
  {
    var p := parts[0];
    if p == [] {
      if |parts| > 1 {
        SplitJoin(parts[1..], sep);
        JoinConsEmpty(parts, sep);
        SplitConsSep(Join(parts[1..], sep), sep);
        assert parts == [""] + parts[1..];
      }
    } else {
      var shorter := [p[1..]] + parts[1..];
      assert shorter[1..] == parts[1..];
      forall i | 0 <= i < |shorter|
        ensures sep !in shorter[i]
      {
        if i == 0 {
          assert forall c :: c in p[1..] ==> c in p;
        } else {
          assert shorter[i] == parts[i];
        }
      }
      SplitJoin(shorter, sep);
      JoinConsChar(parts, sep);
      SplitConsChar(p[0], Join(shorter, sep), sep);
      assert p == [p[0]] + p[1..];
      assert parts == [p] + parts[1..];
    }
  }

  /** A join that starts with an empty piece starts with the separator. */
  lemma JoinConsEmpty(parts: seq<string>, sep: char)
    requires |parts| > 1 && parts[0] == []
    ensures Join(parts, sep) == [sep] + Join(parts[1..], sep)
  {
  }

  /** A join that starts with a non-empty piece starts with that piece's first character. */
  lemma JoinConsChar(parts: seq<string>, sep: char)
    requires |parts| >= 1 && parts[0] != []
    ensures Join(parts, sep) == [parts[0][0]] + Join([parts[0][1..]] + parts[1..], sep)
  {
    var p := parts[0];
    var shorter := [p[1..]] + parts[1..];
    assert shorter[1..] == parts[1..];
    assert p == [p[0]] + p[1..];
  }

  /** A string with `k` separators splits into `k + 1` pieces. */
  lemma {:induction false} SplitCount(s: string, sep: char)
    ensures |Split(s, sep)| == 1 + CountOf(s, sep)
  {
    if s != [] {
      SplitCount(s[1..], sep);
      assert s == [s[0]] + s[1..];
      assert multiset(s) == multiset{s[0]} + multiset(s[1..]);
    }
  }

  /**
    The last of the pieces `parts` of `s` is a suffix of `s`, preceded by the separator unless it
    is the whole string.
   */
  predicate LastIsSuffix(s: string, parts: seq<string>, sep: char)
    requires |parts| >= 1
  {
    var last := parts[|parts| - 1];
    && |last| <= |s|
    && s[|s| - |last|..] == last
    && (|parts| == 1 ==> last == s)
    && (|parts| > 1 ==> |last| < |s| && s[|s| - |last| - 1] == sep)
  }

  /** The inductive step of `SplitLastIsSuffix` for a leading separator. */
  lemma SplitLastSepStep(t: string, rest: seq<string>, sep: char)
    requires |rest| >= 1 && LastIsSuffix(t, rest, sep)
    ensures LastIsSuffix([sep] + t, [""] + rest, sep)
  {
    var s, parts := [sep] + t, [""] + rest;
    var last := rest[|rest| - 1];
    assert parts[|parts| - 1] == last;
    assert s[|s| - |last|..] == t[|t| - |last|..];
    if |rest| == 1 {
      assert s[|s| - |last| - 1] == sep;
    } else {
      assert s[|s| - |last| - 1] == t[|t| - |last| - 1];
    }
  }

  /** The inductive step of `SplitLastIsSuffix` for a leading non-separator. */
  lemma SplitLastCharStep(c: char, t: string, rest: seq<string>, sep: char)
    requires |rest| >= 1 && LastIsSuffix(t, rest, sep)
    ensures LastIsSuffix([c] + t, [[c] + rest[0]] + rest[1..], sep)
  {
    var s, parts := [c] + t, [[c] + rest[0]] + rest[1..];
    var last := rest[|rest| - 1];
    if |rest| > 1 {
      assert parts[|parts| - 1] == last;
      assert s[|s| - |last|..] == t[|t| - |last|..];
      assert s[|s| - |last| - 1] == t[|t| - |last| - 1];
    } else {
      assert parts == [s];
    }
  }

  lemma {:induction false} SplitLastIsSuffix(s: string, sep: char)
    ensures LastIsSuffix(s, Split(s, sep), sep)
  {
    if s != [] {
      var c, t := s[0], s[1..];
      assert s == [c] + t;
      SplitLastIsSuffix(t, sep);
      if c == sep {
        SplitConsSep(t, sep);
        SplitLastSepStep(t, Split(t, sep), sep);
      } else {
        SplitConsChar(c, t, sep);
        SplitLastCharStep(c, t, Split(t, sep), sep);
      }
    }
  }

  /** Python `href.split('/')[-1]`: the part of a link after its last '/'. */
  function LastSegment(href: string): (id: string)
    ensures '/' !in id
    ensures |id| <= |href| && href[|href| - |id|..] == id
    ensures |id| == |href| || href[|href| - |id| - 1] == '/'
  {
    SplitLastIsSuffix(href, '/');
    var parts := Split(href, '/');
    parts[|parts| - 1]
  }

  /** Python `s.replace(a, b)` for one-character strings: a per-character substitution. */
  function ReplaceChar(s: string, a: char, b: char): (r: string)
    ensures |r| == |s|
    ensures forall i :: 0 <= i < |s| ==> r[i] == (if s[i] == a then b else s[i])
  {
    if s == [] then [] else [if s[0] == a then b else s[0]] + ReplaceChar(s[1..], a, b)
  }

  /** Python `s.replace(pat, rep)` for a non-empty pattern: left to right, non-overlapping. */
  function Replace(s: string, pat: string, rep: string): string
    requires |pat| > 0
    decreases |s|
  {
    if |s| < |pat| then s
    else if s[..|pat|] == pat then rep + Replace(s[|pat|..], pat, rep)
    else [s[0]] + Replace(s[1..], pat, rep)
  }

  /** The number of matches `Replace` substitutes (Python `s.count(pat)`). */
  function Occurrences(s: string, pat: string): nat
    requires |pat| > 0
    decreases |s|
  {
    if |s| < |pat| then 0
    else if s[..|pat|] == pat then 1 + Occurrences(s[|pat|..], pat)
    else Occurrences(s[1..], pat)
  }

  /** The general replacement agrees with the per-character one on one-character strings. */
  lemma {:induction false} ReplaceCharIsReplace(s: string, a: char, b: char)
    ensures ReplaceChar(s, a, b) == Replace(s, [a], [b])
  {
    if s != [] {
      ReplaceCharIsReplace(s[1..], a, b);
      assert s[..1] == [s[0]];
    }
  }

  /** Substituting one character for another turns every `a` into a `b`. */
  lemma {:induction false} ReplaceCharCount(s: string, a: char, b: char)
    requires a != b
    ensures CountOf(ReplaceChar(s, a, b), b) == CountOf(s, a) + CountOf(s, b)
    ensures CountOf(ReplaceChar(s, a, b), a) == 0
  {
    if s != [] {
      var c, t := s[0], s[1..];
      assert s == [c] + t;
      ReplaceCharCount(t, a, b);
      var h := if c == a then b else c;
      var rt := ReplaceChar(t, a, b);
      assert ReplaceChar([c] + t, a, b) == [h] + rt by {
        assert ([c] + t)[1..] == t;
      }
      assert multiset([h] + rt) == multiset{h} + multiset(rt);
      assert multiset([c] + t) == multiset{c} + multiset(t);
    }
  }

  /** Replacing a pattern by a one-character string `c` that the pattern lacks adds one `c` per match. */
  lemma {:induction false} ReplaceCount(s: string, pat: string, c: char)
    requires |pat| > 0 && c !in pat
    ensures CountOf(Replace(s, pat, [c]), c) == CountOf(s, c) + Occurrences(s, pat)
    decreases |s|
  {
    if |s| >= |pat| {
      if s[..|pat|] == pat {
        ReplaceCount(s[|pat|..], pat, c);
        ReplaceCountMatch(s, pat, c);
      } else {
        ReplaceCount(s[1..], pat, c);
        ReplaceCountSkip(s, pat, c);
      }
    }
  }

  /** The step of `ReplaceCount` at a match. */
  lemma ReplaceCountMatch(s: string, pat: string, c: char)
    requires 0 < |pat| <= |s| && s[..|pat|] == pat && c !in pat
    requires var u := s[|pat|..]; CountOf(Replace(u, pat, [c]), c) == CountOf(u, c) + Occurrences(u, pat)
    ensures CountOf(Replace(s, pat, [c]), c) == CountOf(s, c) + Occurrences(s, pat)
  {
    var u := s[|pat|..];
    assert Replace(s, pat, [c]) == [c] + Replace(u, pat, [c]);
    CountConcat([c], Replace(u, pat, [c]), c);
    assert s == pat + u;
    CountConcat(pat, u, c);
    assert CountOf(pat, c) == 0;
  }

  /** The step of `ReplaceCount` past a character that starts no match. */
  lemma ReplaceCountSkip(s: string, pat: string, c: char)
    requires 0 < |pat| <= |s| && s[..|pat|] != pat
    requires var u := s[1..]; CountOf(Replace(u, pat, [c]), c) == CountOf(u, c) + Occurrences(u, pat)
    ensures CountOf(Replace(s, pat, [c]), c) == CountOf(s, c) + Occurrences(s, pat)
  {
    var h, u := s[0], s[1..];
    assert Replace(s, pat, [c]) == [h] + Replace(u, pat, [c]);
    CountConcat([h], Replace(u, pat, [c]), c);
    assert s == [h] + u;
    CountConcat([h], u, c);
  }

  /** Counting over two strings laid end to end adds the counts. */
  lemma CountConcat(a: string, b: string, c: char)
    ensures CountOf(a + b, c) == CountOf(a, c) + CountOf(b, c)
  {
    assert multiset(a + b) == multiset(a) + multiset(b);
  }

  /** A replacement introduces no character that is neither in the string nor in the replacement. */
  lemma {:induction false} ReplaceAvoids(s: string, pat: string, rep: string, c: char)
    requires |pat| > 0 && c !in s && c !in rep
    ensures c !in Replace(s, pat, rep)
    decreases |s|
  {
    if |s| >= |pat| {
      if s[..|pat|] == pat {
        assert forall x :: x in s[|pat|..] ==> x in s;
        ReplaceAvoids(s[|pat|..], pat, rep, c);
      } else {
        assert forall x :: x in s[1..] ==> x in s;
        ReplaceAvoids(s[1..], pat, rep, c);
      }
    }
  }

  /** Substituting characters that the pattern does not contain leaves its matches unchanged. */
  lemma {:induction false} ReplaceCharKeepsOccurrences(s: string, a: char, b: char, pat: string)
    requires |pat| > 0 && a !in pat && b !in pat
    ensures Occurrences(ReplaceChar(s, a, b), pat) == Occurrences(s, pat)
    decreases |s|
  {
    var r := ReplaceChar(s, a, b);
    var n := |pat|;
    if |s| >= n {
      assert r[..n] == pat <==> s[..n] == pat by {
        if s[..n] == pat {
          forall i | 0 <= i < n
            ensures r[i] == pat[i]
          {
            assert s[i] == pat[i];
          }
        }
        if r[..n] == pat {
          forall i | 0 <= i < n
            ensures s[i] == pat[i]
          {
            assert r[i] == pat[i];
          }
        }
      }
      if s[..n] == pat {
        assert r[n..] == ReplaceChar(s[n..], a, b);
        ReplaceCharKeepsOccurrences(s[n..], a, b, pat);
      } else {
        assert r[1..] == ReplaceChar(s[1..], a, b);
        ReplaceCharKeepsOccurrences(s[1..], a, b, pat);
      }
    }
  }

  /** The complete lines of a text: the pieces before each '\n'. */
  function Lines(text: string): seq<string>
  {
    var parts := Split(text, '\n');
    parts[..|parts| - 1]
  }

  /** A text that is empty or ends in a newline. */
  predicate EndsLine(text: string)
  {
    text == [] || text[|text| - 1] == '\n'
  }

  /** A leading separator starts an empty piece. */
  lemma SplitConsSep(t: string, sep: char)
    ensures Split([sep] + t, sep) == [""] + Split(t, sep)
  {
    assert ([sep] + t)[1..] == t;
  }

  /** A leading non-separator joins the first piece of the rest. */
  lemma SplitConsChar(c: char, t: string, sep: char)
    requires c != sep
    ensures Split([c] + t, sep) == [[c] + Split(t, sep)[0]] + Split(t, sep)[1..]
  {
    assert ([c] + t)[1..] == t;
  }

  /** Extending the first piece of a list of pieces commutes with appending more pieces. */
  lemma PrependToFirst(x: string, left: seq<string>, right: seq<string>)
    requires |left| >= 1
    ensures [x + (left + right)[0]] + (left + right)[1..] == ([x + left[0]] + left[1..]) + right
  {
    assert (left + right)[0] == left[0];
    assert (left + right)[1..] == left[1..] + right;
  }

  /** The inductive step of `SplitAppend` when the first character is not a separator. */
  lemma SplitAppendCharStep(c: char, a: string, b: string, sep: char)
    requires c != sep
    requires Split(a + [sep] + b, sep) == Split(a, sep) + Split(b, sep)
    ensures Split([c] + (a + [sep] + b), sep) == Split([c] + a, sep) + Split(b, sep)
  {
    SplitConsChar(c, a + [sep] + b, sep);
    SplitConsChar(c, a, sep);
    PrependToFirst([c], Split(a, sep), Split(b, sep));
  }

  /** Splitting at a separator splits the two sides independently. */
  lemma {:induction false} SplitAppend(a: string, b: string, sep: char)
    ensures Split(a + [sep] + b, sep) == Split(a, sep) + Split(b, sep)
  {
    if a == [] {
      assert a + [sep] + b == [sep] + b;
      SplitConsSep(b, sep);
    } else {
      var c, rest := a[0], a[1..];
      assert a + [sep] + b == [c] + (rest + [sep] + b);
      assert a == [c] + rest;
      SplitAppend(rest, b, sep);
      if c == sep {
        SplitConsSep(rest + [sep] + b, sep);
        SplitConsSep(rest, sep);
      } else {
        SplitAppendCharStep(c, rest, b, sep);
      }
    }
  }

  /** A newline-free line followed by a newline splits into the line and an empty rest. */
  lemma SplitTerminatedLine(line: string)
    requires '\n' !in line
    ensures Split(line + "\n", '\n') == [line, ""]
  {
    SplitCount(line, '\n');
    JoinSplit(line, '\n');
    assert multiset(line)['\n'] == 0;
    assert line + "\n" == line + ['\n'] + [];
    SplitAppend(line, [], '\n');
  }

  /** Appending `line + "\n"` to a text of complete lines adds exactly that line. */
  lemma {:induction false} AppendLine(text: string, line: string)
    requires EndsLine(text) && '\n' !in line
    ensures EndsLine(text + line + "\n")
    ensures Lines(text + line + "\n") == Lines(text) + [line]
  {
    SplitTerminatedLine(line);
    if text == [] {
      assert text + line + "\n" == line + "\n";
    } else {
      var body := text[..|text| - 1];
      assert Lines(text) == Split(body, '\n') by {
        assert text == body + ['\n'] + [];
        SplitAppend(body, [], '\n');
      }
      assert Split(text + line + "\n", '\n') == Split(body, '\n') + [line, ""] by {
        assert text + line + "\n" == body + ['\n'] + (line + "\n");
        SplitAppend(body, line + "\n", '\n');
      }
    }
  }
}
